=== FILE: README.md ===
# Firestore Node.js client core, modelled in Dafny

This project models the sequential core of the Node.js Firestore client.
There are four parts.

- **The listen engine** (`build/src/watch.js`). A query or document listener keeps three things in lockstep:
  - the documents of its last snapshot, ordered by the query comparator (`docTree`);
  - the map from name to document (`docMap`);
  - the per-cycle change accumulator (`changeMap`), where each entry is either the REMOVED sentinel or a pending snapshot.

  Each listen response is handled by `onData`. At every consistency point, `pushSnapshot` runs `computeSnapshot`. That diff applies removals, additions and modifications, each sorted by the comparator. It emits change records whose `oldIndex`/`newIndex` are ranks in the ordered results. The session flags (`current`, `hasPushed`, `isActive`, the resume token) and the stream control (`closeStream`, `maybeReopenStream`, `resetStream`, the unsubscribe closure) are modelled as a pure step function. Each step takes an event and returns the new session together with the effects it performs, in order.
- **The client pool** (`build/src/pool.js`). This maps each client to its number of outstanding operations. It covers:
  - the "fullest client with room" rule of `acquire`;
  - `release` and its idle-capacity garbage collection;
  - `size`, `opCount`, the terminated check of `run`, and `terminate`.
- **Helpers** (`build/src/util.js`). These are `autoId`, `requestTag` and `isPermanentRpcError`.
- **Client-level rules** (`build/src/index.js`). These are:
  - the bounded retry loop `_retry`;
  - the request de-duplication and result re-ordering of `getAll_`;
  - the one-shot settings freeze;
  - the `host`/`servicePath`/`apiEndpoint` conflict check;
  - the slash check of `collectionGroup`;
  - the default attempt count of `runTransaction`.

Modules:

- `DocIndex` (doc_index.dfy): documents, the comparator as an abstract strict order, the sorted sequence that stands for the red-black tree, ranks, and the sort.
- `ChangeAccumulator` (change_accumulator.dfy): `changeMap` as an insertion-ordered association list, and `extractCurrentChanges`.
- `SnapshotDiff` (snapshot_diff.dfy): `deleteDoc`, `addDoc`, `modifyDoc`, the three phases of `computeSnapshot`, and how a consumer replays change records.
- `Watch` (watch.dfy): the session, `onData`, `pushSnapshot`, stream control, and laws over arbitrary runs of events.
- `ClientPool` (pool.dfy), `Util` (util.dfy), `Firestore` (firestore.dfy): the pool, the helpers and the client-level rules.
- `Status` (status.dfy) and `Wrappers` (wrappers.dfy): gRPC status codes, `Option` and `Result`.

Some design choices:

- The comparator is a parameter `less`. It is required to be irreflexive and transitive, and total on documents with distinct names.
- Randomness (`Math.random`) is an input sequence of indices.
- The pool's client factory hands out fresh numbers.
- Each outcome of a retried request is an input.

## Model

| member | source | states |
|---|---|---|
| DocIndex.Rank | build/src/watch.js:440-441 | The rank of a document is the number of leading documents that sort before it, and the document at that rank does not sort before it. So it is both `find(doc).index` and the insertion point. |
| DocIndex.SortDocs | build/src/watch.js:487-500 | Sorting a list of documents with distinct names yields a permutation of it (same multiset) that is strictly ordered by the comparator. |
| ChangeAccumulator.Put | build/src/watch.js:372-376 | `changeMap.set` makes the new change the one looked up for that name. Every other name's lookup is unchanged, and the keys stay distinct. |
| ChangeAccumulator.Lookup | build/src/watch.js:167 | A name is absent exactly when no entry carries it. A present name yields the change of the first entry that carries it. |
| ChangeAccumulator.LookupFirst | build/src/watch.js:167 | Looking up a name yields the change of the first entry that carries it. |
| ChangeAccumulator.LookupAt | build/src/watch.js:167 | Iterating the accumulator visits each entry under its own key: looking up the name of entry `i` yields entry `i`'s change. |
| ChangeAccumulator.Build | build/src/watch.js:174-179 | A pending snapshot is built with the document's name and update time, stamped with the snapshot's read time. |
| ChangeAccumulator.Deletes | build/src/watch.js:167-172 | The delete list holds exactly the known documents that the accumulator marks REMOVED, each once. REMOVED for an unknown name is dropped. |
| ChangeAccumulator.Pendings | build/src/watch.js:173-180 | The add list (unknown names) and the update list (known names) hold exactly the pending snapshots of those names, each stamped with the read time. |
| ChangeAccumulator.Extract | build/src/watch.js:163-183 | The three lists of `extractCurrentChanges` are a complete delete list, a complete add list and a complete update list. |
| ChangeAccumulator.CurrentSize | build/src/watch.js:155-158 | `currentSize` is never negative, because each delete removes a different known document, and never above the map size plus the number of accumulated changes. That it equals the size of the next snapshot is stated by `SnapshotDiff.ComputeSnapshot`. |
| ChangeAccumulator.MarkAllRemoved | build/src/watch.js:190-196 | The cleared-then-refilled accumulator maps every document of the tree to REMOVED and no other name to anything. |
| SnapshotDiff.DeleteDoc | build/src/watch.js:437-445 | `deleteDoc` of a known name drops it from the map and removes its document from the tree. The record is REMOVED with the document, `oldIndex` equal to its rank before removal, and `newIndex` -1. Replaying the record on the old tree yields the new tree. |
| SnapshotDiff.AddDoc | build/src/watch.js:451-458 | `addDoc` of a new name stores it in the map and inserts it into the tree. The record is ADDED with `oldIndex` -1 and `newIndex` equal to its rank after insertion. Replaying the record yields the new tree. |
| SnapshotDiff.ModifyDoc | build/src/watch.js:464-474 | There is no record, and the index is unchanged, exactly when the update time is unchanged. Otherwise the result is a MODIFIED record with the new document, `oldIndex` from the delete and `newIndex` from the add. The map then holds the new version, and replay yields the new tree. |
| SnapshotDiff.ApplyDeletes | build/src/watch.js:491-494 | Deleting the sorted delete list one by one removes exactly those names. The records are REMOVED records of those documents, in list order, and they replay the old tree into the new one. |
| SnapshotDiff.ApplyAdds | build/src/watch.js:496-499 | Adding the sorted add list one by one stores exactly those documents and keeps the others. The records are ADDED records of those documents, in list order, and they replay the old tree into the new one. |
| SnapshotDiff.DeletesSteps | build/src/watch.js:491-494 | Each REMOVED record of the delete phase leaves the consumer's results ordered, so it carries the rank the document had. |
| SnapshotDiff.AddsSteps | build/src/watch.js:496-499 | Each ADDED record of the add phase leaves the consumer's results ordered, so it carries the rank the document gets. |
| SnapshotDiff.ApplyUpdates | build/src/watch.js:501-506 | Modifying documents one by one keeps the index valid and its size unchanged. |
| SnapshotDiff.UpdatesRecords | build/src/watch.js:501-506 | The records of the update phase are exactly the documents whose update time changed, against a reference definition (`ChangedOnly`), in list order. They are all MODIFIED and replay the tree, and each leaves the consumer's results ordered, so its indices are ranks. |
| SnapshotDiff.UpdatesMap | build/src/watch.js:501-506 | After the update phase, every name keeps its place in the map. An updated name holds the new version if its update time changed and the old one otherwise. |
| SnapshotDiff.ReplayAppend | build/src/watch.js:483-506 | Replaying a concatenation of change lists is replaying the first and then the second. |
| SnapshotDiff.RecordAtRank | build/src/watch.js:437-474 | A record that applies to an ordered list with distinct names and leaves it ordered carries ranks. A REMOVED record carries the document's rank before it. An ADDED record carries the rank after it. A MODIFIED record carries the one position of the name before it and the new version's rank after it. |
| SnapshotDiff.StepsAtRanks | build/src/watch.js:483-506 | When every record of a list leaves the consumer's results ordered, record `k` carries the ranks of its document in the results after records `0..k-1` and after record `k`. |
| SnapshotDiff.StepsAppend | build/src/watch.js:483-506 | Records that keep the results ordered through one list, then through a second, keep them ordered through the concatenation. |
| SnapshotDiff.SortedChanges | build/src/watch.js:482-500 | The three lists are sorted by the comparator and complete. Their sizes give `currentSize`: map size plus adds minus deletes. |
| SnapshotDiff.PhasesOrdered | build/src/watch.js:484-506 | A list of REMOVED, then ADDED, then MODIFIED records, each group sorted, is in phase order. |
| SnapshotDiff.SnapshotContents | build/src/watch.js:481-506 | After the three phases, each name's document is what the accumulator says: untouched names keep theirs, REMOVED drops it, a new pending snapshot is added, and a resent one replaces the stored version only if its update time changed. |
| SnapshotDiff.RemoveThenAdd | build/src/watch.js:491-499 | The delete phase then the add phase keep the index valid. They store exactly the added documents and drop exactly the deleted ones. Their records are the REMOVED records of the delete list, then the ADDED records of the add list. They replay the old tree into the new. |
| SnapshotDiff.RunPhases | build/src/watch.js:487-506 | Running the phases on the sorted lists changes the size by adds minus deletes. The map matches `NextDoc`, the records are phase-ordered, and they replay the old tree into the new. |
| SnapshotDiff.ThirdPhase | build/src/watch.js:501-506 | After the delete and add phases, applying the updates leaves every document as the accumulator's `NextDoc` says. All three groups of records together stay in phase order and replay the tree before the snapshot into the tree after it. |
| SnapshotDiff.RunPhasesRecords | build/src/watch.js:487-506 | The change list is, record by record, the REMOVED records of the sorted delete list, then the ADDED records of the sorted add list, then the MODIFIED records of exactly those updates whose update time changed. Nothing else appears. |
| SnapshotDiff.RunPhasesSteps | build/src/watch.js:487-506 | Every record of the three phases leaves the consumer's results ordered, so each carries its document's ranks just before and just after it. |
| SnapshotDiff.SnapshotQuiet | build/src/watch.js:481-510 | The change list is empty exactly when the snapshot leaves the index as it was. |
| SnapshotDiff.ResendsChangeNothing | build/src/watch.js:163-183 | An accumulator holding only resends of known documents with their stored update times yields no deletes, no adds and no effective modification. |
| SnapshotDiff.ComputeSnapshot | build/src/watch.js:481-510 | `computeSnapshot` ends with tree size equal to map size, and that equals the size `currentSize` predicted. For every name, the new map is `NextDoc`. The change list holds exactly the REMOVED records of the deletes, then the ADDED records of the adds, then the MODIFIED records of the updates whose update time changed, each group ascending. It is empty exactly when nothing changed. Replaying the list turns the old ordered results into the new ones, and every record leaves them ordered, so each `oldIndex`/`newIndex` is a rank (`StepsAtRanks`). |
| Watch.IsPermanentWatchError | build/src/watch.js:520-538 | An error without a code is transient. Otherwise the error is permanent exactly when its code is outside ABORTED, CANCELLED, UNKNOWN, DEADLINE_EXCEEDED, RESOURCE_EXHAUSTED, INTERNAL, UNAVAILABLE and UNAUTHENTICATED. |
| Watch.IsResourceExhaustedError | build/src/watch.js:547-549 | True exactly for code RESOURCE_EXHAUSTED, which is never permanent. |
| Watch.EndedIsTransient | build/src/watch.js:281-287 | A stream that ends carries code UNKNOWN, so it is retried with the normal backoff. |
| Watch.ContainsId | build/src/watch.js:408-413 | The loop finds an id exactly when it occurs in the list. |
| Watch.AffectsTarget | build/src/watch.js:404-414 | A change affects the target exactly when it names no targets or names this one. |
| Watch.CloseStream | build/src/watch.js:203-213 | The current stream is ended and cleared. The listener is deactivated. `onError` is called only if it was still active. |
| Watch.MaybeReopenStream | build/src/watch.js:219-231 | An active listener with a transient error drops the accumulated changes and starts a new stream. RESOURCE_EXHAUSTED first resets the backoff to its maximum. Anything else is `closeStream`. |
| Watch.ResetStream | build/src/watch.js:236-243 | The current stream is ended and cleared, and a new one is started. |
| Watch.ResetDocs | build/src/watch.js:188-198 | The accumulator maps exactly the names of the last snapshot to REMOVED. The resume token is cleared and `current` is false. Nothing else changes. |
| Watch.PushSnapshot | build/src/watch.js:420-431 | The accumulator is emptied, `hasPushed` is set, and the resume token is the given one. The new map is `NextDoc`. A notification goes out only while subscribed. It always goes out on the first push, and otherwise only with a non-empty change list, which happens exactly when the index changed. It carries the read time, the ordered documents, their count and the removals, additions and effective modifications in phase order. Those replay the old results into the new, each record leaving them ordered. |
| Watch.PushSnapshotNotifies | build/src/watch.js:422-428 | `onNext` is called exactly when the listener is subscribed and this is the first push or the diff changed something. |
| Watch.EmittedAtRanks | build/src/watch.js:420-428 | Each record handed to `onNext` carries the ranks of its document in the ordered results just before and just after it. |
| Watch.ResendsStaySilent | build/src/watch.js:420-431 | After the first snapshot, a consistency point whose accumulator only resends known documents with unchanged update times notifies nothing and keeps the index. |
| Watch.TargetChangeCore | build/src/watch.js:306-337 | Every target-change type keeps the index invariant and the session laws (see `Watch.RunLaws`). |
| Watch.OnTargetChange | build/src/watch.js:302-342 | The same holds once the backoff reset for a token-bearing change that affects the target is added. |
| Watch.OnDocumentChange | build/src/watch.js:343-378 | A change naming the target records the new version. Otherwise, one removing the target records REMOVED. Otherwise nothing changes. No other name is affected. |
| Watch.OnFilter | build/src/watch.js:386-394 | The filter branch keeps the invariant and the laws. |
| Watch.OnData | build/src/watch.js:301-398 | Every listen response keeps the index invariant and the session laws. |
| Watch.Subscribe | build/src/watch.js:131-138 | A new listener is active and subscribed, with nothing pushed, an empty index and accumulator, and one stream start. |
| Watch.Step | build/src/watch.js:272-294 | Every event keeps the invariant and the laws: data, stream error, stream end, a failed stream start, the backoff elapsing, the stream opening, and unsubscribe. |
| Watch.StreamDone | build/src/watch.js:275-288 | Errors and ends of a stream other than the current one are ignored. For the current stream, the stream is cleared and `maybeReopenStream` runs. |
| Watch.Control | build/src/watch.js:139-148 | Once the backoff elapses, an active listener sends the listen request with its resume token. A stream arriving for an inactive listener is not adopted, and `end` is emitted on it (`backendStream.emit('end')`) instead of calling `end()`. Unsubscribe deactivates, silences both callbacks, and ends the current stream. |
| Watch.RunLaws | build/src/watch.js:208-212 | Over any run of events, each of the following holds: `onError` fires at most once and only while active; a deactivated or unsubscribed listener never revives; `onNext` never fires after unsubscribe; while subscribed, a consumer applying every change list holds the listener's ordered documents. |
| Watch.ErrorAtMostOnce | build/src/watch.js:208-212 | From subscription on, `onError` is called at most once, whatever the events. |
| Watch.SilentAfterUnsubscribe | build/src/watch.js:139-148 | After unsubscribe, no callback is ever invoked. |
| Watch.ConsumerTracksIndex | build/src/watch.js:424-426 | A consumer that starts empty and applies every snapshot's change list holds exactly the listener's ordered documents while subscribed. |
| Watch.NoChangeRule | build/src/watch.js:306-312 | NO_CHANGE pushes a snapshot exactly when it names no target, has a read time, and the target is current. The push empties the accumulator and keeps the token. Otherwise only the backoff reset happens. |
| Watch.CurrentRule | build/src/watch.js:332-334 | CURRENT only sets `current`. |
| Watch.AddRule | build/src/watch.js:313-317 | ADD whose first target id is the watch target does nothing. Otherwise it closes the stream, with the unexpected-target error reported exactly when the listener was active. |
| Watch.RemoveRule | build/src/watch.js:318-327 | REMOVE closes the stream and reports the cause's code and message, or INTERNAL and "internal error" without a cause. |
| Watch.ResetRule | build/src/watch.js:328-331 | RESET keeps the index, clears the token and `current`, and marks every known document REMOVED. |
| Watch.ResetEmptiesSnapshot | build/src/watch.js:188-198 | A snapshot right after a reset, with nothing resent, is empty, and `currentSize` is 0. |
| Watch.FilterRule | build/src/watch.js:386-393 | A filter count equal to `currentSize` changes nothing. Any other count resets the documents and restarts the stream. |
| Watch.TransientErrorResumes | build/src/watch.js:219-227 | A transient error on the current stream reports nothing, drops the accumulator, restarts, and resumes from the resume token held before the error. |
| Watch.PermanentErrorCloses | build/src/watch.js:228-230 | A permanent error on the current stream deactivates the listener and reports the error once. |
| Watch.StaleStreamIgnored | build/src/watch.js:276-282 | Events of a stream that is not the current one change nothing. |
| ClientPool.NewPool | build/src/pool.js:41-56 | A new pool is empty, has no operations and is not terminated. |
| ClientPool.Find | build/src/pool.js:66 | A client is found exactly when registered, and at its position. |
| ClientPool.Pick | build/src/pool.js:64-75 | The scan returns no client exactly when every client is at the limit. Otherwise it returns a client below the limit whose count is maximal among those below the limit, and no earlier such client has an equal count. |
| ClientPool.Acquire | build/src/pool.js:63-87 | An existing client is used exactly when one is below the limit, and then the fullest one, the earliest among equals. The chosen client's count grows by exactly one and no other count changes. The pool grows exactly when the client is new. `opCount` grows by one. With a positive limit, counts stay within the limit. |
| ClientPool.SizeCountsClients | build/src/pool.js:125-127 | `size` is the number of distinct registered clients, and a client is registered exactly when it is in that set. |
| ClientPool.OpCountCovers | build/src/pool.js:135-139 | `opCount` sums every client's count: each count is at most `opCount`, and `opCount` is 0 exactly when every client is idle. |
| ClientPool.IdleIsSpare | build/src/pool.js:112-115 | The summed idle capacity Σ(limit − count), as `IdleCapacity` computes it, equals limit × size − opCount. |
| ClientPool.ShouldGarbageCollect | build/src/pool.js:108-117 | Collect exactly a registered client with count 0 while limit × size − opCount exceeds maxIdle × limit. |
| ClientPool.Release | build/src/pool.js:93-102 | Release fails exactly when the client has no outstanding operation. Otherwise its count drops by one and no other changes. The client leaves the pool exactly when it fell idle and the spare capacity after the release exceeds maxIdle × limit. |
| ClientPool.RunStart | build/src/pool.js:151-155 | A terminated pool rejects with "The client has already been terminated". Otherwise one operation is acquired. |
| ClientPool.Terminate | build/src/pool.js:166-172 | The pool is terminated and empty, every client is disposed of in insertion order, and `run` is refused afterwards. |
| ClientPool.OpCountWithin | build/src/pool.js:135-139 | With every count within the limit, `opCount` is at most limit × size. |
| ClientPool.AcquireKeepsBusy | build/src/pool.js:85 | If every registered client has an operation, acquiring keeps that so. |
| ClientPool.ReleaseKeepsBusy | build/src/pool.js:96-99 | With maxIdle 0, releasing keeps every registered client busy: a client is disposed of as soon as it falls idle. |
| ClientPool.BusyEmpty | build/src/pool.js:125-139 | If every client is busy, `opCount` ≥ `size`, so a pool without operations is empty. Together with the two lemmas above, this is why the pool returns to size 0 in `test/pool.js` "garbage collects after success". |
| ClientPool.AcquireRelease | build/src/pool.js:85-96 | Releasing the client just acquired restores every client's count. |
| ClientPool.BinPackingGrows | build/test/pool.js:82-110 | With limit 2 and two full clients (model clients 0 and 1, the test's 1 and 2), the next operation gets a new client. |
| ClientPool.BinPackingReuses | build/test/pool.js:111-118 | The model numbers clients from 0, so the test's clients 1, 2 and 3 are model clients 0, 1 and 2. Model client 1 (the test's client 2), after freeing a slot, takes the next operation ahead of the equally loaded, later model client 2. |
| ClientPool.IdleClientsTrimmed | build/test/pool.js:184-201 | With limit 1 and maxIdle 3, releasing the last busy client of four leaves three clients. |
| ClientPool.IdleClientKept | build/test/pool.js:196-198 | Releasing the first of four busy clients keeps all four. |
| Util.AlphabetSpelled | build/src/util.js:43 | The alphabet is the upper-case letters, the lower-case letters, then the digits. |
| Util.PositionInverts | build/src/util.js:46 | Indexing into the alphabet can be undone, so the alphabet has no repeated character. |
| Util.AutoId | build/src/util.js:42-49 | The identifier has 20 characters from the alphabet, and character `i` is the alphabet entry at draw `i`. |
| Util.AutoIdInjective | build/src/util.js:42-49 | Different draws give different identifiers. |
| Util.RequestTag | build/src/util.js:59-61 | A tag is the first 5 characters of an identifier: alphabet characters at the first five draws. |
| Util.UpperChar | build/src/util.js:113 | A lower-case letter becomes the matching upper-case letter. Any other character is unchanged. |
| Util.ConfigKey | build/src/util.js:113 | The key fails exactly for an empty name. Otherwise it has the same length and tail, and its first character is the name's first character upper-cased (`UpperChar`), so it is never lower case. A name already starting upper case is unchanged. |
| Util.ConfigKeyIdempotent | build/src/util.js:113 | The key of a key is itself. |
| Util.RetryCodesContain | build/src/util.js:115-116 | The code is found exactly when some configured status name maps to it. |
| Util.IsPermanentRpcError | build/src/util.js:111-121 | An error without a code is not permanent. With a code, the check fails exactly when the method or its retry list is missing. Otherwise the error is permanent exactly when no configured retry name maps to the code. |
| Status.CodeOf | build/src/util.js:115 | Every defined status name maps to a code between OK and UNAUTHENTICATED. |
| Status.NamesRoundTrip | build/src/util.js:115 | Each code's name maps back to that code. |
| Firestore.Retry | build/src/index.js:780-802 | It makes between 1 and 5 attempts, and every attempt before the last failed transiently. The result is the last attempt's outcome. A failure means either five attempts were used or the last error is permanent. |
| Firestore.RetriesExhausted | build/src/index.js:783-801 | A request that keeps failing transiently is tried exactly 5 times and rejects with the fifth error. |
| Firestore.FirstIndex | build/src/index.js:652-654 | The first position of a path: it is there, and not earlier. |
| Firestore.RequestedDocuments | build/src/index.js:650-658 | The request names exactly the requested paths, each once, and is no longer than the reference list. |
| Firestore.RequestedInOrder | build/src/index.js:652-658 | The request lists paths in order of their first reference. |
| Firestore.LastResponse | build/src/index.js:683 | The last response for a path: it names the path, and no later one does. |
| Firestore.Retrieved | build/src/index.js:671-684 | A path is retrieved exactly when some response names it, and it holds the snapshot of the last such response. |
| Firestore.SnapshotOf | build/src/index.js:674-681 | A response's snapshot has its name, and data exactly when the document was found, in which case it is the found document's data. |
| Firestore.Ordered | build/src/index.js:690-711 | On success there is one snapshot per reference, in the caller's order, with duplicates, each rebuilt on the caller's path. Success requires every reference to be retrieved. Otherwise the read rejects with "Did not receive document for ..." naming the first missing reference. |
| Firestore.GetAll | build/src/index.js:650-711 | Each requested path is asked for once. The read succeeds exactly when every reference got some response. It then yields one snapshot per reference, on that reference's path, existing exactly when the last response for the path found the document, and then holding that response's data. |
| Firestore.GetAllAnswered | build/src/index.js:690-711 | When every requested path is answered, the read succeeds with one snapshot per reference, on that reference's path. |
| Firestore.Merge | build/src/index.js:345 | A given setting overrides the current one. Absent settings keep theirs. |
| Firestore.ValidateAndApply | build/src/index.js:349-371 | A given project id is adopted first, even when the call then throws. The call throws exactly when a host is combined with a service path or an API endpoint, with the message naming the conflicting setting, and then the settings are unchanged. Otherwise the host, if any, becomes the service path, its port filling an unset port, and is dropped. The frozen flag is never touched. |
| Firestore.ApplySettings | build/src/index.js:337-348 | `settings()` on frozen settings throws the already-initialized error and changes nothing. Otherwise the merged settings are validated: the merged project id is adopted either way. The call succeeds exactly when they validate, and only then freezes the settings. On success the stored settings are exactly those that validating and applying the merged settings produce. A refused call leaves the settings unfrozen and as they were. |
| Firestore.GivenSettingsWin | build/src/index.js:331-348 | Settings given through `settings()` take precedence. When a call without a host succeeds, the stored settings are the current ones with the given keys laid over them. Each given key is stored as given, and an absent port keeps its current value. |
| Firestore.InitializeIfNeeded | build/src/index.js:734-735 | Initialization freezes the settings and changes nothing else. |
| Firestore.SettingsOnce | build/src/index.js:340-347 | Settings cannot be applied after initialization, nor again after a successful call. |
| Firestore.RefusedCallKeepsProjectId | build/src/index.js:349-358 | A `settings()` call with a project id, a host and a service path throws the host/servicePath error, yet the client keeps the new project id and stays unfrozen. |
| Firestore.HostConsumed | build/src/index.js:367-370 | Applied settings no longer hold the host, so re-validating them with a service path succeeds. |
| Firestore.CollectionGroup | build/src/index.js:470-473 | The id is refused, with the source's message, exactly when it contains '/'. |
| Firestore.MaxAttempts | build/src/index.js:579-589 | Without options or `maxAttempts`, there are 5 attempts. A given value is used exactly when it is at least 1, and is refused otherwise. |

## Left out

- Stream and RPC plumbing is not modelled: the gRPC streams, `initStream`'s promise chain, `requestStream`, `_initializeStream` and the GAPIC clients. Their outcomes are events of the step function: the backoff elapsing, the stream opening, a failed start, a stream error, and a stream end.
- Backoff timing is not modelled. `ExponentialBackoff` is not part of this model, so `backoff.reset()`, `backoff.resetToMax()` and the wait appear only as effects.
- The red-black tree library is replaced by a strictly sorted sequence. A document's rank is its position.
- The query comparator and document encoding are abstract. The comparator is a parameter required to be a strict order that is total on distinct names, and field data is opaque.
- The `DocumentWatch` comparator, which asserts that both arguments are the same document, is not modelled. It is not total on distinct names.
- Path parsing (`QualifiedResourcePath`) is not modelled. Names are opaque strings; a delete and a remove of a document are handled alike.
- Watch.OnData: an absent `targetIds` list is treated as the empty list. For ADD, the source reads `targetIds[0]`, which would throw on an absent list rather than close the stream.
- Watch.RemoveRule: the REMOVE error is modelled as a plain error carrying the code and message as data. Like the source's `Error`, it has no `.code`, so it is never retried through `maybeReopenStream`.
- Watch.IsPermanentWatchError follows the code, which counts ABORTED among the transient codes.
- Logging is not modelled, and neither is `timestamp.now()` inside `currentSize`. The read time is irrelevant to a size.
- `Math.random` is replaced by an arbitrary index in [0, 62) per character.
- Util.UpperChar: `toUpperCase` is modelled for ASCII letters only. Unicode case mapping is not modelled.
- The pool's client factory is modelled as fresh numbers. The destructor's asynchronous work is reduced to the list of disposed clients.
- The promise chaining of `ClientPool.run` is not modelled. The start of `run` is `RunStart`, and the completion of the operation, successful or not, is a `Release`.
- ClientPool.Acquire: the within-limit bound is stated for positive limits only. With a limit of 0, every acquire creates a client that already holds one operation.
- Firestore.Retry: the backoff wait is not modelled. The permanent-error classification is a total parameter, so a classification that throws inside the retry's `catch` is not modelled.
- The error-stream path of `getAll_` (the stream's `error` event) and the field mask are not modelled. Formatted names and paths identify the same document.
- The argument validators (`validate.js` is not part of this model) are not modelled, except the `maxAttempts` ≥ 1 check, which is modelled in `MaxAttempts`.
- Firestore.ValidateAndApply: the host is taken as already split into a host name and an optional port; URL parsing is not modelled. The `ssl`, `maxIdleChannels` and other settings are not modelled.
- Firestore.Merge treats an explicitly `undefined` key as absent.
- Firestore.InitializeIfNeeded: project id detection is a remote call through the pool and is not modelled. Only the settings freeze is.
- Constructing the `Firestore` client and reading environment variables are not modelled.

=== FILE: change_accumulator.dfy ===
/** The per-cycle change accumulator (`changeMap`) of a listener: for every
    document name touched since the last snapshot, either the REMOVED
    sentinel or a pending snapshot whose read time is not yet known.

    A JavaScript `Map` iterates in insertion order and `set` on an existing
    key keeps its position, so the accumulator is an association list with
    distinct keys. */
module ChangeAccumulator {
  import opened Wrappers
  import opened DocIndex

  /** A `DocumentSnapshotBuilder` before its read time is assigned. */
  datatype Pending = Pending(fields: FieldData, createTime: Timestamp, updateTime: Timestamp)

  datatype Change = RemovedMarker | Changed(pending: Pending)

  datatype Entry = Entry(name: Name, change: Change)

  type ChangeMap = seq<Entry>

  ghost predicate DistinctKeys(cm: ChangeMap) {
    forall i, j :: 0 <= i < j < |cm| ==> cm[i].name != cm[j].name
  }

  /** Stamps a pending snapshot with the snapshot's read time (`build()`). */
  function Build(name: Name, p: Pending, readTime: Timestamp): (d: Doc)
    ensures d.name == name && d.updateTime == p.updateTime && d.readTime == readTime
  {
    Doc(name, p.fields, p.createTime, p.updateTime, readTime)
  }

  /** `changeMap.get(name)`. */
  function Lookup(cm: ChangeMap, n: Name): (r: Option<Change>)
    ensures r.None? <==> forall i :: 0 <= i < |cm| ==> cm[i].name != n
  {
    if |cm| == 0 then None
    else if cm[0].name == n then Some(cm[0].change)
    else Lookup(cm[1..], n)
  }

  /** A lookup yields the change of the first entry carrying the name. */
  lemma {:induction false} LookupFirst(cm: ChangeMap, n: Name, i: nat)
    requires i < |cm| && cm[i].name == n
    requires forall k :: 0 <= k < i ==> cm[k].name != n
    ensures Lookup(cm, n) == Some(cm[i].change)
    decreases i
  {
    if i > 0 {
      LookupFirst(cm[1..], n, i - 1);
    }
  }

  lemma LookupAt(cm: ChangeMap, i: nat)
    requires DistinctKeys(cm) && i < |cm|
    ensures Lookup(cm, cm[i].name) == Some(cm[i].change)
  {
    if i > 0 {
      LookupAt(cm[1..], i - 1);
    }
  }

  /** `changeMap.set(name, change)`: overwrite in place, or append. The last
      write for a name wins and no other name is affected. */
  function Put(cm: ChangeMap, n: Name, c: Change): (r: ChangeMap)
    requires DistinctKeys(cm)
    ensures DistinctKeys(r)
    ensures Lookup(r, n) == Some(c)
    ensures forall m :: m != n ==> Lookup(r, m) == Lookup(cm, m)
  {
    if |cm| == 0 then [Entry(n, c)]
    else if cm[0].name == n then
      assert Lookup(cm[1..], n).None?;
      [Entry(n, c)] + cm[1..]
    else
      var rest := Put(cm[1..], n, c);
      assert Lookup(cm[1..], cm[0].name).None?;
      [cm[0]] + rest
  }

  /** The three lists `extractCurrentChanges` builds, with every pending
      snapshot stamped with the read time. `deletes` holds the documents of
      the last snapshot that are being removed (the JavaScript client keeps their names
      and looks the documents up for sorting). */
  datatype ChangeSet = ChangeSet(deletes: seq<Doc>, adds: seq<Doc>, updates: seq<Doc>)

  /** Splits the accumulated changes, in accumulator order: REMOVED for a
      known name is a delete, REMOVED for an unknown name is dropped, a
      pending snapshot for a known name is an update and one for an unknown
      name is an add. */
  function Extract(docs: map<Name, Doc>, cm: ChangeMap, readTime: Timestamp): (r: ChangeSet)
    requires DistinctKeys(cm)
    requires forall n :: n in docs ==> docs[n].name == n
    ensures DeleteList(docs, cm, r.deletes)
    ensures PendingList(docs, cm, readTime, false, r.adds)
    ensures PendingList(docs, cm, readTime, true, r.updates)
  {
    ChangeSet(Deletes(docs, cm), Pendings(docs, cm, readTime, false), Pendings(docs, cm, readTime, true))
  }

  /** `ds` lists the known documents the accumulator marks REMOVED: each of
      its entries is one, and every such document is among them. */
  ghost predicate DeleteList(docs: map<Name, Doc>, cm: ChangeMap, ds: seq<Doc>) {
    && (forall i :: 0 <= i < |ds| ==>
          ds[i].name in docs && docs[ds[i].name] == ds[i] && Lookup(cm, ds[i].name) == Some(RemovedMarker))
    && (forall n :: n in docs && Lookup(cm, n) == Some(RemovedMarker) ==> docs[n] in ds)
  }

  /** `xs` lists the pending snapshots, stamped with `readTime`, whose name is
      known (`known`) or new (not `known`): each entry is one, and every such
      snapshot is among them. */
  ghost predicate PendingList(docs: map<Name, Doc>, cm: ChangeMap, readTime: Timestamp, known: bool, xs: seq<Doc>) {
    && (forall i :: 0 <= i < |xs| ==>
          (xs[i].name in docs <==> known) && HasPending(cm, xs[i].name)
          && xs[i] == Build(xs[i].name, Lookup(cm, xs[i].name).value.pending, readTime))
    && (forall n :: (n in docs <==> known) && HasPending(cm, n) ==>
          Build(n, Lookup(cm, n).value.pending, readTime) in xs)
  }

  /** The delete list of `Extract`. */
  function Deletes(docs: map<Name, Doc>, cm: ChangeMap): (r: seq<Doc>)
    requires DistinctKeys(cm)
    requires forall n :: n in docs ==> docs[n].name == n
    ensures |r| <= |cm| && DistinctNames(r)
    ensures forall i :: 0 <= i < |r| ==>
              r[i].name in docs && docs[r[i].name] == r[i] && Lookup(cm, r[i].name) == Some(RemovedMarker)
    ensures forall n :: n in docs && Lookup(cm, n) == Some(RemovedMarker) ==> docs[n] in r
  {
    if |cm| == 0 then []
    else
      var rest := Deletes(docs, cm[1..]);
      assert Lookup(cm[1..], cm[0].name).None?;
      if cm[0].change.RemovedMarker? && cm[0].name in docs then [docs[cm[0].name]] + rest else rest
  }

  /** Whether the accumulator holds a pending snapshot for `n`. */
  predicate HasPending(cm: ChangeMap, n: Name) {
    Lookup(cm, n).Some? && Lookup(cm, n).value.Changed?
  }

  /** The add list (`known` false) or the update list (`known` true) of
      `Extract`: the pending snapshots whose name is (known) or is not in the
      last snapshot, each stamped with the read time. */
  function Pendings(docs: map<Name, Doc>, cm: ChangeMap, readTime: Timestamp, known: bool): (r: seq<Doc>)
    requires DistinctKeys(cm)
    ensures |r| <= |cm| && DistinctNames(r)
    ensures forall i :: 0 <= i < |r| ==>
              (r[i].name in docs <==> known) && HasPending(cm, r[i].name)
              && r[i] == Build(r[i].name, Lookup(cm, r[i].name).value.pending, readTime)
    ensures forall n :: (n in docs <==> known) && HasPending(cm, n) ==>
              Build(n, Lookup(cm, n).value.pending, readTime) in r
  {
    if |cm| == 0 then []
    else
      var rest := Pendings(docs, cm[1..], readTime, known);
      assert Lookup(cm[1..], cm[0].name).None?;
      if cm[0].change.Changed? && (cm[0].name in docs <==> known)
      then [Build(cm[0].name, cm[0].change.pending, readTime)] + rest
      else rest
  }

  /** `currentSize()`: the number of documents the next snapshot will hold. */
  function CurrentSize(docs: map<Name, Doc>, cm: ChangeMap): (r: int)
    requires DistinctKeys(cm)
    requires forall n :: n in docs ==> docs[n].name == n
    ensures 0 <= r <= |docs| + |cm|
  {
    var set_ := Extract(docs, cm, Timestamp(0, 0));
    DeletesFit(docs, cm);
    |docs| + |set_.adds| - |set_.deletes|
  }

  /** Each delete removes a different known document, so there are no
      more deletes than known documents. */
  lemma DeletesFit(docs: map<Name, Doc>, cm: ChangeMap)
    requires DistinctKeys(cm)
    requires forall n :: n in docs ==> docs[n].name == n
    ensures |Deletes(docs, cm)| <= |docs|
  {
    var ds := Deletes(docs, cm);
    DistinctNamesCard(ds);
    var names := NamesOf(ds);
    assert names <= docs.Keys;
    assert |docs.Keys - names| == |docs.Keys| - |names|;
  }

  /** The names of the documents in `t`. */
  function NamesOf(t: seq<Doc>): set<Name> {
    set i | 0 <= i < |t| :: t[i].name
  }

  /** Distinct names: as many names as documents. */
  lemma {:induction false} DistinctNamesCard(t: seq<Doc>)
    requires DistinctNames(t)
    ensures |NamesOf(t)| == |t|
  {
    if |t| > 0 {
      DistinctNamesCard(t[1..]);
      assert NamesOf(t) == {t[0].name} + NamesOf(t[1..]);
      assert t[0].name !in NamesOf(t[1..]);
    }
  }

  /** The accumulator `resetDocs` leaves behind: REMOVED for every document of
      the index, in index order. */
  function MarkAllRemoved(tree: seq<Doc>): (r: ChangeMap)
    requires DistinctNames(tree)
    ensures |r| == |tree| && DistinctKeys(r)
    ensures forall n :: Lookup(r, n) == (if n in NamesOf(tree) then Some(RemovedMarker) else None)
  {
    if |tree| == 0 then []
    else
      var rest := MarkAllRemoved(tree[1..]);
      assert NamesOf(tree) == {tree[0].name} + NamesOf(tree[1..]);
      assert tree[0].name !in NamesOf(tree[1..]);
      [Entry(tree[0].name, RemovedMarker)] + rest
  }

}

=== FILE: doc_index.dfy ===
/** The ordered document index of a listener: the documents of the last
    emitted snapshot, kept sorted under the query's comparator, together with
    the name-to-document map that is updated in lockstep with it.

    The JavaScript client keeps the order in a persistent red-black tree; here it is a
    strictly sorted sequence and a document's rank is its position. */
module DocIndex {

  /** Relative document path; treated as an opaque key. */
  type Name = string

  /** A protobuf timestamp; equality is `Timestamp.isEqual`. */
  datatype Timestamp = Timestamp(seconds: int, nanos: int)

  /** Encoded field data of a document; opaque to the listener. */
  type FieldData = seq<int>

  /** A built query document snapshot. */
  datatype Doc = Doc(name: Name, fields: FieldData, createTime: Timestamp,
                     updateTime: Timestamp, readTime: Timestamp)

  /** What the index needs of the query comparator: a strict order that is
      total on documents with different names. Two versions of one document
      (same name) may compare either way, as the query's field order decides. */
  ghost predicate IsDocOrder(less: (Doc, Doc) -> bool) {
    && (forall a {:trigger less(a, a)} :: !less(a, a))
    && (forall a, b, c {:trigger less(a, b), less(b, c), less(a, c)} :: less(a, b) && less(b, c) ==> less(a, c))
    && (forall a: Doc, b: Doc {:trigger less(a, b), less(b, a)} :: a.name != b.name ==> less(a, b) || less(b, a))
  }

  ghost predicate Sorted(less: (Doc, Doc) -> bool, t: seq<Doc>) {
    forall i, j :: 0 <= i < j < |t| ==> less(t[i], t[j])
  }

  ghost predicate DistinctNames(t: seq<Doc>) {
    forall i, j :: 0 <= i < j < |t| ==> t[i].name != t[j].name
  }

  /** `d`'s name occurs nowhere in `t`. */
  ghost predicate NameAbsent(t: seq<Doc>, d: Doc) {
    forall i :: 0 <= i < |t| ==> t[i].name != d.name
  }

  /** The rank of `d` in the ordered sequence `t`: the number of leading
      entries that sort before it. This is both `find(doc).index` and the
      position at which `insert(doc)` places a new document. */
  function Rank(less: (Doc, Doc) -> bool, t: seq<Doc>, d: Doc): (r: nat)
    ensures r <= |t|
    ensures forall j :: 0 <= j < r ==> less(t[j], d)
    ensures r < |t| ==> !less(t[r], d)
  {
    if |t| == 0 || !less(t[0], d) then 0 else 1 + Rank(less, t[1..], d)
  }

  function InsertAt(t: seq<Doc>, k: nat, d: Doc): (r: seq<Doc>)
    requires k <= |t|
    ensures |r| == |t| + 1 && r[k] == d
    ensures r[..k] == t[..k] && r[k + 1..] == t[k..]
  {
    t[..k] + [d] + t[k..]
  }

  function RemoveAt(t: seq<Doc>, k: nat): (r: seq<Doc>)
    requires k < |t|
    ensures |r| == |t| - 1
    ensures r[..k] == t[..k] && r[k..] == t[k + 1..]
  {
    t[..k] + t[k + 1..]
  }

  /** In an ordered sequence, the rank of a member is its position. */
  lemma RankOfMember(less: (Doc, Doc) -> bool, t: seq<Doc>, k: nat)
    requires IsDocOrder(less) && Sorted(less, t) && k < |t|
    ensures Rank(less, t, t[k]) == k
  {
  }

  /** A document whose name is new to an ordered sequence sorts after every
      entry before its rank and before every entry from its rank on. */
  lemma RankSplits(less: (Doc, Doc) -> bool, t: seq<Doc>, d: Doc)
    requires IsDocOrder(less) && Sorted(less, t) && NameAbsent(t, d)
    ensures forall j :: 0 <= j < |t| ==>
              (j < Rank(less, t, d) ==> less(t[j], d)) &&
              (j >= Rank(less, t, d) ==> less(d, t[j]))
  {
    var r := Rank(less, t, d);
    if r < |t| {
      assert less(d, t[r]);
      forall j | r < j < |t|
        ensures less(d, t[j])
      {
        assert less(t[r], t[j]);
      }
    }
  }

  /** Inserting a new name at its rank keeps the sequence ordered. */
  lemma InsertAtRankSorted(less: (Doc, Doc) -> bool, t: seq<Doc>, d: Doc)
    requires IsDocOrder(less) && Sorted(less, t) && NameAbsent(t, d)
    ensures Sorted(less, InsertAt(t, Rank(less, t, d), d))
    ensures Rank(less, InsertAt(t, Rank(less, t, d), d), d) == Rank(less, t, d)
  {
    var k := Rank(less, t, d);
    var r := InsertAt(t, k, d);
    RankSplits(less, t, d);
    forall i, j | 0 <= i < j < |r|
      ensures less(r[i], r[j])
    {
      if j < k {
        assert r[i] == t[i] && r[j] == t[j];
      } else if j == k {
        assert r[i] == t[i];
      } else if i == k {
        assert r[j] == t[j - 1];
      } else if i < k {
        assert r[i] == t[i] && r[j] == t[j - 1];
      } else {
        assert r[i] == t[i - 1] && r[j] == t[j - 1];
      }
    }
    RankOfMember(less, r, k);
  }

  lemma RemoveAtSorted(less: (Doc, Doc) -> bool, t: seq<Doc>, k: nat)
    requires Sorted(less, t) && k < |t|
    ensures Sorted(less, RemoveAt(t, k))
  {
    var r := RemoveAt(t, k);
    forall i, j | 0 <= i < j < |r|
      ensures less(r[i], r[j])
    {
      var i' := if i < k then i else i + 1;
      var j' := if j < k then j else j + 1;
      assert r[i] == t[i'] && r[j] == t[j'];
    }
  }

  /** `Array.prototype.sort` with the query comparator. The comparator is
      total on distinct names, so the result is the unique ordered
      permutation; insertion at rank computes it. */
  function SortDocs(less: (Doc, Doc) -> bool, xs: seq<Doc>): (r: seq<Doc>)
    requires IsDocOrder(less) && DistinctNames(xs)
    ensures multiset(r) == multiset(xs)
    ensures Sorted(less, r)
  {
    if |xs| == 0 then []
    else
      var s := SortDocs(less, xs[..|xs| - 1]);
      var x := xs[|xs| - 1];
      SortStep(less, xs, s);
      InsertAt(s, Rank(less, s, x), x)
  }

  /** One insertion step of `SortDocs`: the last element's name is new to the
      sorted prefix, so inserting it at its rank keeps order and contents. */
  lemma SortStep(less: (Doc, Doc) -> bool, xs: seq<Doc>, s: seq<Doc>)
    requires IsDocOrder(less) && DistinctNames(xs) && |xs| > 0
    requires Sorted(less, s) && multiset(s) == multiset(xs[..|xs| - 1])
    ensures NameAbsent(s, xs[|xs| - 1])
    ensures Sorted(less, InsertAt(s, Rank(less, s, xs[|xs| - 1]), xs[|xs| - 1]))
    ensures multiset(InsertAt(s, Rank(less, s, xs[|xs| - 1]), xs[|xs| - 1])) == multiset(xs)
  {
    var init := xs[..|xs| - 1];
    var x := xs[|xs| - 1];
    PrefixLacksLast(xs, s);
    InsertAtRankSorted(less, s, x);
    InsertAtMultiset(s, Rank(less, s, x), x);
    assert xs == init + [x];
  }

  /** Every document of a permutation of `xs` without its last element has a
      name other than the last element's. */
  lemma PrefixLacksLast(xs: seq<Doc>, s: seq<Doc>)
    requires DistinctNames(xs) && |xs| > 0 && multiset(s) == multiset(xs[..|xs| - 1])
    ensures NameAbsent(s, xs[|xs| - 1])
  {
    var init := xs[..|xs| - 1];
    forall i | 0 <= i < |s|
      ensures s[i].name != xs[|xs| - 1].name
    {
      assert s[i] in multiset(init);
      var j :| 0 <= j < |init| && init[j] == s[i];
      assert xs[j] == s[i];
    }
  }

  lemma InsertAtMultiset(s: seq<Doc>, k: nat, x: Doc)
    requires k <= |s|
    ensures multiset(InsertAt(s, k, x)) == multiset(s) + multiset{x}
  {
    assert s == s[..k] + s[k..];
  }
}

=== FILE: firestore.dfy ===
/** The client-level sequential rules of the `Firestore` class: the bounded
    retry of idempotent requests, the request and re-ordering logic of
    batched document reads, the one-shot settings freeze with its option
    conflicts, the collection-group id check and the default transaction
    attempt count. */
module Firestore {
  import opened Wrappers

  // ---------------------------------------------------------------------
  // _retry

  /** `MAX_REQUEST_RETRIES`: the attempts an idempotent request gets. */
  const MAX_REQUEST_RETRIES := 5

  /** `_retry`. Attempt `k` settles as `outcomes[k]` (the awaited `func()`);
      `permanent` is the RPC error classification for the method. The loop
      returns the first success; after a permanent error, or once the
      attempts are used up, it rejects with the last error. Backoff waits
      are not modelled. */
  method Retry<T, E>(outcomes: seq<Result<T, E>>, permanent: E -> bool) returns (r: Result<T, E>, attempts: nat)
    requires |outcomes| >= MAX_REQUEST_RETRIES
    ensures 1 <= attempts <= MAX_REQUEST_RETRIES
    ensures forall k :: 0 <= k < attempts - 1 ==> outcomes[k].Failure? && !permanent(outcomes[k].error)
    ensures r == outcomes[attempts - 1]
    ensures r.Failure? ==> attempts == MAX_REQUEST_RETRIES || permanent(r.error)
  {
    attempts := 0;
    r := outcomes[0];
    while attempts < MAX_REQUEST_RETRIES
      invariant 0 <= attempts <= MAX_REQUEST_RETRIES
      invariant forall k :: 0 <= k < attempts ==> outcomes[k].Failure? && !permanent(outcomes[k].error)
      invariant attempts > 0 ==> r == outcomes[attempts - 1]
    {
      r := outcomes[attempts];
      attempts := attempts + 1;
      if r.Success? || permanent(r.error) {
        return;
      }
    }
  }

  /** A request that keeps failing with retryable errors is tried exactly
      `MAX_REQUEST_RETRIES` times and rejects with the fifth error. */
  lemma RetriesExhausted<T, E>(outcomes: seq<Result<T, E>>, permanent: E -> bool, r: Result<T, E>, attempts: nat)
    requires |outcomes| >= MAX_REQUEST_RETRIES
    requires forall k :: 0 <= k < MAX_REQUEST_RETRIES ==> outcomes[k].Failure? && !permanent(outcomes[k].error)
    requires 1 <= attempts <= MAX_REQUEST_RETRIES && r == outcomes[attempts - 1]
    requires r.Failure? ==> attempts == MAX_REQUEST_RETRIES || permanent(r.error)
    ensures attempts == MAX_REQUEST_RETRIES && r == outcomes[MAX_REQUEST_RETRIES - 1]
  {
  }

  // ---------------------------------------------------------------------
  // getAll_

  /** A document path; its formatted name is a fixed prefix plus the path,
      so the two identify the same document. */
  type Path = string

  /** One `BatchGetDocuments` response: a found document with its data, or
      the name of a missing one. */
  datatype Response<D> = Found(name: Path, data: D) | Missing(name: Path)

  /** A document snapshot: its path, and its data if it exists. */
  datatype Snapshot<D> = Snapshot(path: Path, data: Option<D>)

  /** The position of the first occurrence of `x`. */
  function FirstIndex(s: seq<Path>, x: Path): (r: nat)
    requires x in s
    ensures r < |s| && s[r] == x && x !in s[..r]
  {
    if s[0] == x then 0 else 1 + FirstIndex(s[1..], x)
  }

  /** `Array.from(requestedDocuments)`: the requested paths with repeats
      dropped, in order of first request. */
  function RequestedDocuments(refs: seq<Path>): (r: seq<Path>)
    ensures |r| <= |refs|
    ensures forall x :: x in r <==> x in refs
    ensures forall i, j :: 0 <= i < j < |r| ==> r[i] != r[j]
    decreases |refs|
  {
    if |refs| == 0 then []
    else
      var prev := RequestedDocuments(refs[..|refs| - 1]);
      assert forall x :: x in refs <==> x in refs[..|refs| - 1] || x == refs[|refs| - 1];
      if refs[|refs| - 1] in prev then prev else prev + [refs[|refs| - 1]]
  }

  /** The requested paths keep the order of their first request. */
  lemma {:induction false} RequestedInOrder(refs: seq<Path>, i: nat, j: nat)
    requires i < j < |RequestedDocuments(refs)|
    ensures FirstIndex(refs, RequestedDocuments(refs)[i]) < FirstIndex(refs, RequestedDocuments(refs)[j])
    decreases |refs|
  {
    var init := refs[..|refs| - 1];
    var prev := RequestedDocuments(init);
    var r := RequestedDocuments(refs);
    if j < |prev| {
      RequestedInOrder(init, i, j);
      FirstIndexPrefix(refs, r[i]);
      FirstIndexPrefix(refs, r[j]);
    } else {
      assert r[j] == refs[|refs| - 1] && r[j] !in init;
      FirstIndexPrefix(refs, r[i]);
      assert FirstIndex(refs, r[j]) == |refs| - 1;
    }
  }

  /** A path present before the last request keeps its first index. */
  lemma {:induction false} FirstIndexPrefix(refs: seq<Path>, x: Path)
    requires |refs| > 0 && x in refs[..|refs| - 1]
    ensures FirstIndex(refs, x) == FirstIndex(refs[..|refs| - 1], x)
    decreases |refs|
  {
    if refs[0] != x {
      assert refs[1..][..|refs| - 2] == refs[..|refs| - 1][1..];
      FirstIndexPrefix(refs[1..], x);
    }
  }

  /** The position of the last response for path `p`, if any. */
  function LastResponse<D>(responses: seq<Response<D>>, p: Path): (r: Option<nat>)
    ensures r.None? <==> forall i :: 0 <= i < |responses| ==> responses[i].name != p
    ensures r.Some? ==>
              && r.value < |responses| && responses[r.value].name == p
              && forall k :: r.value < k < |responses| ==> responses[k].name != p
    decreases |responses|
  {
    if |responses| == 0 then None
    else if responses[|responses| - 1].name == p then Some(|responses| - 1)
    else LastResponse(responses[..|responses| - 1], p)
  }

  /** `retrievedDocuments`: every response stored under its path with
      `Map.set`, so a path is present exactly when some response names it
      and holds the snapshot of the last such response. */
  function Retrieved<D>(responses: seq<Response<D>>): (m: map<Path, Snapshot<D>>)
    ensures forall p :: p in m <==> LastResponse(responses, p).Some?
    ensures forall p :: p in m ==> m[p] == SnapshotOf(responses[LastResponse(responses, p).value])
    decreases |responses|
  {
    if |responses| == 0 then map[]
    else
      var last := responses[|responses| - 1];
      var prev := Retrieved(responses[..|responses| - 1]);
      assert forall p :: p != last.name ==> LastResponse(responses, p) == LastResponse(responses[..|responses| - 1], p);
      prev[last.name := SnapshotOf(last)]
  }

  /** `snapshot_` of one response. */
  function SnapshotOf<D>(r: Response<D>): (s: Snapshot<D>)
    ensures s.path == r.name && (s.data.Some? <==> r.Found?)
    ensures r.Found? ==> s.data == Some(r.data)
  {
    match r
    case Found(name, data) => Snapshot(name, Some(data))
    case Missing(name) => Snapshot(name, None)
  }

  /** The `end` handler: one snapshot per requested reference, in the
      caller's order and with repeats, rebuilt on the caller's reference; a
      reference without a response rejects, naming the first such
      reference. */
  function Ordered<D>(refs: seq<Path>, retrieved: map<Path, Snapshot<D>>): (r: Result<seq<Snapshot<D>>, string>)
    ensures r.Success? <==> forall i :: 0 <= i < |refs| ==> refs[i] in retrieved
    ensures r.Success? ==>
              && |r.value| == |refs|
              && forall i :: 0 <= i < |refs| ==> r.value[i] == Snapshot(refs[i], retrieved[refs[i]].data)
    ensures r.Failure? ==>
              exists i :: && 0 <= i < |refs| && refs[i] !in retrieved && r.error == MissingMessage(refs[i])
                          && forall k :: 0 <= k < i ==> refs[k] in retrieved
    decreases |refs|
  {
    if |refs| == 0 then Success([])
    else if refs[0] !in retrieved then Failure(MissingMessage(refs[0]))
    else
      var rest := Ordered(refs[1..], retrieved);
      if rest.Failure? then
        assert exists i :: 0 <= i < |refs| - 1 && refs[1..][i] !in retrieved && rest.error == MissingMessage(refs[1..][i])
                           && forall k :: 0 <= k < i ==> refs[1..][k] in retrieved;
        var i :| 0 <= i < |refs| - 1 && refs[1..][i] !in retrieved && rest.error == MissingMessage(refs[1..][i])
                 && forall k :: 0 <= k < i ==> refs[1..][k] in retrieved;
        assert forall k :: 0 <= k < i + 1 ==> refs[k] in retrieved by {
          forall k | 0 <= k < i + 1
            ensures refs[k] in retrieved
          {
            if k > 0 {
              assert refs[k] == refs[1..][k - 1];
            }
          }
        }
        Failure(rest.error)
      else
        Success([Snapshot(refs[0], retrieved[refs[0]].data)] + rest.value)
  }

  function MissingMessage(path: Path): string {
    "Did not receive document for \"" + path + "\"."
  }

  datatype BatchGet<D> = BatchGet(request: seq<Path>, result: Result<seq<Snapshot<D>>, string>)

  /** `getAll_` for a stream that ends normally after `responses`: each
      requested path is asked for once; the read succeeds exactly when
      every reference got some response, and then yields one snapshot per
      reference, existing exactly when the last response for its path found
      the document, and then holding that response's data. */
  function GetAll<D>(refs: seq<Path>, responses: seq<Response<D>>): (r: BatchGet<D>)
    ensures forall x :: x in r.request <==> x in refs
    ensures forall i, j :: 0 <= i < j < |r.request| ==> r.request[i] != r.request[j]
    ensures r.result.Success? <==>
              forall i :: 0 <= i < |refs| ==> exists k :: 0 <= k < |responses| && responses[k].name == refs[i]
    ensures r.result.Success? ==>
              && |r.result.value| == |refs|
              && forall i :: 0 <= i < |refs| ==>
                   && r.result.value[i].path == refs[i]
                   && LastResponse(responses, refs[i]).Some?
                   && (r.result.value[i].data.Some? <==> responses[LastResponse(responses, refs[i]).value].Found?)
                   && (responses[LastResponse(responses, refs[i]).value].Found? ==>
                         r.result.value[i].data == Some(responses[LastResponse(responses, refs[i]).value].data))
  {
    var retrieved := Retrieved(responses);
    assert forall i :: 0 <= i < |refs| ==>
             (refs[i] in retrieved <==> exists k :: 0 <= k < |responses| && responses[k].name == refs[i]);
    BatchGet(RequestedDocuments(refs), Ordered(refs, retrieved))
  }

  /** When the backend answers every requested document, the read succeeds
      with one snapshot per reference, in the caller's order. */
  lemma GetAllAnswered<D>(refs: seq<Path>, responses: seq<Response<D>>)
    requires forall p :: p in GetAll(refs, responses).request ==> exists i :: 0 <= i < |responses| && responses[i].name == p
    ensures GetAll(refs, responses).result.Success?
    ensures |GetAll(refs, responses).result.value| == |refs|
    ensures forall i :: 0 <= i < |refs| ==> GetAll(refs, responses).result.value[i].path == refs[i]
  {
    forall i | 0 <= i < |refs|
      ensures refs[i] in Retrieved(responses)
    {
      assert refs[i] in GetAll(refs, responses).request;
      var k :| 0 <= k < |responses| && responses[k].name == refs[i];
    }
  }

  // ---------------------------------------------------------------------
  // settings

  /** A `host` setting, already split into host name and optional port. */
  datatype Host = Host(hostname: string, port: Option<int>)

  /** The settings this model tracks; `None` is an absent key. */
  datatype Settings = Settings(
    projectId: Option<string>,
    host: Option<Host>,
    servicePath: Option<string>,
    apiEndpoint: Option<string>,
    port: Option<int>)

  /** `_settings`, `_settingsFrozen` and `_projectId`. */
  datatype Client = Client(settings: Settings, frozen: bool, projectId: Option<string>)

  /** `Object.assign({}, current, given)`: a given key overrides. */
  function Merge(current: Settings, given: Settings): (r: Settings)
    ensures given.projectId.Some? ==> r.projectId == given.projectId
    ensures given.projectId.None? ==> r.projectId == current.projectId
    ensures given.host.Some? ==> r.host == given.host
    ensures given.host.None? ==> r.host == current.host
    ensures given.servicePath.Some? ==> r.servicePath == given.servicePath
    ensures given.servicePath.None? ==> r.servicePath == current.servicePath
    ensures given.apiEndpoint.Some? ==> r.apiEndpoint == given.apiEndpoint
    ensures given.apiEndpoint.None? ==> r.apiEndpoint == current.apiEndpoint
    ensures given.port.Some? ==> r.port == given.port
    ensures given.port.None? ==> r.port == current.port
  {
    Settings(
      if given.projectId.Some? then given.projectId else current.projectId,
      if given.host.Some? then given.host else current.host,
      if given.servicePath.Some? then given.servicePath else current.servicePath,
      if given.apiEndpoint.Some? then given.apiEndpoint else current.apiEndpoint,
      if given.port.Some? then given.port else current.port)
  }

  /** The client after a settings call, and the error the call threw, if
      any. A throw does not undo the writes made before it. */
  datatype SettingsOutcome = SettingsOutcome(client: Client, error: Option<string>)

  const HOST_AND_PATH_MESSAGE := "Cannot set both \"settings.host\" and \"settings.servicePath\"."

  const HOST_AND_ENDPOINT_MESSAGE := "Cannot set both \"settings.host\" and \"settings.apiEndpoint\"."

  /** `validateAndApplySettings`: a given project id is adopted first, so
      it is kept even when the call then throws. A host may not be combined
      with a service path or an API endpoint; otherwise it becomes the
      service path (its port filling an unset port) and is dropped, and the
      settings are stored. A throw leaves the stored settings alone. */
  function ValidateAndApply(c: Client, s: Settings): (r: SettingsOutcome)
    ensures r.client.projectId == (if s.projectId.Some? then s.projectId else c.projectId)
    ensures r.client.frozen == c.frozen
    ensures r.error.Some? <==> s.host.Some? && (s.servicePath.Some? || s.apiEndpoint.Some?)
    ensures s.host.Some? && s.servicePath.Some? ==> r.error == Some(HOST_AND_PATH_MESSAGE)
    ensures s.host.Some? && s.servicePath.None? && s.apiEndpoint.Some? ==> r.error == Some(HOST_AND_ENDPOINT_MESSAGE)
    ensures r.error.Some? ==> r.client.settings == c.settings
    ensures r.error.None? ==>
              && r.client.settings.host.None?
              && (s.host.Some? ==>
                    && r.client.settings == s.(servicePath := r.client.settings.servicePath,
                                               port := r.client.settings.port, host := None)
                    && r.client.settings.servicePath == Some(s.host.value.hostname)
                    && r.client.settings.port == (if s.host.value.port.Some? && s.port.None? then s.host.value.port else s.port))
              && (s.host.None? ==> r.client.settings == s)
  {
    var adopted := c.(projectId := if s.projectId.Some? then s.projectId else c.projectId);
    if s.host.Some? then
      if s.servicePath.Some? then SettingsOutcome(adopted, Some(HOST_AND_PATH_MESSAGE))
      else if s.apiEndpoint.Some? then SettingsOutcome(adopted, Some(HOST_AND_ENDPOINT_MESSAGE))
      else
        var port := if s.host.value.port.Some? && s.port.None? then s.host.value.port else s.port;
        SettingsOutcome(adopted.(settings := s.(servicePath := Some(s.host.value.hostname), port := port, host := None)), None)
    else
      SettingsOutcome(adopted.(settings := s), None)
  }

  const FROZEN_MESSAGE := "Firestore has already been initialized. You can only call settings() once, and only before calling any other methods on a Firestore object."

  /** `settings()`: refused, with nothing changed, once frozen. Otherwise
      the given settings are merged over the current ones and validated and
      applied; the settings freeze only if that did not throw, and a project
      id in the merged settings is adopted either way. */
  function ApplySettings(c: Client, given: Settings): (r: SettingsOutcome)
    ensures c.frozen ==> r == SettingsOutcome(c, Some(FROZEN_MESSAGE))
    ensures !c.frozen ==>
              var m := Merge(c.settings, given);
              && (r.error.Some? <==> m.host.Some? && (m.servicePath.Some? || m.apiEndpoint.Some?))
              && r.client.projectId == (if m.projectId.Some? then m.projectId else c.projectId)
    ensures r.error.None? ==> r.client.frozen && r.client.settings.host.None?
    ensures !c.frozen && r.error.None? ==>
              r.client.settings == ValidateAndApply(c, Merge(c.settings, given)).client.settings
    ensures r.error.Some? ==> r.client.settings == c.settings && r.client.frozen == c.frozen
  {
    if c.frozen then SettingsOutcome(c, Some(FROZEN_MESSAGE))
    else
      var applied := ValidateAndApply(c, Merge(c.settings, given));
      if applied.error.Some? then applied
      else SettingsOutcome(applied.client.(frozen := true), None)
  }

  /** A call refused for combining a host with a service path still adopts
      its project id and leaves the settings unfrozen, so `settings()` can
      be called again. */
  lemma RefusedCallKeepsProjectId(c: Client, p: string, h: Host, path: string)
    requires !c.frozen
    ensures ApplySettings(c, Settings(Some(p), Some(h), Some(path), None, None)).error == Some(HOST_AND_PATH_MESSAGE)
    ensures ApplySettings(c, Settings(Some(p), Some(h), Some(path), None, None)).client == c.(projectId := Some(p))
  {
  }

  /** The synchronous part of `initializeIfNeeded`: the settings freeze.
      Project id detection is a remote call and is not modelled. */
  function InitializeIfNeeded(c: Client): (r: Client)
    ensures r.frozen && r.settings == c.settings && r.projectId == c.projectId
  {
    c.(frozen := true)
  }

  /** Settings can be applied once, and not after the client is in use. */
  lemma SettingsOnce(c: Client, a: Settings, b: Settings)
    ensures ApplySettings(InitializeIfNeeded(c), a).error == Some(FROZEN_MESSAGE)
    ensures ApplySettings(c, a).error.None? ==> ApplySettings(ApplySettings(c, a).client, b).error == Some(FROZEN_MESSAGE)
  {
  }

  /** Settings given through `settings()` take precedence: once a call
      without a host succeeds, every key it gives is stored as given and
      every other key keeps its current value. */
  lemma GivenSettingsWin(c: Client, given: Settings)
    requires !c.frozen && c.settings.host.None? && given.host.None?
    requires ApplySettings(c, given).error.None?
    ensures ApplySettings(c, given).client.settings == Merge(c.settings, given)
    ensures given.projectId.Some? ==> ApplySettings(c, given).client.settings.projectId == given.projectId
    ensures given.servicePath.Some? ==> ApplySettings(c, given).client.settings.servicePath == given.servicePath
    ensures given.apiEndpoint.Some? ==> ApplySettings(c, given).client.settings.apiEndpoint == given.apiEndpoint
    ensures given.port.Some? ==> ApplySettings(c, given).client.settings.port == given.port
    ensures given.port.None? ==> ApplySettings(c, given).client.settings.port == c.settings.port
  {
  }

  /** A host given through `settings()` is dropped once applied, so a
      second application of the stored settings with a new service path is
      not refused for the host. */
  lemma HostConsumed(c: Client, s: Settings, path: string)
    requires ValidateAndApply(c, s).error.None?
    ensures ValidateAndApply(ValidateAndApply(c, s).client,
                             ValidateAndApply(c, s).client.settings.(servicePath := Some(path))).error.None?
  {
  }

  // ---------------------------------------------------------------------
  // collectionGroup and runTransaction

  /** `collectionGroup`: an id holding '/' is refused. */
  function CollectionGroup(collectionId: string): (r: Result<string, string>)
    ensures r.Failure? <==> '/' in collectionId
    ensures r.Success? ==> r.value == collectionId
    ensures r.Failure? ==> r.error == "Invalid collectionId '" + collectionId + "'. Collection IDs must not contain '/'."
  {
    if '/' in collectionId then Failure("Invalid collectionId '" + collectionId + "'. Collection IDs must not contain '/'.")
    else Success(collectionId)
  }

  /** The transaction options this model tracks. */
  datatype TransactionOptions = TransactionOptions(maxAttempts: Option<int>)

  const DEFAULT_TRANSACTION_ATTEMPTS := 5

  /** The attempt count of `runTransaction`: the given `maxAttempts`, which
      must be at least one, or five when the options or the field are
      absent. */
  function MaxAttempts(options: Option<TransactionOptions>): (r: Result<nat, string>)
    ensures r.Success? ==> r.value >= 1
    ensures options.None? || options.value.maxAttempts.None? ==> r == Success(DEFAULT_TRANSACTION_ATTEMPTS)
    ensures options.Some? && options.value.maxAttempts.Some? ==>
              (r.Success? <==> options.value.maxAttempts.value >= 1)
              && (r.Success? ==> r.value == options.value.maxAttempts.value)
  {
    match options
    case None => Success(DEFAULT_TRANSACTION_ATTEMPTS)
    case Some(o) =>
      match o.maxAttempts
      case None => Success(DEFAULT_TRANSACTION_ATTEMPTS)
      case Some(n) =>
        if n >= 1 then Success(n as nat)
        else
          var r: Result<nat, string> := Failure("transactionOptions.maxAttempts must be at least 1");
          r
  }
}

=== FILE: pool.dfy ===
/** The client pool: a set of API clients, each with its number of
    outstanding operations. New operations go to the fullest client that
    still has room, a new client is created only when none has, and a
    client that falls idle is disposed of when the pool holds more idle
    capacity than it wants to keep.

    The clients are kept in an insertion-ordered list, as a JavaScript `Map`
    iterates them. The client factory is modelled as handing out fresh
    numbers; the destructor's work is not modelled. */
module ClientPool {
  import opened Wrappers

  type Client = nat

  datatype Entry = Entry(client: Client, count: nat)

  /** `concurrentOperationLimit`, `maxIdleClients`, `activeClients`,
      `terminated`, and the next client the factory will return. */
  datatype Pool = Pool(limit: nat, maxIdle: nat, entries: seq<Entry>, terminated: bool, nextClient: Client)

  /** Every client appears once, and the factory never returns one already
      in the pool. */
  ghost predicate Inv(p: Pool) {
    && (forall i, j :: 0 <= i < j < |p.entries| ==> p.entries[i].client != p.entries[j].client)
    && (forall i :: 0 <= i < |p.entries| ==> p.entries[i].client < p.nextClient)
  }

  function NewPool(limit: nat, maxIdle: nat): (p: Pool)
    ensures Inv(p) && Size(p) == 0 && OpCount(p.entries) == 0 && !p.terminated
  {
    Pool(limit, maxIdle, [], false, 0)
  }

  /** The position of `c` in the pool. */
  function Find(es: seq<Entry>, c: Client): (r: Option<nat>)
    ensures r.None? <==> forall i :: 0 <= i < |es| ==> es[i].client != c
    ensures r.Some? ==> r.value < |es| && es[r.value].client == c
    decreases |es|
  {
    if |es| == 0 then None
    else if es[|es| - 1].client == c then Some(|es| - 1)
    else Find(es[..|es| - 1], c)
  }

  /** `activeClients.get(client) || 0`. */
  function CountOf(p: Pool, c: Client): nat {
    match Find(p.entries, c)
    case None => 0
    case Some(i) => p.entries[i].count
  }

  /** `activeClients.has(client)`. */
  predicate Registered(p: Pool, c: Client) {
    Find(p.entries, c).Some?
  }

  lemma FindDistinct(p: Pool, i: nat)
    requires Inv(p) && i < |p.entries|
    ensures Find(p.entries, p.entries[i].client) == Some(i)
  {
  }

  /** `size`: the number of registered clients. */
  function Size(p: Pool): nat {
    |p.entries|
  }

  /** The registered clients, as the key set of `activeClients`. */
  function Clients(es: seq<Entry>): set<Client> {
    set i | 0 <= i < |es| :: es[i].client
  }

  /** `size` is the number of distinct registered clients. */
  lemma {:induction false} SizeCountsClients(es: seq<Entry>)
    requires forall i, j :: 0 <= i < j < |es| ==> es[i].client != es[j].client
    ensures |Clients(es)| == |es|
    ensures forall c :: c in Clients(es) <==> Find(es, c).Some?
    decreases |es|
  {
    if |es| > 0 {
      var init := es[..|es| - 1];
      var last := es[|es| - 1].client;
      SizeCountsClients(init);
      assert Clients(es) == Clients(init) + {last} by {
        forall c | c in Clients(es)
          ensures c in Clients(init) + {last}
        {
          var i :| 0 <= i < |es| && es[i].client == c;
          if i < |init| {
            assert init[i].client == c;
          }
        }
        forall c | c in Clients(init)
          ensures c in Clients(es)
        {
          var i :| 0 <= i < |init| && init[i].client == c;
          assert es[i].client == c;
        }
      }
      forall c | c in Clients(init)
        ensures c != last
      {
        var i :| 0 <= i < |init| && init[i].client == c;
        assert es[i].client == c;
      }
    }
  }

  /** `opCount`: the outstanding operations over all clients. */
  function OpCount(es: seq<Entry>): (r: nat)
    ensures |es| == 0 ==> r == 0
    decreases |es|
  {
    if |es| == 0 then 0 else OpCount(es[..|es| - 1]) + es[|es| - 1].count
  }

  /** Every client's count is part of `opCount`, so `opCount` is 0 exactly
      when every client is idle. */
  lemma {:induction false} OpCountCovers(es: seq<Entry>)
    ensures OpCount(es) == 0 <==> forall i :: 0 <= i < |es| ==> es[i].count == 0
    ensures forall i :: 0 <= i < |es| ==> es[i].count <= OpCount(es)
    decreases |es|
  {
    if |es| > 0 {
      var init := es[..|es| - 1];
      OpCountCovers(init);
      assert forall i :: 0 <= i < |init| ==> es[i] == init[i];
    }
  }

  /** The summed spare capacity `Σ (limit − count)`; a client over the limit
      contributes a negative amount. */
  function IdleCapacity(es: seq<Entry>, limit: nat): int
    decreases |es|
  {
    if |es| == 0 then 0 else IdleCapacity(es[..|es| - 1], limit) + (limit - es[|es| - 1].count)
  }

  lemma {:induction false} IdleIsSpare(es: seq<Entry>, limit: nat)
    ensures IdleCapacity(es, limit) == limit * |es| - OpCount(es)
    decreases |es|
  {
    if |es| > 0 {
      IdleIsSpare(es[..|es| - 1], limit);
    }
  }

  /** No client has more operations than the limit. */
  ghost predicate WithinLimit(es: seq<Entry>, limit: nat) {
    forall i :: 0 <= i < |es| ==> es[i].count <= limit
  }

  lemma WithinLimitSet(es: seq<Entry>, i: nat, n: nat, limit: nat)
    requires i < |es|
    ensures WithinLimit(es, limit) && n <= limit ==> WithinLimit(es[i := Entry(es[i].client, n)], limit)
  {
  }

  lemma WithinLimitRemove(es: seq<Entry>, i: nat, limit: nat)
    requires i < |es|
    ensures WithinLimit(es, limit) ==> WithinLimit(es[..i] + es[i + 1..], limit)
  {
    if WithinLimit(es, limit) {
      var rest := es[..i] + es[i + 1..];
      forall k | 0 <= k < |rest|
        ensures rest[k].count <= limit
      {
        assert rest[k] == if k < i then es[k] else es[k + 1];
      }
    }
  }

  // ---------------------------------------------------------------------
  // acquire

  /** The loop of `acquire`: scanning in insertion order, keep the client
      with the highest count seen so far (starting from -1) among those
      below the limit. The result is the fullest client with room, the
      earliest one on ties, or none when every client is full. */
  function Pick(es: seq<Entry>, limit: nat): (r: Option<nat>)
    ensures r.None? <==> forall i :: 0 <= i < |es| ==> es[i].count >= limit
    ensures r.Some? ==>
              && r.value < |es| && es[r.value].count < limit
              && (forall i :: 0 <= i < |es| && es[i].count < limit ==> es[i].count <= es[r.value].count)
              && (forall i :: 0 <= i < r.value && es[i].count < limit ==> es[i].count < es[r.value].count)
    decreases |es|
  {
    if |es| == 0 then None
    else
      var prev := Pick(es[..|es| - 1], limit);
      var last := es[|es| - 1];
      var best := if prev.Some? then es[prev.value].count as int else -1;
      if last.count > best && last.count < limit then Some(|es| - 1) else prev
  }

  datatype Acquired = Acquired(pool: Pool, client: Client)

  /** What `acquire` does to the pool: the settings and the invariant are
      kept; the returned client is registered and has one more operation;
      no other client changes; the pool grows by one exactly when the client
      is new; and a pool whose clients are within a positive limit stays
      within it. */
  ghost predicate Acquires(p: Pool, r: Acquired)
    requires Inv(p)
  {
    && Inv(r.pool)
    && r.pool == p.(entries := r.pool.entries, nextClient := r.pool.nextClient)
    && CountOf(r.pool, r.client) == CountOf(p, r.client) + 1
    && (forall c :: c != r.client ==> CountOf(r.pool, c) == CountOf(p, c))
    && Registered(r.pool, r.client)
    && (forall c :: c != r.client ==> (Registered(r.pool, c) <==> Registered(p, c)))
    && OpCount(r.pool.entries) == OpCount(p.entries) + 1
    && Size(r.pool) == Size(p) + (if Registered(p, r.client) then 0 else 1)
    && (p.limit > 0 && WithinLimit(p.entries, p.limit) ==> WithinLimit(r.pool.entries, p.limit))
  }

  /** Which client `acquire` uses: an existing client exactly when one is
      below the limit, and then a fullest such client, the earliest
      registered among the fullest. */
  ghost predicate Chooses(p: Pool, c: Client) {
    && (Registered(p, c) <==> exists i :: 0 <= i < |p.entries| && p.entries[i].count < p.limit)
    && (Registered(p, c) ==>
          && CountOf(p, c) < p.limit
          && (forall i :: 0 <= i < |p.entries| && p.entries[i].count < p.limit ==>
                            p.entries[i].count <= CountOf(p, c))
          && forall i :: 0 <= i < Find(p.entries, c).value && p.entries[i].count < p.limit ==>
                           p.entries[i].count < CountOf(p, c))
  }

  /** `acquire`: one more operation on the picked client, or on a new
      client appended to the pool when every client is at the limit. */
  function Acquire(p: Pool): (r: Acquired)
    requires Inv(p)
    ensures Acquires(p, r) && Chooses(p, r.client)
  {
    var pick := Pick(p.entries, p.limit);
    if pick.Some? then
      ReuseCounts(p, pick.value);
      ReuseChoice(p, pick.value);
      ReuseClient(p, pick.value)
    else
      NewCounts(p);
      NewChoice(p);
      NewClient(p)
  }

  /** One more operation on the client at `i`. */
  function ReuseClient(p: Pool, i: nat): Acquired
    requires i < |p.entries|
  {
    Acquired(p.(entries := p.entries[i := Entry(p.entries[i].client, p.entries[i].count + 1)]), p.entries[i].client)
  }

  /** The factory's next client, registered with one operation. */
  function NewClient(p: Pool): Acquired {
    Acquired(p.(entries := p.entries + [Entry(p.nextClient, 1)], nextClient := p.nextClient + 1), p.nextClient)
  }

  lemma ReuseCounts(p: Pool, i: nat)
    requires Inv(p) && i < |p.entries| && p.entries[i].count < p.limit
    ensures Acquires(p, ReuseClient(p, i))
  {
    FindDistinct(p, i);
    var q := SetCount(p, i, p.entries[i].count + 1);
    assert ReuseClient(p, i).pool == q;
  }

  lemma ReuseChoice(p: Pool, i: nat)
    requires Inv(p) && Pick(p.entries, p.limit) == Some(i)
    ensures Chooses(p, p.entries[i].client)
  {
    FindDistinct(p, i);
  }

  lemma NewCounts(p: Pool)
    requires Inv(p)
    ensures Acquires(p, NewClient(p))
  {
    var q := Append(p);
  }

  lemma NewChoice(p: Pool)
    requires Inv(p) && Pick(p.entries, p.limit).None?
    ensures Chooses(p, p.nextClient)
  {
  }

  /** Setting the count of the client at `i` changes that client's count
      and the total by the difference, and nothing else. */
  lemma SetCount(p: Pool, i: nat, n: nat) returns (q: Pool)
    requires Inv(p) && i < |p.entries|
    ensures q == p.(entries := p.entries[i := Entry(p.entries[i].client, n)])
    ensures Inv(q) && |q.entries| == |p.entries|
    ensures CountOf(q, p.entries[i].client) == n && Find(q.entries, p.entries[i].client) == Some(i)
    ensures forall c :: c != p.entries[i].client ==> CountOf(q, c) == CountOf(p, c)
    ensures forall c :: Registered(q, c) <==> Registered(p, c)
    ensures OpCount(q.entries) == OpCount(p.entries) - p.entries[i].count + n
    ensures WithinLimit(p.entries, p.limit) && n <= p.limit ==> WithinLimit(q.entries, p.limit)
  {
    q := p.(entries := p.entries[i := Entry(p.entries[i].client, n)]);
    FindDistinct(q, i);
    forall c | c != p.entries[i].client
      ensures CountOf(q, c) == CountOf(p, c) && (Registered(q, c) <==> Registered(p, c))
    {
      FindSame(p.entries, q.entries, c);
    }
    OpCountSet(p.entries, i, n);
    WithinLimitSet(p.entries, i, n, p.limit);
  }

  /** Lookups of a client agree in two lists that hold the same clients at
      the same positions and the same entry for `c`. */
  lemma {:induction false} FindSame(a: seq<Entry>, b: seq<Entry>, c: Client)
    requires |a| == |b| && forall i :: 0 <= i < |a| ==> a[i].client == b[i].client
    requires forall i :: 0 <= i < |a| && a[i].client == c ==> a[i] == b[i]
    ensures Find(a, c) == Find(b, c)
    ensures Find(a, c).Some? ==> a[Find(a, c).value] == b[Find(b, c).value]
    decreases |a|
  {
    if |a| > 0 && a[|a| - 1].client != c {
      FindSame(a[..|a| - 1], b[..|b| - 1], c);
    }
  }

  lemma {:induction false} OpCountSet(es: seq<Entry>, i: nat, n: nat)
    requires i < |es|
    ensures OpCount(es[i := Entry(es[i].client, n)]) == OpCount(es) - es[i].count + n
    decreases |es|
  {
    var es' := es[i := Entry(es[i].client, n)];
    if i < |es| - 1 {
      OpCountSet(es[..|es| - 1], i, n);
      assert es'[..|es'| - 1] == es[..|es| - 1][i := Entry(es[i].client, n)];
    } else {
      assert es'[..|es'| - 1] == es[..|es| - 1];
    }
  }

  /** Appending a fresh client with one operation. */
  lemma Append(p: Pool) returns (q: Pool)
    requires Inv(p)
    ensures q == p.(entries := p.entries + [Entry(p.nextClient, 1)], nextClient := p.nextClient + 1)
    ensures Inv(q) && CountOf(q, p.nextClient) == 1 && CountOf(p, p.nextClient) == 0
    ensures Registered(q, p.nextClient) && !Registered(p, p.nextClient)
    ensures forall d :: d != p.nextClient ==> CountOf(q, d) == CountOf(p, d)
    ensures forall d :: d != p.nextClient ==> (Registered(q, d) <==> Registered(p, d))
    ensures OpCount(q.entries) == OpCount(p.entries) + 1
    ensures WithinLimit(p.entries, p.limit) && p.limit > 0 ==> WithinLimit(q.entries, p.limit)
  {
    q := p.(entries := p.entries + [Entry(p.nextClient, 1)], nextClient := p.nextClient + 1);
    assert q.entries[..|q.entries| - 1] == p.entries;
  }

  // ---------------------------------------------------------------------
  // release

  /** `shouldGarbageCollectClient`: only a registered client without
      operations, and only while the pool holds more spare capacity than
      `maxIdle` whole clients. */
  function ShouldGarbageCollect(p: Pool, c: Client): (r: bool)
    ensures r <==> Find(p.entries, c).Some? && CountOf(p, c) == 0
                   && p.limit * Size(p) - OpCount(p.entries) > p.maxIdle * p.limit
  {
    IdleIsSpare(p.entries, p.limit);
    match Find(p.entries, c)
    case None => false
    case Some(i) => p.entries[i].count == 0 && IdleCapacity(p.entries, p.limit) > p.maxIdle * p.limit
  }

  /** What a successful `release` of `c` promises: the settings and the
      invariant are kept; `c` has one operation less and no other client
      changes; `c` leaves the pool exactly when it fell idle while the
      pool's spare capacity, counted after the release, exceeds `maxIdle`
      whole clients; and counts within the limit stay within it. */
  ghost predicate Releases(p: Pool, c: Client, q: Pool)
    requires Inv(p)
  {
    && Inv(q)
    && q == p.(entries := q.entries)
    && OpCount(q.entries) == OpCount(p.entries) - 1
    && (forall d :: d != c ==> CountOf(q, d) == CountOf(p, d))
    && (forall d :: d != c ==> (Registered(q, d) <==> Registered(p, d)))
    && CountOf(q, c) == CountOf(p, c) - 1
    && (Find(q.entries, c).None? <==>
          CountOf(p, c) == 1 && p.limit * Size(p) - (OpCount(p.entries) - 1) > p.maxIdle * p.limit)
    && Size(q) == Size(p) - (if Find(q.entries, c).None? then 1 else 0)
    && (WithinLimit(p.entries, p.limit) ==> WithinLimit(q.entries, p.limit))
  }

  /** `release`: one operation of `c` is done; the client is then disposed
      of if `ShouldGarbageCollect` says so. Releasing a client without
      outstanding operations fails the JavaScript client's `assert`. */
  function Release(p: Pool, c: Client): (r: Result<Pool, string>)
    requires Inv(p)
    ensures r.Failure? <==> CountOf(p, c) == 0
    ensures r.Success? ==> Releases(p, c, r.value)
  {
    match Find(p.entries, c)
    case None => Failure("No active request")
    case Some(i) =>
      if p.entries[i].count == 0 then Failure("No active request")
      else
        var q := p.(entries := p.entries[i := Entry(c, p.entries[i].count - 1)]);
        if ShouldGarbageCollect(q, c) then
          ReleaseCollect(p, i);
          Success(q.(entries := q.entries[..i] + q.entries[i + 1..]))
        else
          ReleaseKeep(p, i);
          Success(q)
  }

  lemma ReleaseKeep(p: Pool, i: nat)
    requires Inv(p) && i < |p.entries| && p.entries[i].count > 0
    requires var c := p.entries[i].client;
             !ShouldGarbageCollect(p.(entries := p.entries[i := Entry(c, p.entries[i].count - 1)]), c)
    ensures var c := p.entries[i].client;
            Releases(p, c, p.(entries := p.entries[i := Entry(c, p.entries[i].count - 1)]))
  {
    FindDistinct(p, i);
    var q := SetCount(p, i, p.entries[i].count - 1);
  }

  lemma ReleaseCollect(p: Pool, i: nat)
    requires Inv(p) && i < |p.entries| && p.entries[i].count > 0
    requires var c := p.entries[i].client;
             ShouldGarbageCollect(p.(entries := p.entries[i := Entry(c, p.entries[i].count - 1)]), c)
    ensures var c := p.entries[i].client;
            var q := p.(entries := p.entries[i := Entry(c, p.entries[i].count - 1)]);
            Releases(p, c, q.(entries := q.entries[..i] + q.entries[i + 1..]))
  {
    FindDistinct(p, i);
    var q := SetCount(p, i, p.entries[i].count - 1);
    var r := RemoveEntry(q, i);
  }

  /** Deleting the idle client at `i` leaves every other count alone. */
  lemma RemoveEntry(p: Pool, i: nat) returns (q: Pool)
    requires Inv(p) && i < |p.entries| && p.entries[i].count == 0
    ensures q == p.(entries := p.entries[..i] + p.entries[i + 1..])
    ensures Inv(q) && |q.entries| == |p.entries| - 1
    ensures Find(q.entries, p.entries[i].client).None?
    ensures forall c :: c != p.entries[i].client ==> CountOf(q, c) == CountOf(p, c)
    ensures forall c :: c != p.entries[i].client ==> (Registered(q, c) <==> Registered(p, c))
    ensures OpCount(q.entries) == OpCount(p.entries)
    ensures WithinLimit(p.entries, p.limit) ==> WithinLimit(q.entries, p.limit)
  {
    q := p.(entries := p.entries[..i] + p.entries[i + 1..]);
    var c0 := p.entries[i].client;
    forall c | c != c0
      ensures CountOf(q, c) == CountOf(p, c) && (Registered(q, c) <==> Registered(p, c))
    {
      FindRemove(p.entries, i, c);
    }
    OpCountRemove(p.entries, i);
    WithinLimitRemove(p.entries, i, p.limit);
  }

  /** Deleting the entry at `i` keeps every other client's entry. */
  lemma {:induction false} FindRemove(es: seq<Entry>, i: nat, c: Client)
    requires i < |es| && es[i].client != c
    ensures var r := Find(es[..i] + es[i + 1..], c);
            (r.None? <==> Find(es, c).None?) && (r.Some? ==> (es[..i] + es[i + 1..])[r.value] == es[Find(es, c).value])
    decreases |es|
  {
    var es' := es[..i] + es[i + 1..];
    if i == |es| - 1 {
      assert es' == es[..|es| - 1];
    } else {
      assert es'[..|es'| - 1] == es[..|es| - 1][..i] + es[..|es| - 1][i + 1..];
      assert es'[|es'| - 1] == es[|es| - 1];
      if es[|es| - 1].client != c {
        FindRemove(es[..|es| - 1], i, c);
      }
    }
  }

  lemma {:induction false} OpCountRemove(es: seq<Entry>, i: nat)
    requires i < |es|
    ensures OpCount(es[..i] + es[i + 1..]) == OpCount(es) - es[i].count
    decreases |es|
  {
    var es' := es[..i] + es[i + 1..];
    if i == |es| - 1 {
      assert es' == es[..|es| - 1];
    } else {
      OpCountRemove(es[..|es| - 1], i);
      assert es'[..|es'| - 1] == es[..|es| - 1][..i] + es[..|es| - 1][i + 1..];
      assert es'[|es'| - 1] == es[|es| - 1];
    }
  }

  // ---------------------------------------------------------------------
  // run and terminate

  /** The start of `run`: a terminated pool refuses the operation without
      touching any client; otherwise a client is acquired for it. The
      operation's completion, successful or not, is a `Release`. */
  function RunStart(p: Pool): (r: Result<Acquired, string>)
    requires Inv(p)
    ensures p.terminated <==> r.Failure?
    ensures r.Failure? ==> r.error == "The client has already been terminated"
    ensures r.Success? ==> Inv(r.value.pool) && OpCount(r.value.pool.entries) == OpCount(p.entries) + 1
  {
    if p.terminated then Failure("The client has already been terminated")
    else Success(Acquire(p))
  }

  datatype Terminated = Terminated(pool: Pool, destroyed: seq<Client>)

  /** `terminate`: marks the pool terminated and disposes of every client,
      in insertion order. */
  function Terminate(p: Pool): (r: Terminated)
    ensures r.pool.terminated && Size(r.pool) == 0
    ensures |r.destroyed| == Size(p) && forall i :: 0 <= i < Size(p) ==> r.destroyed[i] == p.entries[i].client
    ensures Inv(r.pool) && RunStart(r.pool).Failure?
  {
    Terminated(p.(terminated := true, entries := []), seq(|p.entries|, i requires 0 <= i < |p.entries| => p.entries[i].client))
  }

  // ---------------------------------------------------------------------
  // properties

  /** Every registered client has an operation in flight. */
  ghost predicate Busy(p: Pool) {
    forall c :: Registered(p, c) ==> CountOf(p, c) > 0
  }

  /** Clients within the limit leave no negative spare capacity. */
  lemma {:induction false} OpCountWithin(es: seq<Entry>, limit: nat)
    requires WithinLimit(es, limit)
    ensures OpCount(es) <= limit * |es|
    decreases |es|
  {
    if |es| > 0 {
      OpCountWithin(es[..|es| - 1], limit);
    }
  }

  /** With `maxIdle` zero, a client is disposed of as soon as its last
      operation completes: acquiring and releasing keep every registered
      client busy. */
  lemma AcquireKeepsBusy(p: Pool)
    requires Inv(p) && Busy(p)
    ensures Busy(Acquire(p).pool)
  {
  }

  lemma ReleaseKeepsBusy(p: Pool, c: Client)
    requires Inv(p) && p.maxIdle == 0 && WithinLimit(p.entries, p.limit) && Busy(p)
    ensures Release(p, c).Success? ==> Busy(Release(p, c).value)
  {
    OpCountWithin(p.entries, p.limit);
  }

  /** A pool whose clients are all busy is empty once no operation is
      outstanding. */
  lemma {:induction false} BusyEmpty(p: Pool)
    requires Inv(p) && Busy(p)
    ensures OpCount(p.entries) >= Size(p)
    ensures OpCount(p.entries) == 0 ==> Size(p) == 0
  {
    forall i | 0 <= i < |p.entries|
      ensures p.entries[i].count > 0
    {
      FindDistinct(p, i);
      assert Registered(p, p.entries[i].client);
    }
    CountsAtLeastOne(p.entries);
  }

  lemma {:induction false} CountsAtLeastOne(es: seq<Entry>)
    requires forall i :: 0 <= i < |es| ==> es[i].count > 0
    ensures OpCount(es) >= |es|
    decreases |es|
  {
    if |es| > 0 {
      CountsAtLeastOne(es[..|es| - 1]);
    }
  }

  /** Releasing the client an operation acquired undoes the acquisition:
      every client's count is back where it was. */
  lemma AcquireRelease(p: Pool)
    requires Inv(p)
    ensures var a := Acquire(p);
            && Release(a.pool, a.client).Success?
            && forall c :: CountOf(Release(a.pool, a.client).value, c) == CountOf(p, c)
  {
  }

  /** With a limit of two, four operations fill clients 0 and 1, so the
      fifth needs a new client 2. The factory here numbers clients from 0,
      where the test's factory numbers them from 1. */
  lemma BinPackingGrows()
    ensures Acquire(Pool(2, 0, [Entry(0, 2), Entry(1, 2)], false, 2)).client == 2
  {
    assert Pick([Entry(0, 2), Entry(1, 2)], 2).None?;
  }

  /** Once client 1 (the test's second client) frees a slot it takes the
      next operation ahead of the equally loaded but later client 2. */
  lemma BinPackingReuses()
    ensures Acquire(Pool(2, 0, [Entry(0, 2), Entry(1, 1), Entry(2, 1)], false, 3)).client == 1
  {
    assert [Entry(0, 2), Entry(1, 1), Entry(2, 1)][..2] == [Entry(0, 2), Entry(1, 1)];
    assert Pick([Entry(0, 2), Entry(1, 1), Entry(2, 1)], 2) == Some(1);
  }

  /** With a limit of one and `maxIdle` three, releasing the last of four
      busy clients leaves three idle ones: the fourth is disposed of. */
  lemma IdleClientsTrimmed()
    ensures var p := Pool(1, 3, [Entry(0, 0), Entry(1, 0), Entry(2, 0), Entry(3, 1)], false, 4);
            Release(p, 3).Success? && Size(Release(p, 3).value) == 3
  {
    var es := [Entry(0, 0), Entry(1, 0), Entry(2, 0), Entry(3, 1)];
    OpCountPrefixes(es);
    assert Find(es, 3) == Some(3);
  }

  /** Releasing the first of four busy clients keeps it: the pool holds one
      idle client, within `maxIdle` three. */
  lemma IdleClientKept()
    ensures var p := Pool(1, 3, [Entry(0, 1), Entry(1, 1), Entry(2, 1), Entry(3, 1)], false, 4);
            Release(p, 0).Success? && Size(Release(p, 0).value) == 4
  {
    var es := [Entry(0, 1), Entry(1, 1), Entry(2, 1), Entry(3, 1)];
    OpCountPrefixes(es);
    FindDistinct(Pool(1, 3, es, false, 4), 0);
  }

  /** The sum of four counts, spelled out. */
  lemma OpCountPrefixes(es: seq<Entry>)
    requires |es| == 4
    ensures OpCount(es) == es[0].count + es[1].count + es[2].count + es[3].count
  {
    assert es[..3][..2] == es[..2] && es[..2][..1] == es[..1] && es[..1][..0] == [];
    assert OpCount(es[..1]) == es[0].count;
    assert OpCount(es[..2]) == es[0].count + es[1].count;
    assert OpCount(es[..3]) == es[0].count + es[1].count + es[2].count;
  }
}

=== FILE: snapshot_diff.dfy ===
/** The snapshot diff engine of a listener: applies the accumulated changes to
    the ordered index and the document map in the fixed order removals,
    additions, modifications, and reports each mutation as a change record
    whose indices are read off the index just before and just after that
    mutation. */
module SnapshotDiff {
  import opened Wrappers
  import opened DocIndex
  import opened ChangeAccumulator

  datatype ChangeType = Added | Removed | Modified

  /** A `DocumentChange`; an absent index is -1. */
  datatype DocumentChange = DocumentChange(kind: ChangeType, doc: Doc, oldIndex: int, newIndex: int)

  /** The listener's `docTree` and `docMap`. */
  datatype Index = Index(tree: seq<Doc>, docs: map<Name, Doc>)

  /** Tree and map hold the same documents: the tree is ordered and the
      map finds every entry of the tree under its name. */
  ghost predicate Valid(less: (Doc, Doc) -> bool, ix: Index) {
    Sorted(less, ix.tree) && Linked(ix.tree, ix.docs)
  }

  /** The tree has distinct names, is as large as the map, and the map finds
      each of its entries; so the map holds nothing else (`LinkedCovers`). */
  ghost predicate Linked(t: seq<Doc>, docs: map<Name, Doc>) {
    && |t| == |docs|
    && DistinctNames(t)
    && (forall i :: 0 <= i < |t| ==> t[i].name in docs && docs[t[i].name] == t[i])
  }

  /** Every key of the map names a document of the tree. */
  lemma LinkedCovers(t: seq<Doc>, docs: map<Name, Doc>)
    requires Linked(t, docs)
    ensures docs.Keys == NamesOf(t)
    ensures forall n :: n in docs ==> docs[n].name == n
  {
    DistinctNamesCard(t);
    var names := NamesOf(t);
    assert names <= docs.Keys;
    assert |docs.Keys - names| == 0 by {
      assert |docs.Keys - names| == |docs.Keys| - |names|;
    }
    assert docs.Keys - names == {};
    forall n | n in docs
      ensures docs[n].name == n
    {
      assert n in names;
    }
  }

  function Get(docs: map<Name, Doc>, n: Name): Option<Doc> {
    if n in docs then Some(docs[n]) else None
  }

  const EmptyIndex := Index([], map[])

  datatype Applied = Applied(index: Index, change: DocumentChange)

  /** `deleteDoc`: removes a known document from tree and map and reports
      the rank it had before the removal. */
  function DeleteDoc(less: (Doc, Doc) -> bool, ix: Index, name: Name): (r: Applied)
    requires IsDocOrder(less) && Valid(less, ix) && name in ix.docs
    ensures Valid(less, r.index)
    ensures r.index.docs == ix.docs - {name}
    ensures r.change.kind == Removed && r.change.doc == ix.docs[name] && r.change.newIndex == -1
    ensures 0 <= r.change.oldIndex < |ix.tree| && ix.tree[r.change.oldIndex] == ix.docs[name]
    ensures r.index.tree == RemoveAt(ix.tree, r.change.oldIndex)
    ensures ApplyChange(ix.tree, r.change) == Some(r.index.tree)
  {
    var prev := ix.docs[name];
    var k := Rank(less, ix.tree, prev);
    DeleteKeepsValid(less, ix, name, k);
    Applied(Index(RemoveAt(ix.tree, k), ix.docs - {name}), DocumentChange(Removed, prev, k, -1))
  }

  lemma DeleteKeepsValid(less: (Doc, Doc) -> bool, ix: Index, name: Name, k: nat)
    requires IsDocOrder(less) && Valid(less, ix) && name in ix.docs
    requires k == Rank(less, ix.tree, ix.docs[name])
    ensures k < |ix.tree| && ix.tree[k] == ix.docs[name]
    ensures Valid(less, Index(RemoveAt(ix.tree, k), ix.docs - {name}))
  {
    LinkedCovers(ix.tree, ix.docs);
    assert name in NamesOf(ix.tree);
    var m :| 0 <= m < |ix.tree| && ix.tree[m].name == name;
    RankOfMember(less, ix.tree, m);
    RemoveAtSorted(less, ix.tree, k);
    RemoveAtLinks(ix.tree, ix.docs, k);
  }

  /** Removing the document at `k` from the tree and its name from the map
      keeps the two linked. */
  lemma RemoveAtLinks(t: seq<Doc>, docs: map<Name, Doc>, k: nat)
    requires k < |t| && Linked(t, docs)
    ensures Linked(RemoveAt(t, k), docs - {t[k].name})
  {
    var r := RemoveAt(t, k);
    var d := docs - {t[k].name};
    assert d.Keys == docs.Keys - {t[k].name};
    forall i | 0 <= i < |r|
      ensures r[i].name in d && d[r[i].name] == r[i]
    {
      var i' := if i < k then i else i + 1;
      assert r[i] == t[i'];
    }
    forall i, j | 0 <= i < j < |r|
      ensures r[i].name != r[j].name
    {
      var i' := if i < k then i else i + 1;
      var j' := if j < k then j else j + 1;
      assert r[i] == t[i'] && r[j] == t[j'];
    }
  }

  /** `addDoc`: inserts a document with a new name and reports its rank
      after the insertion. */
  function AddDoc(less: (Doc, Doc) -> bool, ix: Index, d: Doc): (r: Applied)
    requires IsDocOrder(less) && Valid(less, ix) && d.name !in ix.docs
    ensures Valid(less, r.index)
    ensures r.index.docs == ix.docs[d.name := d]
    ensures r.change.kind == Added && r.change.doc == d && r.change.oldIndex == -1
    ensures 0 <= r.change.newIndex <= |ix.tree|
    ensures r.index.tree == InsertAt(ix.tree, r.change.newIndex, d)
    ensures ApplyChange(ix.tree, r.change) == Some(r.index.tree)
  {
    var t := InsertAt(ix.tree, Rank(less, ix.tree, d), d);
    AddKeepsValid(less, ix, d);
    var k := Rank(less, t, d);
    Applied(Index(t, ix.docs[d.name := d]), DocumentChange(Added, d, -1, k))
  }

  lemma AddKeepsValid(less: (Doc, Doc) -> bool, ix: Index, d: Doc)
    requires IsDocOrder(less) && Valid(less, ix) && d.name !in ix.docs
    ensures Rank(less, InsertAt(ix.tree, Rank(less, ix.tree, d), d), d) == Rank(less, ix.tree, d)
    ensures Valid(less, Index(InsertAt(ix.tree, Rank(less, ix.tree, d), d), ix.docs[d.name := d]))
  {
    assert NameAbsent(ix.tree, d);
    InsertAtRankSorted(less, ix.tree, d);
    InsertAtLinks(ix.tree, ix.docs, Rank(less, ix.tree, d), d);
  }

  /** Inserting a document with a new name into the tree and the map keeps
      the two linked. */
  lemma InsertAtLinks(t: seq<Doc>, docs: map<Name, Doc>, k: nat, d: Doc)
    requires k <= |t| && Linked(t, docs) && d.name !in docs
    ensures Linked(InsertAt(t, k, d), docs[d.name := d])
  {
    var r := InsertAt(t, k, d);
    var m := docs[d.name := d];
    forall i | 0 <= i < |r|
      ensures r[i].name in m && m[r[i].name] == r[i]
    {
      if i < k {
        assert r[i] == t[i];
      } else if i > k {
        assert r[i] == t[i - 1];
      }
    }
    forall i, j | 0 <= i < j < |r|
      ensures r[i].name != r[j].name
    {
      var i' := if i < k then i else i - 1;
      var j' := if j < k then j else j - 1;
      if i != k && j != k {
        assert r[i] == t[i'] && r[j] == t[j'];
      } else if i == k {
        assert r[j] == t[j'];
      } else {
        assert r[i] == t[i'];
      }
    }
  }

  datatype Modification = Modification(index: Index, change: Option<DocumentChange>)

  /** `modifyDoc`: a resent document with an unchanged update time is a no-op;
      otherwise the old version is deleted and the new one added. */
  function ModifyDoc(less: (Doc, Doc) -> bool, ix: Index, d: Doc): (r: Modification)
    requires IsDocOrder(less) && Valid(less, ix) && d.name in ix.docs
    ensures Valid(less, r.index)
    ensures r.change.None? <==> ix.docs[d.name].updateTime == d.updateTime
    ensures r.change.None? ==> r.index == ix
    ensures r.change.Some? ==>
              && r.index.docs == ix.docs[d.name := d]
              && r.change.value.kind == Modified && r.change.value.doc == d
              && 0 <= r.change.value.oldIndex < |ix.tree|
              && ix.tree[r.change.value.oldIndex] == ix.docs[d.name]
              && ApplyChange(ix.tree, r.change.value) == Some(r.index.tree)
    ensures |r.index.tree| == |ix.tree|
  {
    if ix.docs[d.name].updateTime != d.updateTime then
      var del := DeleteDoc(less, ix, d.name);
      assert d.name !in del.index.docs;
      var add := AddDoc(less, del.index, d);
      RemoveThenPut(ix.docs, d.name, d);
      LinkedCovers(ix.tree, ix.docs);
      ModifyReplay(ix.tree, del.change.oldIndex, add.change.newIndex, d);
      Modification(add.index, Some(DocumentChange(Modified, d, del.change.oldIndex, add.change.newIndex)))
    else
      Modification(ix, None)
  }

  /** A deletion at `k` followed by an insertion at `j` is one MODIFIED
      record moving the document from `k` to `j`. */
  lemma ModifyReplay(t: seq<Doc>, k: nat, j: nat, d: Doc)
    requires k < |t| && t[k].name == d.name && j <= |t| - 1
    ensures ApplyChange(t, DocumentChange(Modified, d, k, j)) == Some(InsertAt(RemoveAt(t, k), j, d))
  {
  }

  lemma RemoveThenPut(m: map<Name, Doc>, k: Name, v: Doc)
    ensures (m - {k})[k := v] == m[k := v]
  {
  }

  // ---------------------------------------------------------------------
  // Replaying change records

  /** How a consumer applies one change record to its copy of the ordered
      results: `None` when the record does not fit the list. */
  function ApplyChange(t: seq<Doc>, c: DocumentChange): Option<seq<Doc>> {
    match c.kind
    case Removed =>
      if 0 <= c.oldIndex < |t| && t[c.oldIndex] == c.doc && c.newIndex == -1
      then Some(RemoveAt(t, c.oldIndex)) else None
    case Added =>
      if c.oldIndex == -1 && 0 <= c.newIndex <= |t|
      then Some(InsertAt(t, c.newIndex, c.doc)) else None
    case Modified =>
      if 0 <= c.oldIndex < |t| && t[c.oldIndex].name == c.doc.name && 0 <= c.newIndex < |t|
      then Some(InsertAt(RemoveAt(t, c.oldIndex), c.newIndex, c.doc)) else None
  }

  /** Applies change records in order. */
  function Replay(t: seq<Doc>, cs: seq<DocumentChange>): Option<seq<Doc>>
    decreases |cs|
  {
    if |cs| == 0 then Some(t)
    else match ApplyChange(t, cs[0])
      case None => None
      case Some(t1) => Replay(t1, cs[1..])
  }

  lemma {:induction false} ReplayAppend(t: seq<Doc>, a: seq<DocumentChange>, b: seq<DocumentChange>)
    ensures Replay(t, a + b) == (match Replay(t, a) case None => None case Some(t1) => Replay(t1, b))
    decreases |a|
  {
    if |a| == 0 {
      assert a + b == b;
    } else {
      assert (a + b)[0] == a[0];
      assert (a + b)[1..] == a[1..] + b;
      match ApplyChange(t, a[0])
      case None =>
      case Some(t1) => ReplayAppend(t1, a[1..], b);
    }
  }


  /** Every record applies to the consumer's list as it stands and leaves
      it strictly ordered with distinct names, so each record's indices are
      the document's ranks right before and right after it (`RecordAtRank`). */
  ghost predicate StepsSorted(less: (Doc, Doc) -> bool, t: seq<Doc>, cs: seq<DocumentChange>)
    decreases |cs|
  {
    if |cs| == 0 then true
    else match ApplyChange(t, cs[0])
      case None => false
      case Some(t1) => Sorted(less, t1) && DistinctNames(t1) && StepsSorted(less, t1, cs[1..])
  }

  /** The indices of `c` are ranks: a removal carries the rank the document
      had in `before`, an addition the rank it has in `after`, and a
      modification the one position of its name in `before` and its rank in
      `after`. */
  ghost predicate AtRank(less: (Doc, Doc) -> bool, before: seq<Doc>, c: DocumentChange, after: seq<Doc>) {
    && (c.kind == Removed ==> c.oldIndex == Rank(less, before, c.doc) && c.newIndex == -1)
    && (c.kind == Added ==> c.oldIndex == -1 && c.newIndex == Rank(less, after, c.doc))
    && (c.kind == Modified ==>
          && 0 <= c.oldIndex < |before| && before[c.oldIndex].name == c.doc.name
          && (forall i :: 0 <= i < |before| && before[i].name == c.doc.name ==> i == c.oldIndex)
          && c.newIndex == Rank(less, after, c.doc))
  }

  /** A record that keeps an ordered list ordered carries ranks. */
  lemma RecordAtRank(less: (Doc, Doc) -> bool, t: seq<Doc>, c: DocumentChange, t1: seq<Doc>)
    requires IsDocOrder(less) && Sorted(less, t) && DistinctNames(t)
    requires ApplyChange(t, c) == Some(t1) && Sorted(less, t1)
    ensures AtRank(less, t, c, t1)
  {
    match c.kind
    case Removed => RankOfMember(less, t, c.oldIndex);
    case Added => RankOfMember(less, t1, c.newIndex);
    case Modified => RankOfMember(less, t1, c.newIndex);
  }

  /** In ordered steps from an ordered list, record `k` carries the ranks
      of its document in the results just before and just after it. */
  lemma {:induction false} StepsAtRanks(less: (Doc, Doc) -> bool, t: seq<Doc>, cs: seq<DocumentChange>, k: nat)
    requires IsDocOrder(less) && Sorted(less, t) && DistinctNames(t)
    requires StepsSorted(less, t, cs) && k < |cs|
    ensures Replay(t, cs[..k]).Some?
    ensures ApplyChange(Replay(t, cs[..k]).value, cs[k]).Some?
    ensures AtRank(less, Replay(t, cs[..k]).value, cs[k], ApplyChange(Replay(t, cs[..k]).value, cs[k]).value)
    decreases k
  {
    var t1 := ApplyChange(t, cs[0]).value;
    if k == 0 {
      assert cs[..0] == [];
      RecordAtRank(less, t, cs[0], t1);
    } else {
      StepsAtRanks(less, t1, cs[1..], k - 1);
      assert cs[..k][0] == cs[0] && cs[..k][1..] == cs[1..][..k - 1];
      assert cs[1..][k - 1] == cs[k];
    }
  }

  lemma StepsCons(less: (Doc, Doc) -> bool, t: seq<Doc>, c: DocumentChange, t1: seq<Doc>, rest: seq<DocumentChange>)
    requires ApplyChange(t, c) == Some(t1) && Sorted(less, t1) && DistinctNames(t1)
    requires StepsSorted(less, t1, rest)
    ensures StepsSorted(less, t, [c] + rest)
  {
    assert ([c] + rest)[0] == c && ([c] + rest)[1..] == rest;
  }

  /** Ordered steps through `a` and then through `b` are ordered steps
      through `a + b`. */
  lemma {:induction false} StepsAppend(less: (Doc, Doc) -> bool, t: seq<Doc>, a: seq<DocumentChange>, b: seq<DocumentChange>)
    requires StepsSorted(less, t, a) && Replay(t, a).Some? && StepsSorted(less, Replay(t, a).value, b)
    ensures StepsSorted(less, t, a + b)
    decreases |a|
  {
    if |a| == 0 {
      assert a + b == b;
    } else {
      assert (a + b)[0] == a[0];
      assert (a + b)[1..] == a[1..] + b;
      var t1 := ApplyChange(t, a[0]).value;
      StepsAppend(less, t1, a[1..], b);
    }
  }

  /** A consumer that can apply `c` and then `rest` can apply `[c] + rest`. */
  lemma ChangeCons(t: seq<Doc>, c: DocumentChange, t1: seq<Doc>, rest: seq<DocumentChange>, t2: seq<Doc>,
                   kind: ChangeType)
    requires ApplyChange(t, c) == Some(t1) && Replay(t1, rest) == Some(t2)
    requires c.kind == kind && AllOfKind(rest, kind)
    ensures Replay(t, [c] + rest) == Some(t2)
    ensures AllOfKind([c] + rest, kind)
    ensures ChangedDocs([c] + rest) == [c.doc] + ChangedDocs(rest)
  {
    var cs := [c] + rest;
    assert cs[0] == c && cs[1..] == rest;
  }

  lemma ConsSplit(ds: seq<Doc>)
    requires |ds| > 0
    ensures [ds[0]] + ds[1..] == ds
  {
  }

  /** The map facts of one step of `ApplyDeletes`. */
  lemma DeletesStep(m0: map<Name, Doc>, m1: map<Name, Doc>, ds: seq<Doc>)
    requires |ds| > 0 && DistinctNames(ds)
    requires forall i :: 0 <= i < |ds| ==> ds[i].name in m0 && m0[ds[i].name] == ds[i]
    requires m1 == m0 - {ds[0].name}
    ensures forall i :: 0 <= i < |ds[1..]| ==> ds[1..][i].name in m1 && m1[ds[1..][i].name] == ds[1..][i]
  {
    forall i | 0 <= i < |ds[1..]|
      ensures ds[1..][i].name in m1 && m1[ds[1..][i].name] == ds[1..][i]
    {
      assert ds[1..][i] == ds[i + 1];
    }
  }

  lemma DeletesDone(m0: map<Name, Doc>, m1: map<Name, Doc>, m2: map<Name, Doc>, ds: seq<Doc>)
    requires |ds| > 0 && m1 == m0 - {ds[0].name}
    requires forall n :: n in m2 <==> n in m1 && n !in NamesOf(ds[1..])
    requires forall n :: n in m2 ==> m2[n] == m1[n]
    ensures forall n :: n in m2 <==> n in m0 && n !in NamesOf(ds)
    ensures forall n :: n in m2 ==> m2[n] == m0[n]
  {
    NamesOfCons(ds);
  }

  /** The map facts of one step of `ApplyAdds`. */
  lemma AddsStep(m0: map<Name, Doc>, m1: map<Name, Doc>, m2: map<Name, Doc>, ds: seq<Doc>)
    requires |ds| > 0 && DistinctNames(ds) && forall i :: 0 <= i < |ds| ==> ds[i].name !in m0
    requires m1 == m0[ds[0].name := ds[0]]
    requires forall n :: n in m2 <==> n in m1 || n in NamesOf(ds[1..])
    requires forall n :: n in m1 ==> m2[n] == m1[n]
    requires forall i :: 0 <= i < |ds[1..]| ==> ds[1..][i].name in m2 && m2[ds[1..][i].name] == ds[1..][i]
    ensures forall n :: n in m2 <==> n in m0 || n in NamesOf(ds)
    ensures forall n :: n in m0 ==> m2[n] == m0[n]
    ensures forall i :: 0 <= i < |ds| ==> ds[i].name in m2 && m2[ds[i].name] == ds[i]
  {
    NamesOfCons(ds);
    forall i | 0 <= i < |ds|
      ensures ds[i].name in m2 && m2[ds[i].name] == ds[i]
    {
      if i > 0 {
        assert ds[i] == ds[1..][i - 1];
      }
    }
  }

  // ---------------------------------------------------------------------
  // The three phases of computeSnapshot

  datatype Phase = Phase(index: Index, changes: seq<DocumentChange>)

  /** The documents that change records report, in order. */
  function ChangedDocs(cs: seq<DocumentChange>): (r: seq<Doc>)
    ensures |r| == |cs| && forall i :: 0 <= i < |cs| ==> r[i] == cs[i].doc
  {
    if |cs| == 0 then [] else [cs[0].doc] + ChangedDocs(cs[1..])
  }

  ghost predicate AllOfKind(cs: seq<DocumentChange>, kind: ChangeType) {
    forall i :: 0 <= i < |cs| ==> cs[i].kind == kind
  }

  /** `cs` reports exactly the documents `ds`, in order, each as a `kind`
      record. */
  ghost predicate Records(cs: seq<DocumentChange>, kind: ChangeType, ds: seq<Doc>) {
    ChangedDocs(cs) == ds && AllOfKind(cs, kind)
  }

  lemma NamesOfCons(ds: seq<Doc>)
    requires |ds| > 0
    ensures NamesOf(ds) == {ds[0].name} + NamesOf(ds[1..])
  {
  }

  /** Applies `deleteDoc` to each document in turn: one REMOVED record per
      document, in the given order. */
  function ApplyDeletes(less: (Doc, Doc) -> bool, ix: Index, ds: seq<Doc>): (r: Phase)
    requires IsDocOrder(less) && Valid(less, ix) && DistinctNames(ds)
    requires forall i :: 0 <= i < |ds| ==> ds[i].name in ix.docs && ix.docs[ds[i].name] == ds[i]
    ensures Valid(less, r.index)
    ensures |r.index.tree| == |ix.tree| - |ds|
    ensures forall n :: n in r.index.docs <==> n in ix.docs && n !in NamesOf(ds)
    ensures forall n :: n in r.index.docs ==> r.index.docs[n] == ix.docs[n]
    ensures ChangedDocs(r.changes) == ds && AllOfKind(r.changes, Removed)
    ensures Replay(ix.tree, r.changes) == Some(r.index.tree)
    decreases |ds|
  {
    if |ds| == 0 then
      Phase(ix, [])
    else
      var a := DeleteDoc(less, ix, ds[0].name);
      DeletesStep(ix.docs, a.index.docs, ds);
      var rest := ApplyDeletes(less, a.index, ds[1..]);
      DeletesDone(ix.docs, a.index.docs, rest.index.docs, ds);
      ChangeCons(ix.tree, a.change, a.index.tree, rest.changes, rest.index.tree, Removed);
      ConsSplit(ds);
      Phase(rest.index, [a.change] + rest.changes)
  }

  /** Applies `addDoc` to each document in turn: one ADDED record per
      document, in the given order. */
  function ApplyAdds(less: (Doc, Doc) -> bool, ix: Index, ds: seq<Doc>): (r: Phase)
    requires IsDocOrder(less) && Valid(less, ix) && DistinctNames(ds)
    requires forall i :: 0 <= i < |ds| ==> ds[i].name !in ix.docs
    ensures Valid(less, r.index)
    ensures |r.index.tree| == |ix.tree| + |ds|
    ensures forall n :: n in r.index.docs <==> n in ix.docs || n in NamesOf(ds)
    ensures forall n :: n in ix.docs ==> r.index.docs[n] == ix.docs[n]
    ensures forall i :: 0 <= i < |ds| ==> ds[i].name in r.index.docs && r.index.docs[ds[i].name] == ds[i]
    ensures ChangedDocs(r.changes) == ds && AllOfKind(r.changes, Added)
    ensures Replay(ix.tree, r.changes) == Some(r.index.tree)
    decreases |ds|
  {
    if |ds| == 0 then
      Phase(ix, [])
    else
      var a := AddDoc(less, ix, ds[0]);
      NamesOfCons(ds);
      var rest := ApplyAdds(less, a.index, ds[1..]);
      AddsJoin(ix.tree, ix.docs, a.change, a.index.tree, a.index.docs,
               rest.changes, rest.index.tree, rest.index.docs, ds);
      Phase(rest.index, [a.change] + rest.changes)
  }

  /** Each `deleteDoc` record leaves the consumer's list ordered. */
  lemma {:induction false} DeletesSteps(less: (Doc, Doc) -> bool, ix: Index, ds: seq<Doc>)
    requires IsDocOrder(less) && Valid(less, ix) && DistinctNames(ds)
    requires forall i :: 0 <= i < |ds| ==> ds[i].name in ix.docs && ix.docs[ds[i].name] == ds[i]
    ensures StepsSorted(less, ix.tree, ApplyDeletes(less, ix, ds).changes)
    decreases |ds|
  {
    if |ds| > 0 {
      var a := DeleteDoc(less, ix, ds[0].name);
      DeletesStep(ix.docs, a.index.docs, ds);
      DeletesSteps(less, a.index, ds[1..]);
      StepsCons(less, ix.tree, a.change, a.index.tree, ApplyDeletes(less, a.index, ds[1..]).changes);
    }
  }

  /** Each `addDoc` record leaves the consumer's list ordered. */
  lemma {:induction false} AddsSteps(less: (Doc, Doc) -> bool, ix: Index, ds: seq<Doc>)
    requires IsDocOrder(less) && Valid(less, ix) && DistinctNames(ds)
    requires forall i :: 0 <= i < |ds| ==> ds[i].name !in ix.docs
    ensures StepsSorted(less, ix.tree, ApplyAdds(less, ix, ds).changes)
    decreases |ds|
  {
    if |ds| > 0 {
      var a := AddDoc(less, ix, ds[0]);
      NamesOfCons(ds);
      AddsSteps(less, a.index, ds[1..]);
      StepsCons(less, ix.tree, a.change, a.index.tree, ApplyAdds(less, a.index, ds[1..]).changes);
    }
  }

  /** One step of `ApplyAdds` joined to the rest: the facts about the first
      insertion and those about the later ones give the facts about all. */
  lemma AddsJoin(t0: seq<Doc>, m0: map<Name, Doc>, c: DocumentChange, t1: seq<Doc>, m1: map<Name, Doc>,
                 rest: seq<DocumentChange>, t2: seq<Doc>, m2: map<Name, Doc>, ds: seq<Doc>)
    requires |ds| > 0 && DistinctNames(ds) && forall i :: 0 <= i < |ds| ==> ds[i].name !in m0
    requires ApplyChange(t0, c) == Some(t1) && c.kind == Added && c.doc == ds[0] && |t1| == |t0| + 1
    requires m1 == m0[ds[0].name := ds[0]]
    requires Replay(t1, rest) == Some(t2) && AllOfKind(rest, Added) && ChangedDocs(rest) == ds[1..]
    requires |t2| == |t1| + |ds[1..]|
    requires forall n :: n in m2 <==> n in m1 || n in NamesOf(ds[1..])
    requires forall n :: n in m1 ==> m2[n] == m1[n]
    requires forall i :: 0 <= i < |ds[1..]| ==> ds[1..][i].name in m2 && m2[ds[1..][i].name] == ds[1..][i]
    ensures |t2| == |t0| + |ds|
    ensures forall n :: n in m2 <==> n in m0 || n in NamesOf(ds)
    ensures forall n :: n in m0 ==> m2[n] == m0[n]
    ensures forall i :: 0 <= i < |ds| ==> ds[i].name in m2 && m2[ds[i].name] == ds[i]
    ensures ChangedDocs([c] + rest) == ds && AllOfKind([c] + rest, Added)
    ensures Replay(t0, [c] + rest) == Some(t2)
  {
    ChangeCons(t0, c, t1, rest, t2, Added);
    ConsSplit(ds);
    AddsStep(m0, m1, m2, ds);
  }

  /** The document a resent snapshot leaves in the map: the old version when
      the update time is unchanged, the new one otherwise. */
  function Effective(prev: Doc, next: Doc): Doc {
    if prev.updateTime == next.updateTime then prev else next
  }

  /** Reference definition of the MODIFIED records: the documents of `ds`
      whose update time differs from the stored version's, in order. */
  function ChangedOnly(docs: map<Name, Doc>, ds: seq<Doc>): seq<Doc>
    requires forall i :: 0 <= i < |ds| ==> ds[i].name in docs
  {
    if |ds| == 0 then []
    else (if ds[0].updateTime != docs[ds[0].name].updateTime then [ds[0]] else []) + ChangedOnly(docs, ds[1..])
  }

  /** `ChangedOnly` reads only the stored versions of the names in `ds`. */
  lemma {:induction false} ChangedOnlyAgree(d1: map<Name, Doc>, d2: map<Name, Doc>, ds: seq<Doc>)
    requires forall i :: 0 <= i < |ds| ==> ds[i].name in d1 && ds[i].name in d2 && d1[ds[i].name] == d2[ds[i].name]
    ensures ChangedOnly(d1, ds) == ChangedOnly(d2, ds)
  {
    if |ds| > 0 {
      ChangedOnlyAgree(d1, d2, ds[1..]);
    }
  }

  /** Applies `modifyDoc` to each document in turn; only the documents whose
      update time changed produce a MODIFIED record (`UpdatesRecords`). */
  function ApplyUpdates(less: (Doc, Doc) -> bool, ix: Index, ds: seq<Doc>): (r: Phase)
    requires IsDocOrder(less) && Valid(less, ix) && DistinctNames(ds)
    requires forall i :: 0 <= i < |ds| ==> ds[i].name in ix.docs
    ensures Valid(less, r.index)
    ensures |r.index.tree| == |ix.tree|
    decreases |ds|
  {
    if |ds| == 0 then
      Phase(ix, [])
    else
      var m := ModifyDoc(less, ix, ds[0]);
      EffectivePut(ix.docs, m.index.docs, ds[0]);
      UpdatesStep(ix.docs, m.index.docs, ds);
      var rest := ApplyUpdates(less, m.index, ds[1..]);
      Combine(m, rest)
  }

  /** After the update phase every name keeps its place in the map, and a
      document of `ds` holds its effective version. */
  lemma {:induction false} UpdatesMap(less: (Doc, Doc) -> bool, ix: Index, ds: seq<Doc>)
    requires IsDocOrder(less) && Valid(less, ix) && DistinctNames(ds)
    requires forall i :: 0 <= i < |ds| ==> ds[i].name in ix.docs
    ensures forall n :: n in ApplyUpdates(less, ix, ds).index.docs <==> n in ix.docs
    ensures forall n :: n in ix.docs && n !in NamesOf(ds) ==> ApplyUpdates(less, ix, ds).index.docs[n] == ix.docs[n]
    ensures forall i :: 0 <= i < |ds| ==>
              ds[i].name in ApplyUpdates(less, ix, ds).index.docs
              && ApplyUpdates(less, ix, ds).index.docs[ds[i].name] == Effective(ix.docs[ds[i].name], ds[i])
    decreases |ds|
  {
    if |ds| > 0 {
      var m := UpdatesUnfold(less, ix, ds);
      UpdatesMap(less, m.index, ds[1..]);
      UpdatesDone(ix.docs, m.index.docs, ApplyUpdates(less, m.index, ds[1..]).index.docs, ds);
    }
  }

  /** Prepends the record of one `modifyDoc`, if it produced one. */
  function Combine(m: Modification, rest: Phase): Phase {
    Phase(rest.index, if m.change.Some? then [m.change.value] + rest.changes else rest.changes)
  }

  /** The records of the update phase are MODIFIED records for exactly the
      documents whose update time changed, in the given order. They replay
      the index before the phase into the index after it, each leaving the
      consumer's list ordered. */
  lemma {:induction false} UpdatesRecords(less: (Doc, Doc) -> bool, ix: Index, ds: seq<Doc>)
    requires IsDocOrder(less) && Valid(less, ix) && DistinctNames(ds)
    requires forall i :: 0 <= i < |ds| ==> ds[i].name in ix.docs
    ensures ChangedDocs(ApplyUpdates(less, ix, ds).changes) == ChangedOnly(ix.docs, ds)
    ensures AllOfKind(ApplyUpdates(less, ix, ds).changes, Modified)
    ensures Replay(ix.tree, ApplyUpdates(less, ix, ds).changes) == Some(ApplyUpdates(less, ix, ds).index.tree)
    ensures StepsSorted(less, ix.tree, ApplyUpdates(less, ix, ds).changes)
    decreases |ds|
  {
    if |ds| > 0 {
      var m := UpdatesUnfold(less, ix, ds);
      var rest := ApplyUpdates(less, m.index, ds[1..]);
      UpdatesRecords(less, m.index, ds[1..]);
      ChangedOnlyAgree(m.index.docs, ix.docs, ds[1..]);
      if m.change.Some? {
        ChangeCons(ix.tree, m.change.value, m.index.tree, rest.changes, rest.index.tree, Modified);
        StepsCons(less, ix.tree, m.change.value, m.index.tree, rest.changes);
      }
    }
  }

  /** One step of `ApplyUpdates`: the first document's `modifyDoc`, which
      stores its effective version and leaves the later names alone,
      followed by the phase on the rest. */
  lemma UpdatesUnfold(less: (Doc, Doc) -> bool, ix: Index, ds: seq<Doc>) returns (m: Modification)
    requires IsDocOrder(less) && Valid(less, ix) && DistinctNames(ds) && |ds| > 0
    requires forall i :: 0 <= i < |ds| ==> ds[i].name in ix.docs
    ensures m == ModifyDoc(less, ix, ds[0])
    ensures Valid(less, m.index)
    ensures m.index.docs == ix.docs[ds[0].name := Effective(ix.docs[ds[0].name], ds[0])]
    ensures forall i :: 0 <= i < |ds[1..]| ==>
              ds[1..][i].name in m.index.docs && ds[1..][i].name in ix.docs
              && m.index.docs[ds[1..][i].name] == ix.docs[ds[1..][i].name]
    ensures ApplyUpdates(less, ix, ds) == Combine(m, ApplyUpdates(less, m.index, ds[1..]))
  {
    m := ModifyDoc(less, ix, ds[0]);
    EffectivePut(ix.docs, m.index.docs, ds[0]);
    UpdatesStep(ix.docs, m.index.docs, ds);
  }

  /** `modifyDoc` stores the effective version under the document's name. */
  lemma EffectivePut(m0: map<Name, Doc>, m1: map<Name, Doc>, d: Doc)
    requires d.name in m0
    requires (m1 == m0 && m0[d.name].updateTime == d.updateTime)
             || (m1 == m0[d.name := d] && m0[d.name].updateTime != d.updateTime)
    ensures m1 == m0[d.name := Effective(m0[d.name], d)]
  {
  }

  /** The stored versions of the later names are untouched by one step of
      `ApplyUpdates`. */
  lemma UpdatesStep(m0: map<Name, Doc>, m1: map<Name, Doc>, ds: seq<Doc>)
    requires |ds| > 0 && DistinctNames(ds) && forall i :: 0 <= i < |ds| ==> ds[i].name in m0
    requires m1 == m0[ds[0].name := Effective(m0[ds[0].name], ds[0])]
    ensures forall i :: 0 <= i < |ds[1..]| ==>
              ds[1..][i].name in m1 && ds[1..][i].name in m0 && m1[ds[1..][i].name] == m0[ds[1..][i].name]
  {
    forall i | 0 <= i < |ds[1..]|
      ensures ds[1..][i].name in m1 && ds[1..][i].name in m0 && m1[ds[1..][i].name] == m0[ds[1..][i].name]
    {
      assert ds[1..][i] == ds[i + 1];
    }
  }

  /** The map facts of one step of `ApplyUpdates`. */
  lemma UpdatesDone(m0: map<Name, Doc>, m1: map<Name, Doc>, m2: map<Name, Doc>, ds: seq<Doc>)
    requires |ds| > 0 && DistinctNames(ds) && forall i :: 0 <= i < |ds| ==> ds[i].name in m0
    requires m1 == m0[ds[0].name := Effective(m0[ds[0].name], ds[0])]
    requires forall n :: n in m2 <==> n in m1
    requires forall n :: n in m1 && n !in NamesOf(ds[1..]) ==> m2[n] == m1[n]
    requires forall i :: 0 <= i < |ds[1..]| ==>
               ds[1..][i].name in m2 && m2[ds[1..][i].name] == Effective(m1[ds[1..][i].name], ds[1..][i])
    ensures forall n :: n in m2 <==> n in m0
    ensures forall n :: n in m0 && n !in NamesOf(ds) ==> m2[n] == m0[n]
    ensures forall i :: 0 <= i < |ds| ==>
              ds[i].name in m2 && m2[ds[i].name] == Effective(m0[ds[i].name], ds[i])
  {
    NamesOfCons(ds);
    UpdatesStep(m0, m1, ds);
    forall i | 0 <= i < |ds|
      ensures ds[i].name in m2 && m2[ds[i].name] == Effective(m0[ds[i].name], ds[i])
    {
      if i > 0 {
        assert ds[i] == ds[1..][i - 1];
      } else {
        assert ds[0].name !in NamesOf(ds[1..]);
      }
    }
  }

  /** Every document `ChangedOnly` keeps comes from `ds`, in `ds`'s order,
      and carries an update time other than the stored version's. */
  lemma {:induction false} ChangedOnlySorted(less: (Doc, Doc) -> bool, docs: map<Name, Doc>, ds: seq<Doc>)
    requires forall i :: 0 <= i < |ds| ==> ds[i].name in docs
    ensures forall x :: x in ChangedOnly(docs, ds) ==> x in ds && x.updateTime != docs[x.name].updateTime
    ensures Sorted(less, ds) ==> Sorted(less, ChangedOnly(docs, ds))
  {
    if |ds| > 0 {
      ChangedOnlySorted(less, docs, ds[1..]);
      var rest := ChangedOnly(docs, ds[1..]);
      if Sorted(less, ds) {
        forall x | x in rest
          ensures less(ds[0], x)
        {
          var k :| 0 <= k < |ds[1..]| && ds[1..][k] == x;
          assert ds[k + 1] == x;
        }
      }
    }
  }

  // ---------------------------------------------------------------------
  // computeSnapshot

  function PhaseRank(k: ChangeType): nat {
    match k
    case Removed => 0
    case Added => 1
    case Modified => 2
  }

  /** The order of a snapshot's change list: all removals, then all
      additions, then all modifications, each group ascending under the
      comparator (removals by the removed version, the others by the new). */
  ghost predicate PhaseOrdered(less: (Doc, Doc) -> bool, cs: seq<DocumentChange>) {
    forall i, j :: 0 <= i < j < |cs| ==>
      PhaseRank(cs[i].kind) <= PhaseRank(cs[j].kind)
      && (cs[i].kind == cs[j].kind ==> less(cs[i].doc, cs[j].doc))
  }

  /** The document map a snapshot should leave for a name: untouched names
      keep their document, REMOVED drops it, and a pending snapshot replaces
      it unless it is a resend with the same update time. */
  function NextDoc(docs: map<Name, Doc>, cm: ChangeMap, readTime: Timestamp, n: Name): Option<Doc> {
    match Lookup(cm, n)
    case None => Get(docs, n)
    case Some(RemovedMarker) => None
    case Some(Changed(p)) =>
      if n in docs && docs[n].updateTime == p.updateTime then Some(docs[n])
      else Some(Build(n, p, readTime))
  }

  /** Every document of the map is stored under its own name. */
  ghost predicate KeyedByName(docs: map<Name, Doc>) {
    forall n :: n in docs ==> docs[n].name == n
  }

  datatype Snapshot = Snapshot(index: Index, changes: seq<DocumentChange>)

  /** `computeSnapshot`: the removals, additions and modifications of the
      accumulated changes, each sorted by the comparator and applied in that
      order. The change list replays the old results into the new ones,
      and each record leaves them ordered, so its indices are ranks. The
      new map holds exactly `NextDoc` for every name, and the size is the
      one `currentSize` predicted. */
  function ComputeSnapshot(less: (Doc, Doc) -> bool, ix: Index, cm: ChangeMap, readTime: Timestamp): (r: Snapshot)
    requires IsDocOrder(less) && Valid(less, ix) && DistinctKeys(cm)
    ensures Valid(less, r.index)
    ensures KeyedByName(ix.docs) && |r.index.tree| == |r.index.docs| == CurrentSize(ix.docs, cm)
    ensures forall n :: Get(r.index.docs, n) == NextDoc(ix.docs, cm, readTime, n)
    ensures PhaseOrdered(less, r.changes)
    ensures Replay(ix.tree, r.changes) == Some(r.index.tree)
    ensures StepsSorted(less, ix.tree, r.changes)
    ensures exists c :: SortedLists(less, ix.docs, cm, readTime, c) && PhaseRecords(ix.docs, r.changes, c)
    ensures r.changes == [] <==> r.index == ix
  {
    LinkedCovers(ix.tree, ix.docs);
    var lists := SortedChanges(less, ix.docs, cm, readTime);
    var r := RunPhases(less, ix, cm, readTime, lists);
    RunPhasesRecords(less, ix, cm, readTime, lists);
    RunPhasesSteps(less, ix, cm, readTime, lists);
    SnapshotQuiet(less, ix, cm, readTime, lists, r);
    r
  }

  /** The records of a snapshot, group by group: REMOVED records for
      exactly the delete list, then ADDED records for exactly the add list,
      then MODIFIED records for exactly the updates whose update time
      changed. */
  ghost predicate PhaseRecords(docs: map<Name, Doc>, cs: seq<DocumentChange>, c: ChangeSet) {
    && (forall i :: 0 <= i < |c.updates| ==> c.updates[i].name in docs)
    && |cs| == |c.deletes| + |c.adds| + |ChangedOnly(docs, c.updates)|
    && Records(cs[..|c.deletes|], Removed, c.deletes)
    && Records(cs[|c.deletes|..|c.deletes| + |c.adds|], Added, c.adds)
    && Records(cs[|c.deletes| + |c.adds|..], Modified, ChangedOnly(docs, c.updates))
  }

  /** The three groups of records, concatenated. The update phase judges
      a change against the map after the first two phases, which holds the
      same versions of the updated names as the map before them. */
  lemma PhaseRecordsJoin(docs: map<Name, Doc>, ap: map<Name, Doc>, a: seq<DocumentChange>, b: seq<DocumentChange>,
                         u: seq<DocumentChange>, c: ChangeSet)
    requires forall i :: 0 <= i < |c.updates| ==>
               c.updates[i].name in docs && c.updates[i].name in ap && ap[c.updates[i].name] == docs[c.updates[i].name]
    requires Records(a, Removed, c.deletes) && Records(b, Added, c.adds)
    requires Records(u, Modified, ChangedOnly(ap, c.updates))
    ensures PhaseRecords(docs, a + b + u, c)
  {
    ChangedOnlyAgree(ap, docs, c.updates);
    var cs := a + b + u;
    assert cs[..|a|] == a;
    assert cs[|a|..|a| + |b|] == b;
    assert cs[|a| + |b|..] == u;
  }

  /** A snapshot reports no change exactly when it leaves the documents as
      they were: a removal, an addition or a modification with a new update
      time always shows up in the map. */
  lemma SnapshotQuiet(less: (Doc, Doc) -> bool, ix: Index, cm: ChangeMap, readTime: Timestamp, c: ChangeSet, r: Snapshot)
    requires Linked(ix.tree, ix.docs) && Linked(r.index.tree, r.index.docs)
    requires DeleteList(ix.docs, cm, c.deletes) && PendingList(ix.docs, cm, readTime, false, c.adds)
    requires PendingList(ix.docs, cm, readTime, true, c.updates) && PhaseRecords(ix.docs, r.changes, c)
    requires forall n :: Get(r.index.docs, n) == NextDoc(ix.docs, cm, readTime, n)
    requires Replay(ix.tree, r.changes) == Some(r.index.tree)
    ensures r.changes == [] <==> r.index == ix
  {
    if r.changes == [] {
      LinkedSame(ix.tree, ix.docs, r.index.docs);
    }
    if r.changes != [] {
      ChangesShow(less, ix.docs, r.index.docs, cm, readTime, c);
    }
  }

  /** A non-empty group of the change set shows in the next map: a deleted
      name leaves it, an added name enters it, and an effective
      modification replaces the stored version. */
  lemma ChangesShow(less: (Doc, Doc) -> bool, docs: map<Name, Doc>, next: map<Name, Doc>, cm: ChangeMap, readTime: Timestamp, c: ChangeSet)
    requires DeleteList(docs, cm, c.deletes) && PendingList(docs, cm, readTime, false, c.adds)
    requires PendingList(docs, cm, readTime, true, c.updates)
    requires forall n :: Get(next, n) == NextDoc(docs, cm, readTime, n)
    requires forall i :: 0 <= i < |c.updates| ==> c.updates[i].name in docs
    ensures |c.deletes| + |c.adds| + |ChangedOnly(docs, c.updates)| > 0 ==> next != docs
  {
    if |c.deletes| > 0 {
      var n := c.deletes[0].name;
      assert Get(next, n) == NextDoc(docs, cm, readTime, n);
      assert n in docs && n !in next;
    } else if |c.adds| > 0 {
      var n := c.adds[0].name;
      assert Get(next, n) == NextDoc(docs, cm, readTime, n);
      assert n !in docs && n in next;
    } else if |ChangedOnly(docs, c.updates)| > 0 {
      var x := ChangedOnly(docs, c.updates)[0];
      ChangedOnlySorted(less, docs, c.updates);
      assert x in c.updates;
      assert Get(next, x.name) == NextDoc(docs, cm, readTime, x.name);
      assert next[x.name] != docs[x.name];
    }
  }

  /** Every entry of the accumulator resends a known document with the
      update time already stored for it. */
  ghost predicate OnlyResends(docs: map<Name, Doc>, cm: ChangeMap) {
    forall i :: 0 <= i < |cm| ==>
      && cm[i].change.Changed? && cm[i].name in docs
      && docs[cm[i].name].updateTime == cm[i].change.pending.updateTime
  }

  /** A cycle that only resends known documents with their stored update
      times has nothing to report: no removals, no additions and no
      effective modifications. */
  lemma ResendsChangeNothing(less: (Doc, Doc) -> bool, docs: map<Name, Doc>, cm: ChangeMap, readTime: Timestamp)
    requires IsDocOrder(less) && DistinctKeys(cm) && KeyedByName(docs) && OnlyResends(docs, cm)
    ensures SortedChanges(less, docs, cm, readTime).deletes == []
    ensures SortedChanges(less, docs, cm, readTime).adds == []
    ensures ChangedOnly(docs, SortedChanges(less, docs, cm, readTime).updates) == []
  {
    ResendsExtractNothing(docs, cm, readTime);
    var c := SortedChanges(less, docs, cm, readTime);
    ResendTimes(docs, cm, readTime, c.updates);
    ChangedOnlyNone(docs, c.updates);
  }

  /** A resent snapshot carries the update time already stored. */
  lemma ResendTimes(docs: map<Name, Doc>, cm: ChangeMap, readTime: Timestamp, xs: seq<Doc>)
    requires DistinctKeys(cm) && OnlyResends(docs, cm) && PendingList(docs, cm, readTime, true, xs)
    ensures forall k :: 0 <= k < |xs| ==> xs[k].name in docs && xs[k].updateTime == docs[xs[k].name].updateTime
  {
    forall k | 0 <= k < |xs|
      ensures xs[k].updateTime == docs[xs[k].name].updateTime
    {
      var i :| 0 <= i < |cm| && cm[i].name == xs[k].name;
      LookupAt(cm, i);
    }
  }

  /** With only resends, the accumulator yields no delete and no add. */
  lemma {:induction false} ResendsExtractNothing(docs: map<Name, Doc>, cm: ChangeMap, readTime: Timestamp)
    requires DistinctKeys(cm) && KeyedByName(docs) && OnlyResends(docs, cm)
    ensures Deletes(docs, cm) == [] && Pendings(docs, cm, readTime, false) == []
  {
    if |cm| > 0 {
      assert OnlyResends(docs, cm[1..]) by {
        forall i | 0 <= i < |cm[1..]|
          ensures cm[1..][i] == cm[i + 1]
        {
        }
      }
      ResendsExtractNothing(docs, cm[1..], readTime);
    }
  }

  /** Documents whose update times all match the stored versions yield no
      modification. */
  lemma {:induction false} ChangedOnlyNone(docs: map<Name, Doc>, ds: seq<Doc>)
    requires forall i :: 0 <= i < |ds| ==> ds[i].name in docs && ds[i].updateTime == docs[ds[i].name].updateTime
    ensures ChangedOnly(docs, ds) == []
  {
    if |ds| > 0 {
      ChangedOnlyNone(docs, ds[1..]);
    }
  }

  /** A tree determines the map linked to it. */
  lemma LinkedSame(t: seq<Doc>, m1: map<Name, Doc>, m2: map<Name, Doc>)
    requires Linked(t, m1) && Linked(t, m2)
    ensures m1 == m2
  {
    LinkedCovers(t, m1);
    LinkedCovers(t, m2);
    forall n | n in m1
      ensures m1[n] == m2[n]
    {
      var i :| 0 <= i < |t| && t[i].name == n;
    }
  }

  /** The three change lists of one snapshot, each sorted by the comparator:
      exactly the removed known documents, the new pending snapshots and the
      known pending snapshots. */
  ghost predicate SortedLists(less: (Doc, Doc) -> bool, docs: map<Name, Doc>, cm: ChangeMap, readTime: Timestamp,
                              c: ChangeSet) {
    && Sorted(less, c.deletes) && Sorted(less, c.adds) && Sorted(less, c.updates)
    && DistinctNames(c.deletes) && DistinctNames(c.adds) && DistinctNames(c.updates)
    && DeleteList(docs, cm, c.deletes)
    && PendingList(docs, cm, readTime, false, c.adds)
    && PendingList(docs, cm, readTime, true, c.updates)
  }

  /** The three lists of `extractCurrentChanges`, each sorted by the
      comparator; their sizes give `currentSize`. */
  function SortedChanges(less: (Doc, Doc) -> bool, docs: map<Name, Doc>, cm: ChangeMap, readTime: Timestamp): (r: ChangeSet)
    requires IsDocOrder(less) && DistinctKeys(cm) && KeyedByName(docs)
    ensures SortedLists(less, docs, cm, readTime, r)
    ensures |docs| + |r.adds| - |r.deletes| == CurrentSize(docs, cm)
    ensures |r.deletes| == |Deletes(docs, cm)| && |r.adds| == |Pendings(docs, cm, readTime, false)|
  {
    var set_ := Extract(docs, cm, readTime);
    PendingsLen(docs, cm, readTime, Timestamp(0, 0), false);
    var ds := SortDocs(less, set_.deletes);
    SortedContents(less, set_.deletes, ds);
    DeleteListSame(docs, cm, set_.deletes, ds);
    var as_ := SortDocs(less, set_.adds);
    SortedContents(less, set_.adds, as_);
    PendingListSame(docs, cm, readTime, false, set_.adds, as_);
    var us := SortDocs(less, set_.updates);
    SortedContents(less, set_.updates, us);
    PendingListSame(docs, cm, readTime, true, set_.updates, us);
    ChangeSet(ds, as_, us)
  }

  /** The index after the first two phases, with the records of each. */
  datatype FirstPhases = FirstPhases(index: Index, removals: seq<DocumentChange>, additions: seq<DocumentChange>)

  /** The first two phases of `computeSnapshot`: the removals, then the
      additions. */
  function RemoveThenAdd(less: (Doc, Doc) -> bool, ix: Index, ds: seq<Doc>, as_: seq<Doc>): (r: FirstPhases)
    requires IsDocOrder(less) && Valid(less, ix) && DistinctNames(ds) && DistinctNames(as_)
    requires forall i :: 0 <= i < |ds| ==> ds[i].name in ix.docs && ix.docs[ds[i].name] == ds[i]
    requires forall i :: 0 <= i < |as_| ==> as_[i].name !in ix.docs
    ensures Valid(less, r.index)
    ensures |r.index.tree| == |ix.tree| - |ds| + |as_|
    ensures forall n :: n in r.index.docs <==> (n in ix.docs && n !in NamesOf(ds)) || n in NamesOf(as_)
    ensures forall n :: n in ix.docs && n !in NamesOf(ds) ==> r.index.docs[n] == ix.docs[n]
    ensures forall i :: 0 <= i < |as_| ==> as_[i].name in r.index.docs && r.index.docs[as_[i].name] == as_[i]
    ensures Records(r.removals, Removed, ds) && Records(r.additions, Added, as_)
    ensures Replay(ix.tree, r.removals + r.additions) == Some(r.index.tree)
  {
    var dp := ApplyDeletes(less, ix, ds);
    var ap := ApplyAdds(less, dp.index, as_);
    ReplayAppend(ix.tree, dp.changes, ap.changes);
    FirstPhases(ap.index, dp.changes, ap.changes)
  }

  /** The three phases of `computeSnapshot` on the sorted lists. */
  function RunPhases(less: (Doc, Doc) -> bool, ix: Index, cm: ChangeMap, readTime: Timestamp, c: ChangeSet): (r: Snapshot)
    requires IsDocOrder(less) && Valid(less, ix) && DistinctKeys(cm) && KeyedByName(ix.docs)
    requires SortedLists(less, ix.docs, cm, readTime, c)
    ensures Valid(less, r.index)
    ensures |r.index.tree| == |ix.tree| - |c.deletes| + |c.adds|
    ensures forall n :: Get(r.index.docs, n) == NextDoc(ix.docs, cm, readTime, n)
    ensures PhaseOrdered(less, r.changes)
    ensures Replay(ix.tree, r.changes) == Some(r.index.tree)
  {
    var ds, as_, us := c.deletes, c.adds, c.updates;
    UpdatesNotDeleted(ix.docs, cm, readTime, ds, us);
    var fp := RemoveThenAdd(less, ix, ds, as_);
    UpdateInputs(ix.docs, fp.index.docs, ds, as_, us);
    var up := ApplyUpdates(less, fp.index, us);
    ThirdPhase(less, ix, cm, readTime, c, fp);
    Snapshot(up.index, fp.removals + fp.additions + up.changes)
  }

  /** The update phase after the first two: the map ends as `NextDoc` says,
      and the three groups of records are in phase order and replay the
      tree before the snapshot into the tree after it. */
  lemma ThirdPhase(less: (Doc, Doc) -> bool, ix: Index, cm: ChangeMap, readTime: Timestamp, c: ChangeSet, fp: FirstPhases)
    requires IsDocOrder(less) && Valid(less, ix) && DistinctKeys(cm) && KeyedByName(ix.docs)
    requires SortedLists(less, ix.docs, cm, readTime, c)
    requires fp == RemoveThenAdd(less, ix, c.deletes, c.adds)
    requires forall i :: 0 <= i < |c.updates| ==>
               c.updates[i].name in fp.index.docs && fp.index.docs[c.updates[i].name] == ix.docs[c.updates[i].name]
    ensures forall n :: Get(ApplyUpdates(less, fp.index, c.updates).index.docs, n) == NextDoc(ix.docs, cm, readTime, n)
    ensures PhaseOrdered(less, fp.removals + fp.additions + ApplyUpdates(less, fp.index, c.updates).changes)
    ensures Replay(ix.tree, fp.removals + fp.additions + ApplyUpdates(less, fp.index, c.updates).changes)
              == Some(ApplyUpdates(less, fp.index, c.updates).index.tree)
  {
    var ds, as_, us := c.deletes, c.adds, c.updates;
    var up := ApplyUpdates(less, fp.index, us);
    UpdatesRecords(less, fp.index, us);
    UpdatesMap(less, fp.index, us);
    ReplayAppend(ix.tree, fp.removals + fp.additions, up.changes);
    ChangedOnlySorted(less, fp.index.docs, us);
    PhasesOrdered(less, fp.removals, fp.additions, up.changes);
    SnapshotContents(ix.docs, cm, readTime, ds, as_, us, fp.index.docs, up.index.docs);
  }

  /** Every record `RunPhases` hands over leaves the consumer's list
      ordered, so each carries the ranks of its document. */
  lemma RunPhasesSteps(less: (Doc, Doc) -> bool, ix: Index, cm: ChangeMap, readTime: Timestamp, c: ChangeSet)
    requires IsDocOrder(less) && Valid(less, ix) && DistinctKeys(cm) && KeyedByName(ix.docs)
    requires SortedLists(less, ix.docs, cm, readTime, c)
    ensures StepsSorted(less, ix.tree, RunPhases(less, ix, cm, readTime, c).changes)
  {
    var ds, as_, us := c.deletes, c.adds, c.updates;
    UpdatesNotDeleted(ix.docs, cm, readTime, ds, us);
    var fp := RemoveThenAdd(less, ix, ds, as_);
    var dp := ApplyDeletes(less, ix, ds);
    DeletesSteps(less, ix, ds);
    AddsSteps(less, dp.index, as_);
    StepsAppend(less, ix.tree, fp.removals, fp.additions);
    UpdateInputs(ix.docs, fp.index.docs, ds, as_, us);
    UpdatesRecords(less, fp.index, us);
    StepsAppend(less, ix.tree, fp.removals + fp.additions, ApplyUpdates(less, fp.index, us).changes);
  }

  /** The records `RunPhases` hands over are, group by group, exactly the
      delete list, the add list and the updates with a new update time. */
  lemma RunPhasesRecords(less: (Doc, Doc) -> bool, ix: Index, cm: ChangeMap, readTime: Timestamp, c: ChangeSet)
    requires IsDocOrder(less) && Valid(less, ix) && DistinctKeys(cm) && KeyedByName(ix.docs)
    requires SortedLists(less, ix.docs, cm, readTime, c)
    ensures PhaseRecords(ix.docs, RunPhases(less, ix, cm, readTime, c).changes, c)
  {
    var ds, as_, us := c.deletes, c.adds, c.updates;
    UpdatesNotDeleted(ix.docs, cm, readTime, ds, us);
    var fp := RemoveThenAdd(less, ix, ds, as_);
    UpdateInputs(ix.docs, fp.index.docs, ds, as_, us);
    UpdatesRecords(less, fp.index, us);
    PhaseRecordsJoin(ix.docs, fp.index.docs, fp.removals, fp.additions, ApplyUpdates(less, fp.index, us).changes, c);
  }

  /** Sorting keeps the members, their count and the distinct names. */
  lemma SortedContents(less: (Doc, Doc) -> bool, xs: seq<Doc>, ys: seq<Doc>)
    requires IsDocOrder(less) && multiset(ys) == multiset(xs) && DistinctNames(xs) && Sorted(less, ys)
    ensures |ys| == |xs|
    ensures forall d :: d in ys <==> d in xs
    ensures DistinctNames(ys)
  {
    assert |ys| == |multiset(ys)|;
    forall d
      ensures d in ys <==> d in xs
    {
      assert d in ys <==> d in multiset(ys);
    }
    forall i, j | 0 <= i < j < |ys|
      ensures ys[i].name != ys[j].name
    {
      assert ys[i] in multiset(xs) && ys[j] in multiset(xs);
      var p :| 0 <= p < |xs| && xs[p] == ys[i];
      var q :| 0 <= q < |xs| && xs[q] == ys[j];
      assert less(ys[i], ys[j]);
    }
  }

  /** Reordering a list keeps it a delete list. */
  lemma DeleteListSame(docs: map<Name, Doc>, cm: ChangeMap, xs: seq<Doc>, ys: seq<Doc>)
    requires DeleteList(docs, cm, xs) && forall d :: d in ys <==> d in xs
    ensures DeleteList(docs, cm, ys)
  {
    forall i | 0 <= i < |ys|
      ensures ys[i].name in docs && docs[ys[i].name] == ys[i] && Lookup(cm, ys[i].name) == Some(RemovedMarker)
    {
      assert ys[i] in xs;
    }
  }

  /** Reordering a list keeps it a pending list. */
  lemma PendingListSame(docs: map<Name, Doc>, cm: ChangeMap, readTime: Timestamp, known: bool, xs: seq<Doc>, ys: seq<Doc>)
    requires PendingList(docs, cm, readTime, known, xs) && forall d :: d in ys <==> d in xs
    ensures PendingList(docs, cm, readTime, known, ys)
  {
    forall i | 0 <= i < |ys|
      ensures (ys[i].name in docs <==> known) && HasPending(cm, ys[i].name)
              && ys[i] == Build(ys[i].name, Lookup(cm, ys[i].name).value.pending, readTime)
    {
      assert ys[i] in xs;
    }
  }

  /** No document is both updated and deleted. */
  lemma UpdatesNotDeleted(docs: map<Name, Doc>, cm: ChangeMap, readTime: Timestamp, ds: seq<Doc>, us: seq<Doc>)
    requires DeleteList(docs, cm, ds) && PendingList(docs, cm, readTime, true, us)
    ensures forall i :: 0 <= i < |us| ==> us[i].name in docs && us[i].name !in NamesOf(ds)
  {
    forall i | 0 <= i < |us|
      ensures us[i].name !in NamesOf(ds)
    {
      forall j | 0 <= j < |ds|
        ensures ds[j].name != us[i].name
      {
      }
    }
  }

  /** The update list names documents that survive the first two phases
      unchanged. */
  lemma UpdateInputs(docs: map<Name, Doc>, ap: map<Name, Doc>, ds: seq<Doc>, as_: seq<Doc>, us: seq<Doc>)
    requires forall i :: 0 <= i < |us| ==> us[i].name in docs && us[i].name !in NamesOf(ds)
    requires forall n :: n in ap <==> (n in docs && n !in NamesOf(ds)) || n in NamesOf(as_)
    requires forall n :: n in docs && n !in NamesOf(ds) ==> ap[n] == docs[n]
    ensures forall i :: 0 <= i < |us| ==> us[i].name in ap && ap[us[i].name] == docs[us[i].name]
  {
  }

  lemma PhasesOrdered(less: (Doc, Doc) -> bool, a: seq<DocumentChange>, b: seq<DocumentChange>, c: seq<DocumentChange>)
    requires AllOfKind(a, Removed) && AllOfKind(b, Added) && AllOfKind(c, Modified)
    requires Sorted(less, ChangedDocs(a)) && Sorted(less, ChangedDocs(b)) && Sorted(less, ChangedDocs(c))
    ensures PhaseOrdered(less, a + b + c)
  {
    var cs := a + b + c;
    forall i, j | 0 <= i < j < |cs|
      ensures PhaseRank(cs[i].kind) <= PhaseRank(cs[j].kind)
      ensures cs[i].kind == cs[j].kind ==> less(cs[i].doc, cs[j].doc)
    {
      if j < |a| {
        assert cs[i] == a[i] && cs[j] == a[j];
        assert ChangedDocs(a)[i] == a[i].doc && ChangedDocs(a)[j] == a[j].doc;
      } else if j < |a| + |b| {
        assert cs[j] == b[j - |a|];
        if i >= |a| {
          assert cs[i] == b[i - |a|];
          assert ChangedDocs(b)[i - |a|] == cs[i].doc && ChangedDocs(b)[j - |a|] == cs[j].doc;
        } else {
          assert cs[i] == a[i];
        }
      } else {
        assert cs[j] == c[j - |a| - |b|];
        if i >= |a| + |b| {
          assert cs[i] == c[i - |a| - |b|];
          assert ChangedDocs(c)[i - |a| - |b|] == cs[i].doc && ChangedDocs(c)[j - |a| - |b|] == cs[j].doc;
        } else if i >= |a| {
          assert cs[i] == b[i - |a|];
        } else {
          assert cs[i] == a[i];
        }
      }
    }
  }

  /** The add and update lists do not depend on the read time for their length. */
  lemma {:induction false} PendingsLen(docs: map<Name, Doc>, cm: ChangeMap, t1: Timestamp, t2: Timestamp, known: bool)
    requires DistinctKeys(cm)
    ensures |Pendings(docs, cm, t1, known)| == |Pendings(docs, cm, t2, known)|
  {
    if |cm| > 0 {
      PendingsLen(docs, cm[1..], t1, t2, known);
    }
  }

  /** The document map after the three phases agrees with `NextDoc`. */
  lemma SnapshotContents(docs: map<Name, Doc>, cm: ChangeMap, readTime: Timestamp,
                         ds: seq<Doc>, as_: seq<Doc>, us: seq<Doc>, ap: map<Name, Doc>, up: map<Name, Doc>)
    requires KeyedByName(docs) && DeleteList(docs, cm, ds)
    requires PendingList(docs, cm, readTime, false, as_)
    requires PendingList(docs, cm, readTime, true, us)
    requires forall n :: n in ap <==> (n in docs && n !in NamesOf(ds)) || n in NamesOf(as_)
    requires forall n :: n in docs && n !in NamesOf(ds) ==> ap[n] == docs[n]
    requires forall i :: 0 <= i < |as_| ==> as_[i].name in ap && ap[as_[i].name] == as_[i]
    requires forall n :: n in up <==> n in ap
    requires forall n :: n in ap && n !in NamesOf(us) ==> up[n] == ap[n]
    requires forall i :: 0 <= i < |us| ==> us[i].name in ap && us[i].name in up && up[us[i].name] == Effective(ap[us[i].name], us[i])
    ensures forall n :: Get(up, n) == NextDoc(docs, cm, readTime, n)
  {
    forall n
      ensures Get(up, n) == NextDoc(docs, cm, readTime, n)
    {
      NameSources(docs, cm, readTime, ds, as_, us, n);
      match Lookup(cm, n)
      case None =>
      case Some(RemovedMarker) =>
        NameRemoved(docs, cm, ds, n);
      case Some(Changed(p)) =>
        NameChanged(docs, cm, readTime, as_, us, ap, up, n);
    }
  }

  /** Which of the three sorted lists can name `n`, by what the accumulator
      holds for it. */
  lemma NameSources(docs: map<Name, Doc>, cm: ChangeMap, readTime: Timestamp,
                    ds: seq<Doc>, as_: seq<Doc>, us: seq<Doc>, n: Name)
    requires DeleteList(docs, cm, ds)
    requires PendingList(docs, cm, readTime, false, as_)
    requires PendingList(docs, cm, readTime, true, us)
    ensures n in NamesOf(ds) ==> n in docs && Lookup(cm, n) == Some(RemovedMarker)
    ensures n in NamesOf(as_) ==> n !in docs && HasPending(cm, n)
    ensures n in NamesOf(us) ==> n in docs && HasPending(cm, n)
  {
    if n in NamesOf(ds) {
      var i :| 0 <= i < |ds| && ds[i].name == n;
    }
    if n in NamesOf(as_) {
      var i :| 0 <= i < |as_| && as_[i].name == n;
    }
    if n in NamesOf(us) {
      var i :| 0 <= i < |us| && us[i].name == n;
    }
  }

  /** A known document the accumulator marks REMOVED is on the delete list. */
  lemma NameRemoved(docs: map<Name, Doc>, cm: ChangeMap, ds: seq<Doc>, n: Name)
    requires KeyedByName(docs) && DeleteList(docs, cm, ds) && Lookup(cm, n) == Some(RemovedMarker)
    ensures n in docs ==> n in NamesOf(ds)
  {
    if n in docs {
      assert docs[n] in ds;
      var i :| 0 <= i < |ds| && ds[i] == docs[n];
    }
  }

  /** A pending snapshot ends up in the map: as an addition under a new name,
      or as an update of the stored version under a known one. */
  lemma NameChanged(docs: map<Name, Doc>, cm: ChangeMap, readTime: Timestamp,
                    as_: seq<Doc>, us: seq<Doc>, ap: map<Name, Doc>, up: map<Name, Doc>, n: Name)
    requires PendingList(docs, cm, readTime, false, as_)
    requires PendingList(docs, cm, readTime, true, us)
    requires HasPending(cm, n)
    requires forall i :: 0 <= i < |as_| ==> as_[i].name in ap && ap[as_[i].name] == as_[i]
    requires forall i :: 0 <= i < |us| ==> us[i].name in ap && us[i].name in up && up[us[i].name] == Effective(ap[us[i].name], us[i])
    ensures n !in docs ==> n in ap && ap[n] == Build(n, Lookup(cm, n).value.pending, readTime)
    ensures n in docs ==> n in up && up[n] == Effective(ap[n], Build(n, Lookup(cm, n).value.pending, readTime))
  {
    var b := Build(n, Lookup(cm, n).value.pending, readTime);
    if n in docs {
      assert b in us;
      var i :| 0 <= i < |us| && us[i] == b;
    } else {
      assert b in as_;
      var i :| 0 <= i < |as_| && as_[i] == b;
    }
  }
}

=== FILE: status.dfy ===
/** The gRPC status codes the client library compares error codes against
    (the `Status` enumeration of the gRPC runtime). */
module Status {
  import opened Wrappers

  const OK := 0
  const CANCELLED := 1
  const UNKNOWN := 2
  const INVALID_ARGUMENT := 3
  const DEADLINE_EXCEEDED := 4
  const NOT_FOUND := 5
  const ALREADY_EXISTS := 6
  const PERMISSION_DENIED := 7
  const RESOURCE_EXHAUSTED := 8
  const FAILED_PRECONDITION := 9
  const ABORTED := 10
  const OUT_OF_RANGE := 11
  const UNIMPLEMENTED := 12
  const INTERNAL := 13
  const UNAVAILABLE := 14
  const DATA_LOSS := 15
  const UNAUTHENTICATED := 16

  /** `Status[name]`: the numeric code of a status name, `None` for a name
      the enumeration does not define (JavaScript yields `undefined`). */
  function CodeOf(name: string): (r: Option<int>)
    ensures r.Some? ==> OK <= r.value <= UNAUTHENTICATED
  {
    match name
    case "OK" => Some(OK)
    case "CANCELLED" => Some(CANCELLED)
    case "UNKNOWN" => Some(UNKNOWN)
    case "INVALID_ARGUMENT" => Some(INVALID_ARGUMENT)
    case "DEADLINE_EXCEEDED" => Some(DEADLINE_EXCEEDED)
    case "NOT_FOUND" => Some(NOT_FOUND)
    case "ALREADY_EXISTS" => Some(ALREADY_EXISTS)
    case "PERMISSION_DENIED" => Some(PERMISSION_DENIED)
    case "RESOURCE_EXHAUSTED" => Some(RESOURCE_EXHAUSTED)
    case "FAILED_PRECONDITION" => Some(FAILED_PRECONDITION)
    case "ABORTED" => Some(ABORTED)
    case "OUT_OF_RANGE" => Some(OUT_OF_RANGE)
    case "UNIMPLEMENTED" => Some(UNIMPLEMENTED)
    case "INTERNAL" => Some(INTERNAL)
    case "UNAVAILABLE" => Some(UNAVAILABLE)
    case "DATA_LOSS" => Some(DATA_LOSS)
    case "UNAUTHENTICATED" => Some(UNAUTHENTICATED)
    case _ => None
  }

  /** The status names, indexed by code. */
  const NAMES: seq<string> := ["OK", "CANCELLED", "UNKNOWN", "INVALID_ARGUMENT", "DEADLINE_EXCEEDED",
                               "NOT_FOUND", "ALREADY_EXISTS", "PERMISSION_DENIED", "RESOURCE_EXHAUSTED",
                               "FAILED_PRECONDITION", "ABORTED", "OUT_OF_RANGE", "UNIMPLEMENTED", "INTERNAL",
                               "UNAVAILABLE", "DATA_LOSS", "UNAUTHENTICATED"]

  /** Every code is named, and its name looks it up again: the name table
      and `CodeOf` are inverse. */
  lemma NamesRoundTrip(c: int)
    requires OK <= c <= UNAUTHENTICATED
    ensures c < |NAMES| && CodeOf(NAMES[c]) == Some(c)
  {
  }
}

=== FILE: util.dfy ===
/** Small helpers of the client library: client-side document identifiers,
    request tags, and the retry classification of RPC errors. */
module Util {
  import opened Wrappers
  import Status

  // ---------------------------------------------------------------------
  // autoId and requestTag

  /** The 62-character alphabet of generated identifiers: the upper-case
      letters, the lower-case letters, then the digits. */
  const CHARS: string := Range('A', 26) + Range('a', 26) + Range('0', 10)

  /** `n` consecutive characters from `first`. */
  function Range(first: char, n: nat): (r: string)
    requires first as int + n <= 0xD800
    ensures |r| == n && forall i :: 0 <= i < n ==> r[i] as int == first as int + i
  {
    seq(n, i requires 0 <= i < n => (first as int + i) as char)
  }

  /** The alphabet, spelled out (in pieces) as the JavaScript client writes it. */
  lemma AlphabetSpelled()
    ensures CHARS == "ABCDEFGHIJKLM" + "NOPQRSTUVWXYZ" + "abcdefghijklm" + "nopqrstuvwxyz" + "0123456789"
  {
    assert Range('A', 26) == Range('A', 13) + Range('N', 13);
    assert Range('a', 26) == Range('a', 13) + Range('n', 13);
    assert Range('A', 13) == "ABCDEFGHIJKLM";
    assert Range('N', 13) == "NOPQRSTUVWXYZ";
    assert Range('a', 13) == "abcdefghijklm";
    assert Range('n', 13) == "nopqrstuvwxyz";
    assert Range('0', 10) == "0123456789";
  }

  const AUTO_ID_LENGTH := 20

  const REQUEST_TAG_LENGTH := 5

  /** The alphabet position of a character, computed from its range. */
  function Position(ch: char): (r: Option<nat>)
    ensures r.Some? ==> r.value < |CHARS|
  {
    if 'A' <= ch <= 'Z' then Some(ch as int - 'A' as int)
    else if 'a' <= ch <= 'z' then Some(26 + ch as int - 'a' as int)
    else if '0' <= ch <= '9' then Some(52 + ch as int - '0' as int)
    else None
  }

  /** Every character of the alphabet sits at the position `Position`
      computes, so the alphabet has no repeated character and indexing into
      it can be undone. */
  lemma PositionInverts(k: nat)
    requires k < |CHARS|
    ensures Position(CHARS[k]) == Some(k)
  {
  }

  /** `autoId`. Each `Math.floor(Math.random() * 62)` draw is an entry of
      `picks`, an arbitrary index into the alphabet; the identifier is the
      twenty drawn characters in order, and the draws can be read back from
      it. */
  method AutoId(picks: seq<nat>) returns (id: string)
    requires |picks| == AUTO_ID_LENGTH
    requires forall i :: 0 <= i < |picks| ==> picks[i] < |CHARS|
    ensures |id| == AUTO_ID_LENGTH
    ensures forall i :: 0 <= i < |id| ==> id[i] in CHARS
    ensures forall i :: 0 <= i < |id| ==> Position(id[i]) == Some(picks[i])
  {
    id := "";
    var i := 0;
    while i < AUTO_ID_LENGTH
      invariant 0 <= i <= AUTO_ID_LENGTH && |id| == i
      invariant forall k :: 0 <= k < i ==> id[k] == CHARS[picks[k]]
    {
      id := id + [CHARS[picks[i]]];
      i := i + 1;
    }
    forall k | 0 <= k < |id|
      ensures id[k] in CHARS && Position(id[k]) == Some(picks[k])
    {
      PositionInverts(picks[k]);
    }
  }

  /** Two identifiers drawn from different picks differ. */
  lemma AutoIdInjective(a: string, b: string, pa: seq<nat>, pb: seq<nat>)
    requires |a| == |pa| && |b| == |pb|
    requires forall i :: 0 <= i < |a| ==> Position(a[i]) == Some(pa[i])
    requires forall i :: 0 <= i < |b| ==> Position(b[i]) == Some(pb[i])
    ensures a == b ==> pa == pb
  {
    if a == b {
      assert forall i :: 0 <= i < |pa| ==> Some(pa[i]) == Position(a[i]) == Some(pb[i]);
    }
  }

  /** `requestTag`: the first five characters of an identifier. */
  method RequestTag(picks: seq<nat>) returns (tag: string)
    requires |picks| == AUTO_ID_LENGTH
    requires forall i :: 0 <= i < |picks| ==> picks[i] < |CHARS|
    ensures |tag| == REQUEST_TAG_LENGTH
    ensures forall i :: 0 <= i < |tag| ==> tag[i] in CHARS && Position(tag[i]) == Some(picks[i])
  {
    var id := AutoId(picks);
    tag := id[..REQUEST_TAG_LENGTH];
  }

  // ---------------------------------------------------------------------
  // isPermanentRpcError

  /** The parts of a GAPIC client configuration the classification reads:
      each method's `retry_codes_name`, and the status names of each named
      retry list. */
  datatype ServiceConfig = ServiceConfig(methods: map<string, string>, retryCodes: map<string, seq<string>>)

  /** ASCII upper-casing of one character. */
  function UpperChar(ch: char): (r: char)
    ensures 'a' <= ch <= 'z' ==> 'A' <= r <= 'Z' && r as int - 'A' as int == ch as int - 'a' as int
    ensures !('a' <= ch <= 'z') ==> r == ch
  {
    if 'a' <= ch <= 'z' then (ch as int - 'a' as int + 'A' as int) as char else ch
  }

  /** The configuration key of an RPC method: its name with the first
      character upper-cased (`methodName[0].toUpperCase()`), which fails on
      an empty name. */
  function ConfigKey(methodName: string): (r: Result<string, string>)
    ensures r.Failure? <==> |methodName| == 0
    ensures r.Success? ==>
              && |r.value| == |methodName|
              && r.value[1..] == methodName[1..]
              && r.value[0] == UpperChar(methodName[0])
              && !('a' <= r.value[0] <= 'z')
              && ('A' <= methodName[0] <= 'Z' || !('a' <= methodName[0] <= 'z') ==> r.value == methodName)
  {
    if |methodName| == 0 then Failure("Cannot read properties of undefined")
    else Success([UpperChar(methodName[0])] + methodName[1..])
  }

  /** Keying is idempotent: a key is its own key. */
  lemma ConfigKeyIdempotent(methodName: string)
    requires |methodName| > 0
    ensures ConfigKey(ConfigKey(methodName).value) == ConfigKey(methodName)
  {
  }

  /** `isPermanentRpcError`: an error without a code is never permanent;
      one with a code is permanent exactly when the code is not among the
      retry codes configured for the method. A method or retry list missing
      from the configuration fails, as the JavaScript client's property reads do. */
  function IsPermanentRpcError(code: Option<int>, methodName: string, config: ServiceConfig): (r: Result<bool, string>)
    ensures code.None? ==> r == Success(false)
    ensures code.Some? ==>
              (r.Success? <==>
                 && ConfigKey(methodName).Success?
                 && ConfigKey(methodName).value in config.methods
                 && config.methods[ConfigKey(methodName).value] in config.retryCodes)
    ensures code.Some? && r.Success? ==>
              (r.value <==> forall n :: n in config.retryCodes[config.methods[ConfigKey(methodName).value]] ==>
                                         Status.CodeOf(n) != Some(code.value))
  {
    if code.None? then Success(false)
    else
      var key :- ConfigKey(methodName);
      if key !in config.methods then Failure("Cannot read properties of undefined")
      else
        var listName := config.methods[key];
        if listName !in config.retryCodes then Failure("Cannot read properties of undefined")
        else Success(!RetryCodesContain(config.retryCodes[listName], code.value))
  }

  /** `retryCodes.indexOf(code) !== -1` over the status names mapped to
      codes; a name the enumeration lacks maps to `undefined` and matches no
      code. */
  function RetryCodesContain(names: seq<string>, code: int): (r: bool)
    ensures r <==> exists i :: 0 <= i < |names| && Status.CodeOf(names[i]) == Some(code)
  {
    if |names| == 0 then false
    else Status.CodeOf(names[0]) == Some(code) || RetryCodesContain(names[1..], code)
  }
}

=== FILE: watch.dfy ===
/** The listen session of a query or document listener: the flags that track
    the stream, the handling of each listen response, and the snapshot push
    that runs the diff engine at every consistency point.

    Every step is a pure function from the session and one event to the new
    session and the list of outward effects the step performs, in order:
    user callbacks, stream ends, stream (re)starts and backoff adjustments.
    The asynchronous parts of `initStream` are events of their own: the
    backoff delay elapsing, the backend stream becoming available, and the
    attempt failing. */
module Watch {
  import opened Wrappers
  import opened Status
  import opened DocIndex
  import opened ChangeAccumulator
  import opened SnapshotDiff

  /** The fixed target id of the one target a listen stream carries. */
  const WATCH_TARGET_ID := 1

  /** A resume token; opaque bytes compared only for identity. */
  type Token = seq<int>

  datatype TargetChangeType = NoChange | Add | Remove | Reset | Current | UnknownType

  /** The `cause` of a REMOVE target change. */
  datatype Cause = Cause(code: int, message: string)

  /** A `ListenResponse`. Document names are the relative names the
      response's qualified names parse to; an absent `targetIds` list is the
      empty list. A delete and a remove of a document are handled alike. */
  datatype ListenResponse =
    | TargetChange(changeType: TargetChangeType, targetIds: seq<int>, cause: Option<Cause>,
                   readTime: Option<Timestamp>, resumeToken: Option<Token>)
    | DocumentChange(name: Name, doc: Pending, targetIds: seq<int>, removedTargetIds: seq<int>)
    | DocumentDelete(name: Name)
    | DocumentRemove(name: Name)
    | Filter(count: int)
    | Unrecognized

  /** The errors a listener reports or reacts to. Only the errors raised by
      the stream carry a gRPC code; the ones the listener makes itself are
      plain errors without one. */
  datatype WatchError =
    | UnexpectedTargetId
    | TargetRemoved(code: int, message: string)
    | UnknownTargetChange
    | UnknownResponse
    | EndedUnexpectedly
    | RpcError(rpcCode: Option<int>)

  function ErrorCode(e: WatchError): Option<int> {
    match e
    case EndedUnexpectedly => Some(UNKNOWN)
    case RpcError(c) => c
    case _ => None
  }

  /** What one step does outside the session, in order. */
  datatype Effect =
    | Next(readTime: Timestamp, size: nat, docs: seq<Doc>, changes: seq<DocumentChange>)  // onNext
    | Error(err: WatchError)                  // onError
    | EndStream(stream: nat)                  // stream.end()
    | EmitEnd(stream: nat)                    // backendStream.emit('end') on a stream never adopted
    | InitStream                              // initStream(): wait for the backoff, then listen
    | Listen(resumeToken: Option<Token>)      // the listen request with its target
    | ResetBackoff                            // backoff.reset()
    | ResetBackoffToMax                       // backoff.resetToMax()

  /** The listener's fields. `listening` is false once the unsubscribe
      function has replaced the callbacks with no-ops; `stream` is the
      current backend stream, named by the order in which streams opened. */
  datatype Session = Session(index: Index, cm: ChangeMap, current: bool, hasPushed: bool,
                             isActive: bool, listening: bool, resumeToken: Option<Token>,
                             stream: Option<nat>, nextStream: nat)

  datatype Outcome = Outcome(state: Session, effects: seq<Effect>)

  ghost predicate Inv(less: (Doc, Doc) -> bool, s: Session) {
    Valid(less, s.index) && DistinctKeys(s.cm)
  }

  // ---------------------------------------------------------------------
  // Error classification

  /** The codes on which a listen stream is re-opened. */
  const TransientWatchCodes: set<int> :=
    {ABORTED, CANCELLED, UNKNOWN, DEADLINE_EXCEEDED, RESOURCE_EXHAUSTED, INTERNAL, UNAVAILABLE, UNAUTHENTICATED}

  /** `isPermanentWatchError`: an error without a code is transient, and so
      are the eight codes above; every other code is permanent. */
  function IsPermanentWatchError(code: Option<int>): (r: bool)
    ensures code.None? ==> !r
    ensures code.Some? ==> (r <==> code.value !in TransientWatchCodes)
  {
    match code
    case None => false
    case Some(c) =>
      if c == ABORTED then false
      else if c == CANCELLED then false
      else if c == UNKNOWN then false
      else if c == DEADLINE_EXCEEDED then false
      else if c == RESOURCE_EXHAUSTED then false
      else if c == INTERNAL then false
      else if c == UNAVAILABLE then false
      else if c == UNAUTHENTICATED then false
      else true
  }

  /** `isResourceExhaustedError`. */
  function IsResourceExhaustedError(code: Option<int>): (r: bool)
    ensures r ==> !IsPermanentWatchError(code)
    ensures r <==> code == Some(RESOURCE_EXHAUSTED)
  {
    code.Some? && code.value == RESOURCE_EXHAUSTED
  }

  /** A stream that ends without an error is retried. */
  lemma EndedIsTransient()
    ensures !IsPermanentWatchError(ErrorCode(EndedUnexpectedly))
    ensures !IsResourceExhaustedError(ErrorCode(EndedUnexpectedly))
  {
  }

  /** Whether `id` occurs in `ids`, scanning from the front. */
  function ContainsId(ids: seq<int>, id: int): (r: bool)
    ensures r <==> exists i :: 0 <= i < |ids| && ids[i] == id
  {
    if |ids| == 0 then false
    else if ids[0] == id then true
    else
      var r := ContainsId(ids[1..], id);
      assert forall i :: 0 < i < |ids| ==> ids[i] == ids[1..][i - 1];
      r
  }

  /** `affectsTarget`: a change without target ids affects every target. */
  function AffectsTarget(targetIds: seq<int>, currentId: int): (r: bool)
    ensures r <==> |targetIds| == 0 || currentId in targetIds
  {
    |targetIds| == 0 || ContainsId(targetIds, currentId)
  }

  // ---------------------------------------------------------------------
  // Stream control

  /** `closeStream`: ends the current stream and, the first time only,
      deactivates the listener and reports the error. */
  function CloseStream(s: Session, err: WatchError): (r: Outcome)
    ensures r.state == s.(stream := None, isActive := false)
    ensures r.effects == (if s.stream.Some? then [EndStream(s.stream.value)] else [])
                         + (if s.isActive then [Error(err)] else [])
  {
    var ended := if s.stream.Some? then [EndStream(s.stream.value)] else [];
    if s.isActive then Outcome(s.(stream := None, isActive := false), ended + [Error(err)])
    else Outcome(s.(stream := None), ended)
  }

  /** `maybeReopenStream`: an active listener retries a transient error
      (with the longest backoff after RESOURCE_EXHAUSTED), dropping the
      changes accumulated so far but keeping the resume token; anything
      else closes the stream. */
  function MaybeReopenStream(s: Session, err: WatchError): (r: Outcome)
    ensures s.isActive && !IsPermanentWatchError(ErrorCode(err)) ==>
              && r.state == s.(cm := [])
              && r.effects == (if ErrorCode(err) == Some(RESOURCE_EXHAUSTED) then [ResetBackoffToMax] else []) + [InitStream]
    ensures !(s.isActive && !IsPermanentWatchError(ErrorCode(err))) ==> r == CloseStream(s, err)
  {
    if s.isActive && !IsPermanentWatchError(ErrorCode(err)) then
      var backoff := if IsResourceExhaustedError(ErrorCode(err)) then [ResetBackoffToMax] else [];
      Outcome(s.(cm := []), backoff + [InitStream])
    else
      CloseStream(s, err)
  }

  /** `resetStream`: ends the current stream and starts a new one. */
  function ResetStream(s: Session): (r: Outcome)
    ensures r.state == s.(stream := None)
    ensures r.effects == (if s.stream.Some? then [EndStream(s.stream.value)] else []) + [InitStream]
  {
    var ended := if s.stream.Some? then [EndStream(s.stream.value)] else [];
    Outcome(s.(stream := None), ended + [InitStream])
  }

  // ---------------------------------------------------------------------
  // Document state

  /** `resetDocs`: forget the resume token and the consistency flag and mark
      every document of the last snapshot REMOVED, so that the server must
      send again whatever still matches. */
  function ResetDocs(less: (Doc, Doc) -> bool, s: Session): (r: Session)
    requires Valid(less, s.index)
    ensures Inv(less, r)
    ensures forall n :: Lookup(r.cm, n) == (if n in s.index.docs then Some(RemovedMarker) else None)
    ensures r == s.(cm := r.cm, resumeToken := None, current := false)
  {
    LinkedCovers(s.index.tree, s.index.docs);
    s.(cm := MarkAllRemoved(s.index.tree), resumeToken := None, current := false)
  }

  /** `pushSnapshot`: runs the diff at `readTime`, hands the result to
      `onNext` if this is the first snapshot or anything changed, and starts
      a new accumulation cycle under the given resume token. The new map
      holds what the accumulated changes say; the change list handed over
      replays the old documents into the new ones, in phase order, and
      reports exactly the removals, additions and effective modifications.
      After the first snapshot, a cycle whose changes leave every document
      as it was (resends with unchanged update times, say) stays silent. */
  function PushSnapshot(less: (Doc, Doc) -> bool, s: Session, readTime: Timestamp, token: Option<Token>): (r: Outcome)
    requires IsDocOrder(less) && Inv(less, s)
    ensures Inv(less, r.state)
    ensures r.state == s.(index := r.state.index, cm := [], hasPushed := true, resumeToken := token)
    ensures forall n :: Get(r.state.index.docs, n) == NextDoc(s.index.docs, s.cm, readTime, n)
    ensures KeyedByName(s.index.docs) && |r.state.index.tree| == CurrentSize(s.index.docs, s.cm)
    ensures r.effects == [] || (|r.effects| == 1 && r.effects[0].Next?)
    ensures r.effects != [] ==>
              && s.listening
              && r.effects[0].readTime == readTime
              && r.effects[0].docs == r.state.index.tree
              && r.effects[0].size == |r.state.index.tree|
              && Replay(s.index.tree, r.effects[0].changes) == Some(r.state.index.tree)
              && StepsSorted(less, s.index.tree, r.effects[0].changes)
              && PhaseOrdered(less, r.effects[0].changes)
              && (s.hasPushed ==> |r.effects[0].changes| > 0)
    ensures s.listening && !s.hasPushed ==> r.effects != []
    ensures r.effects == [] && s.listening ==> r.state.index.tree == s.index.tree
    ensures s.listening && s.hasPushed ==> (r.effects == [] <==> r.state.index == s.index)
    ensures r.effects != [] ==>
              exists c :: SortedLists(less, s.index.docs, s.cm, readTime, c) && PhaseRecords(s.index.docs, r.effects[0].changes, c)
  {
    var snap := ComputeSnapshot(less, s.index, s.cm, readTime);
    var emit := !s.hasPushed || |snap.changes| > 0;
    var next := s.(index := snap.index, cm := [], hasPushed := true, resumeToken := token);
    if emit && s.listening then
      Outcome(next, [Next(readTime, |snap.index.tree|, snap.index.tree, snap.changes)])
    else
      Outcome(next, [])
  }

  /** `onNext` is called exactly when the listener is subscribed and this is
      the first snapshot or the diff produced a change. */
  lemma PushSnapshotNotifies(less: (Doc, Doc) -> bool, s: Session, readTime: Timestamp, token: Option<Token>)
    requires IsDocOrder(less) && Inv(less, s)
    ensures PushSnapshot(less, s, readTime, token).effects != [] <==>
              s.listening && (!s.hasPushed || |ComputeSnapshot(less, s.index, s.cm, readTime).changes| > 0)
  {
  }

  /** Each record handed to `onNext` carries the ranks of its document in
      the ordered results just before and just after it, as a consumer
      applying the list in order sees them. */
  lemma EmittedAtRanks(less: (Doc, Doc) -> bool, s: Session, readTime: Timestamp, token: Option<Token>, k: nat)
    requires IsDocOrder(less) && Inv(less, s)
    requires PushSnapshot(less, s, readTime, token).effects != []
    requires k < |PushSnapshot(less, s, readTime, token).effects[0].changes|
    ensures var cs := PushSnapshot(less, s, readTime, token).effects[0].changes;
            && Replay(s.index.tree, cs[..k]).Some?
            && ApplyChange(Replay(s.index.tree, cs[..k]).value, cs[k]).Some?
            && AtRank(less, Replay(s.index.tree, cs[..k]).value, cs[k],
                      ApplyChange(Replay(s.index.tree, cs[..k]).value, cs[k]).value)
  {
    StepsAtRanks(less, s.index.tree, PushSnapshot(less, s, readTime, token).effects[0].changes, k);
  }

  /** After the first snapshot, a cycle that only resent known documents
      with their stored update times leaves the documents as they were and
      calls nothing. */
  lemma ResendsStaySilent(less: (Doc, Doc) -> bool, s: Session, readTime: Timestamp, token: Option<Token>)
    requires IsDocOrder(less) && Inv(less, s) && s.hasPushed && OnlyResends(s.index.docs, s.cm)
    ensures PushSnapshot(less, s, readTime, token).effects == []
    ensures PushSnapshot(less, s, readTime, token).state.index == s.index
  {
    LinkedCovers(s.index.tree, s.index.docs);
    var c := SortedChanges(less, s.index.docs, s.cm, readTime);
    RunPhasesRecords(less, s.index, s.cm, readTime, c);
    ResendsChangeNothing(less, s.index.docs, s.cm, readTime);
  }

  // ---------------------------------------------------------------------
  // onData

  /** The target-change branch of `onData`. Whatever the change type, a
      change that carries a resume token and concerns this target resets the
      backoff afterwards. */
  function OnTargetChange(less: (Doc, Doc) -> bool, s: Session, changeType: TargetChangeType, targetIds: seq<int>,
                          cause: Option<Cause>, readTime: Option<Timestamp>, token: Option<Token>): (r: Outcome)
    requires IsDocOrder(less) && Inv(less, s)
    ensures Inv(less, r.state) && Laws(s, r)
  {
    var o := TargetChangeCore(less, s, changeType, targetIds, cause, readTime, token);
    var backoff := if token.Some? && AffectsTarget(targetIds, WATCH_TARGET_ID) then [ResetBackoff] else [];
    BackoffLaws(s, o, backoff);
    Outcome(o.state, o.effects + backoff)
  }

  /** The target-change branch of `onData` up to the backoff reset. */
  function TargetChangeCore(less: (Doc, Doc) -> bool, s: Session, changeType: TargetChangeType, targetIds: seq<int>,
                            cause: Option<Cause>, readTime: Option<Timestamp>, token: Option<Token>): (r: Outcome)
    requires IsDocOrder(less) && Inv(less, s)
    ensures Inv(less, r.state) && Laws(s, r)
  {
    match changeType
    case NoChange =>
      if |targetIds| == 0 && readTime.Some? && s.current then
        PushSnapshotLaws(less, s, readTime.value, token);
        PushSnapshot(less, s, readTime.value, token)
      else
        QuietLaws(s, Outcome(s, []));
        Outcome(s, [])
    case Add =>
      if |targetIds| == 0 || targetIds[0] != WATCH_TARGET_ID then
        CloseStreamLaws(s, UnexpectedTargetId);
        CloseStream(s, UnexpectedTargetId)
      else
        QuietLaws(s, Outcome(s, []));
        Outcome(s, [])
    case Remove =>
      var c := if cause.Some? then cause.value else Cause(INTERNAL, "internal error");
      CloseStreamLaws(s, TargetRemoved(c.code, c.message));
      CloseStream(s, TargetRemoved(c.code, c.message))
    case Reset =>
      QuietLaws(s, Outcome(ResetDocs(less, s), []));
      Outcome(ResetDocs(less, s), [])
    case Current =>
      QuietLaws(s, Outcome(s.(current := true), []));
      Outcome(s.(current := true), [])
    case UnknownType =>
      CloseStreamLaws(s, UnknownTargetChange);
      CloseStream(s, UnknownTargetChange)
  }

  /** The document-change branch of `onData`: a change naming this target
      records the new version; otherwise one that removes this target records
      REMOVED; otherwise nothing happens. */
  function OnDocumentChange(s: Session, name: Name, doc: Pending, targetIds: seq<int>, removedTargetIds: seq<int>): (r: Session)
    requires DistinctKeys(s.cm)
    ensures DistinctKeys(r.cm)
    ensures r == s.(cm := r.cm)
    ensures WATCH_TARGET_ID in targetIds ==> Lookup(r.cm, name) == Some(Changed(doc))
    ensures WATCH_TARGET_ID !in targetIds && WATCH_TARGET_ID in removedTargetIds ==>
              Lookup(r.cm, name) == Some(RemovedMarker)
    ensures WATCH_TARGET_ID !in targetIds && WATCH_TARGET_ID !in removedTargetIds ==> r.cm == s.cm
    ensures forall n :: n != name ==> Lookup(r.cm, n) == Lookup(s.cm, n)
  {
    if ContainsId(targetIds, WATCH_TARGET_ID) then s.(cm := Put(s.cm, name, Changed(doc)))
    else if ContainsId(removedTargetIds, WATCH_TARGET_ID) then s.(cm := Put(s.cm, name, RemovedMarker))
    else s
  }

  /** The filter branch of `onData`: a count that disagrees with the size
      the next snapshot would have resets the documents and restarts the
      stream. */
  function OnFilter(less: (Doc, Doc) -> bool, s: Session, count: int): (r: Outcome)
    requires Inv(less, s)
    ensures Inv(less, r.state) && Laws(s, r)
  {
    LinkedCovers(s.index.tree, s.index.docs);
    ResetIf(less, s, count != CurrentSize(s.index.docs, s.cm))
  }

  /** `resetDocs` followed by `resetStream` when `mismatch` holds, nothing
      otherwise. */
  function ResetIf(less: (Doc, Doc) -> bool, s: Session, mismatch: bool): (r: Outcome)
    requires Inv(less, s)
    ensures Inv(less, r.state) && Laws(s, r)
  {
    var r := if mismatch then ResetStream(ResetDocs(less, s)) else Outcome(s, []);
    QuietLaws(s, r);
    r
  }

  /** `onData`: dispatch on the kind of listen response. */
  function OnData(less: (Doc, Doc) -> bool, s: Session, msg: ListenResponse): (r: Outcome)
    requires IsDocOrder(less) && Inv(less, s)
    ensures Inv(less, r.state) && Laws(s, r)
  {
    match msg
    case TargetChange(changeType, targetIds, cause, readTime, token) =>
      OnTargetChange(less, s, changeType, targetIds, cause, readTime, token)
    case DocumentChange(name, doc, targetIds, removedTargetIds) =>
      var r := Outcome(OnDocumentChange(s, name, doc, targetIds, removedTargetIds), []);
      QuietLaws(s, r);
      r
    case DocumentDelete(name) =>
      var r := Outcome(s.(cm := Put(s.cm, name, RemovedMarker)), []);
      QuietLaws(s, r);
      r
    case DocumentRemove(name) =>
      var r := Outcome(s.(cm := Put(s.cm, name, RemovedMarker)), []);
      QuietLaws(s, r);
      r
    case Filter(count) => OnFilter(less, s, count)
    case Unrecognized =>
      CloseStreamLaws(s, UnknownResponse);
      CloseStream(s, UnknownResponse)
  }

  // ---------------------------------------------------------------------
  // Events

  datatype Event =
    | Data(msg: ListenResponse)
    | BackoffElapsed                          // initStream's backoff wait is over
    | StreamOpened                            // the requested backend stream is available
    | InitFailed(err: WatchError)             // initStream's attempt failed
    | StreamFailed(stream: nat, err: WatchError)
    | StreamEnded(stream: nat)
    | Unsubscribe                             // the function onSnapshot returned is called

  /** `onSnapshot`: a fresh listener with an empty index starts its first
      stream. */
  function Subscribe(): (r: Outcome)
    ensures r.state.isActive && r.state.listening && !r.state.hasPushed && !r.state.current
    ensures r.state.index.tree == [] && r.state.cm == [] && r.state.stream.None?
    ensures r.effects == [InitStream]
  {
    Outcome(Session(EmptyIndex, [], false, false, true, true, None, None, 0), [InitStream])
  }

  function Step(less: (Doc, Doc) -> bool, s: Session, e: Event): (r: Outcome)
    requires IsDocOrder(less) && Inv(less, s)
    ensures Inv(less, r.state) && Laws(s, r)
  {
    match e
    case Data(msg) => OnData(less, s, msg)
    case InitFailed(err) =>
      CloseStreamLaws(s, err);
      CloseStream(s, err)
    case StreamFailed(id, err) => StreamDone(s, id, err)
    case StreamEnded(id) => StreamDone(s, id, EndedUnexpectedly)
    case _ =>
      var r := Control(s, e);
      ControlLaws(s, e);
      r
  }

  /** The `error` and `end` handlers of a backend stream: only the current
      stream's events count, and they go through `maybeReopenStream`. */
  function StreamDone(s: Session, id: nat, err: WatchError): (r: Outcome)
    ensures Laws(s, r)
    ensures r.state.index == s.index && (r.state.cm == s.cm || r.state.cm == [])
    ensures s.stream != Some(id) ==> r == Outcome(s, [])
    ensures s.stream == Some(id) ==> r == MaybeReopenStream(s.(stream := None), err)
  {
    if s.stream == Some(id) then
      ReopenLaws(s.(stream := None), err);
      MaybeReopenStream(s.(stream := None), err)
    else
      QuietLaws(s, Outcome(s, []));
      Outcome(s, [])
  }

  /** The events that only touch the stream bookkeeping: the backoff wait of
      `initStream` ending (an inactive listener stops there), the requested
      stream arriving (an inactive listener emits `end` on it without
      adopting it), and the
      unsubscribe function, which deactivates the listener, silences both
      callbacks and ends the current stream. */
  function Control(s: Session, e: Event): (r: Outcome)
    requires e.BackoffElapsed? || e.StreamOpened? || e.Unsubscribe?
    ensures r.state.index == s.index && r.state.cm == s.cm && r.state.resumeToken == s.resumeToken
    ensures e.BackoffElapsed? ==> r == Outcome(s, if s.isActive then [Listen(s.resumeToken)] else [])
    ensures e.StreamOpened? ==>
              && r.state == s.(stream := if s.isActive then Some(s.nextStream) else s.stream,
                               nextStream := s.nextStream + 1)
              && r.effects == if s.isActive then [] else [EmitEnd(s.nextStream)]
    ensures e.Unsubscribe? ==>
              && r.state == s.(isActive := false, listening := false)
              && r.effects == if s.stream.Some? then [EndStream(s.stream.value)] else []
  {
    match e
    case BackoffElapsed =>
      if s.isActive then Outcome(s, [Listen(s.resumeToken)]) else Outcome(s, [])
    case StreamOpened =>
      if s.isActive then Outcome(s.(stream := Some(s.nextStream), nextStream := s.nextStream + 1), [])
      else Outcome(s.(nextStream := s.nextStream + 1), [EmitEnd(s.nextStream)])
    case Unsubscribe =>
      Outcome(s.(isActive := false, listening := false),
              if s.stream.Some? then [EndStream(s.stream.value)] else [])
  }

  lemma ControlLaws(s: Session, e: Event)
    requires e.BackoffElapsed? || e.StreamOpened? || e.Unsubscribe?
    ensures Laws(s, Control(s, e))
  {
    var r := Control(s, e);
    assert ErrorCount(r.effects) == 0 && NoNext(r.effects);
    if !e.Unsubscribe? {
      QuietLaws(s, r);
    }
  }

  /** A run of events from session `s`, with the effects of every step in
      order. */
  function Run(less: (Doc, Doc) -> bool, s: Session, es: seq<Event>): (r: Outcome)
    requires IsDocOrder(less) && Inv(less, s)
    ensures Inv(less, r.state)
    decreases |es|
  {
    if |es| == 0 then Outcome(s, [])
    else
      var o := Step(less, s, es[0]);
      var rest := Run(less, o.state, es[1..]);
      Outcome(rest.state, o.effects + rest.effects)
  }

  // ---------------------------------------------------------------------
  // What the user's callbacks observe

  /** The number of `onError` calls among `es`. */
  function ErrorCount(es: seq<Effect>): (r: nat)
    ensures r <= |es|
    ensures r == 0 <==> forall i :: 0 <= i < |es| ==> !es[i].Error?
  {
    if |es| == 0 then 0
    else (if es[0].Error? then 1 else 0) + ErrorCount(es[1..])
  }

  lemma {:induction false} ErrorCountAppend(a: seq<Effect>, b: seq<Effect>)
    ensures ErrorCount(a + b) == ErrorCount(a) + ErrorCount(b)
    decreases |a|
  {
    if |a| > 0 {
      ErrorCountAppend(a[1..], b);
      assert (a + b)[1..] == a[1..] + b;
    } else {
      assert a + b == b;
    }
  }

  /** No `onNext` call among `es`. */
  ghost predicate NoNext(es: seq<Effect>) {
    forall i :: 0 <= i < |es| ==> !es[i].Next?
  }

  /** A consumer that keeps its own copy of the ordered results and applies
      the change list of every `onNext` call: `None` as soon as a snapshot's
      changes do not turn the copy into that snapshot's documents. */
  function Consume(view: seq<Doc>, es: seq<Effect>): Option<seq<Doc>>
    decreases |es|
  {
    if |es| == 0 then Some(view)
    else match es[0]
      case Next(_, size, docs, changes) =>
        if Replay(view, changes) == Some(docs) && size == |docs| then Consume(docs, es[1..]) else None
      case _ => Consume(view, es[1..])
  }

  lemma {:induction false} ConsumeAppend(view: seq<Doc>, a: seq<Effect>, b: seq<Effect>)
    ensures Consume(view, a + b) == (match Consume(view, a) case None => None case Some(v) => Consume(v, b))
    decreases |a|
  {
    if |a| > 0 {
      assert (a + b)[0] == a[0] && (a + b)[1..] == a[1..] + b;
      match a[0]
      case Next(_, size, docs, changes) =>
        if Replay(view, changes) == Some(docs) && size == |docs| {
          ConsumeAppend(docs, a[1..], b);
        }
      case _ =>
        ConsumeAppend(view, a[1..], b);
    } else {
      assert a + b == b;
    }
  }

  lemma {:induction false} ConsumeNoNext(view: seq<Doc>, es: seq<Effect>)
    requires NoNext(es)
    ensures Consume(view, es) == Some(view)
    decreases |es|
  {
    if |es| > 0 {
      assert !es[0].Next?;
      ConsumeNoNext(view, es[1..]);
    }
  }

  /** The laws every step and every run obey:
      - `onError` is called at most once, only while the listener is active,
        and never again once it has been called;
      - a listener that stops being active or listening never resumes;
      - after unsubscribing, `onNext` is never called;
      - while listening, the consumer's copy follows the document index. */
  ghost predicate Laws(s: Session, o: Outcome) {
    && ErrorCount(o.effects) <= (if s.isActive then 1 else 0)
    && (ErrorCount(o.effects) > 0 ==> !o.state.isActive)
    && (o.state.isActive ==> s.isActive)
    && (o.state.listening ==> s.listening)
    && (!s.listening ==> NoNext(o.effects))
    && (o.state.listening ==> Consume(s.index.tree, o.effects) == Some(o.state.index.tree))
  }

  /** A step that leaves the index and the callbacks alone and reports at
      most one error, only when it deactivates the listener. */
  lemma QuietLaws(s: Session, o: Outcome)
    requires o.state.index == s.index && o.state.listening == s.listening && NoNext(o.effects)
    requires o.state.isActive ==> s.isActive
    requires ErrorCount(o.effects) <= (if s.isActive then 1 else 0)
    requires ErrorCount(o.effects) > 0 ==> !o.state.isActive
    ensures Laws(s, o)
  {
    ConsumeNoNext(s.index.tree, o.effects);
  }

  lemma CloseStreamLaws(s: Session, err: WatchError)
    ensures Laws(s, CloseStream(s, err))
  {
    var o := CloseStream(s, err);
    var ended := if s.stream.Some? then [EndStream(s.stream.value)] else [];
    var reported := if s.isActive then [Error(err)] else [];
    ErrorCountAppend(ended, reported);
    assert ErrorCount(reported) == (if s.isActive then 1 else 0);
    QuietLaws(s, o);
  }

  lemma PushSnapshotLaws(less: (Doc, Doc) -> bool, s: Session, readTime: Timestamp, token: Option<Token>)
    requires IsDocOrder(less) && Inv(less, s)
    ensures Laws(s, PushSnapshot(less, s, readTime, token))
  {
    NotifyLaws(s, PushSnapshot(less, s, readTime, token));
  }

  /** A step that keeps the flags and either reports nothing while leaving
      the documents alone, or reports one snapshot whose changes lead from
      the old documents to the new ones. */
  lemma NotifyLaws(s: Session, o: Outcome)
    requires o.state.listening == s.listening && o.state.isActive == s.isActive
    requires o.effects == [] || (|o.effects| == 1 && o.effects[0].Next?)
    requires o.effects != [] ==>
               && s.listening
               && o.effects[0].docs == o.state.index.tree
               && o.effects[0].size == |o.state.index.tree|
               && Replay(s.index.tree, o.effects[0].changes) == Some(o.state.index.tree)
    requires o.effects == [] && s.listening ==> o.state.index.tree == s.index.tree
    ensures Laws(s, o)
  {
    if o.effects != [] {
      assert o.effects[1..] == [];
      assert Consume(s.index.tree, o.effects) == Consume(o.state.index.tree, []);
    }
  }

  lemma BackoffLaws(s: Session, o: Outcome, extra: seq<Effect>)
    requires Laws(s, o) && NoNext(extra) && ErrorCount(extra) == 0
    ensures Laws(s, Outcome(o.state, o.effects + extra))
  {
    ErrorCountAppend(o.effects, extra);
    ConsumeAppend(s.index.tree, o.effects, extra);
    if o.state.listening {
      ConsumeNoNext(o.state.index.tree, extra);
    }
  }

  lemma ReopenLaws(s: Session, err: WatchError)
    ensures Laws(s, MaybeReopenStream(s, err))
  {
    if s.isActive && !IsPermanentWatchError(ErrorCode(err)) {
      var o := MaybeReopenStream(s, err);
      var backoff := if ErrorCode(err) == Some(RESOURCE_EXHAUSTED) then [ResetBackoffToMax] else [];
      ErrorCountAppend(backoff, [InitStream]);
      QuietLaws(s, o);
    } else {
      CloseStreamLaws(s, err);
    }
  }

  /** The laws hold for every run, however the events interleave. */
  lemma {:induction false} RunLaws(less: (Doc, Doc) -> bool, s: Session, es: seq<Event>)
    requires IsDocOrder(less) && Inv(less, s)
    ensures Laws(s, Run(less, s, es))
    decreases |es|
  {
    if |es| == 0 {
      QuietLaws(s, Outcome(s, []));
    } else {
      var o := Step(less, s, es[0]);
      var rest := Run(less, o.state, es[1..]);
      RunLaws(less, o.state, es[1..]);
      ComposeLaws(s, o, rest);
    }
  }

  /** The laws of two consecutive stretches give the laws of both. */
  lemma ComposeLaws(s: Session, o: Outcome, rest: Outcome)
    requires Laws(s, o) && Laws(o.state, rest)
    ensures Laws(s, Outcome(rest.state, o.effects + rest.effects))
  {
    ErrorCountAppend(o.effects, rest.effects);
    ConsumeAppend(s.index.tree, o.effects, rest.effects);
    if !s.listening {
      forall i | 0 <= i < |o.effects + rest.effects|
        ensures !(o.effects + rest.effects)[i].Next?
      {
        if i >= |o.effects| {
          assert (o.effects + rest.effects)[i] == rest.effects[i - |o.effects|];
        }
      }
    }
  }

  /** `onError` is called at most once over the life of a listener. */
  lemma ErrorAtMostOnce(less: (Doc, Doc) -> bool, es: seq<Event>)
    requires IsDocOrder(less)
    ensures ErrorCount(Subscribe().effects + Run(less, Subscribe().state, es).effects) <= 1
  {
    RunLaws(less, Subscribe().state, es);
    ErrorCountAppend(Subscribe().effects, Run(less, Subscribe().state, es).effects);
  }

  /** After the unsubscribe function has run, no callback is ever invoked. */
  lemma SilentAfterUnsubscribe(less: (Doc, Doc) -> bool, s: Session, es: seq<Event>)
    requires IsDocOrder(less) && Inv(less, s)
    ensures var r := Run(less, Step(less, s, Unsubscribe).state, es);
            NoNext(r.effects) && ErrorCount(r.effects) == 0
  {
    RunLaws(less, Step(less, s, Unsubscribe).state, es);
  }

  /** A consumer that starts with no documents and applies every snapshot's
      change list holds exactly the listener's ordered documents, for as
      long as the listener is subscribed. */
  lemma ConsumerTracksIndex(less: (Doc, Doc) -> bool, es: seq<Event>)
    requires IsDocOrder(less)
    ensures var r := Run(less, Subscribe().state, es);
            r.state.listening ==> Consume([], r.effects) == Some(r.state.index.tree)
  {
    RunLaws(less, Subscribe().state, es);
  }

  // ---------------------------------------------------------------------
  // The rules of onData and of the stream handlers, one response at a time

  /** The backoff reset that follows a target change. */
  function BackoffAfter(targetIds: seq<int>, token: Option<Token>): seq<Effect> {
    if token.Some? && AffectsTarget(targetIds, WATCH_TARGET_ID) then [ResetBackoff] else []
  }

  /** NO_CHANGE is a consistency point only when it names no target, carries
      a read time and the target is current: then the snapshot is pushed,
      the accumulator emptied and the change's resume token kept. Otherwise
      nothing but the backoff reset happens. */
  lemma NoChangeRule(less: (Doc, Doc) -> bool, s: Session, targetIds: seq<int>, cause: Option<Cause>,
                     readTime: Option<Timestamp>, token: Option<Token>)
    requires IsDocOrder(less) && Inv(less, s)
    ensures var r := OnData(less, s, TargetChange(NoChange, targetIds, cause, readTime, token));
            if |targetIds| == 0 && readTime.Some? && s.current then
              && r.state.cm == [] && r.state.resumeToken == token && r.state.hasPushed
              && r.state.current && r.state.isActive == s.isActive
              && (forall n :: Get(r.state.index.docs, n) == NextDoc(s.index.docs, s.cm, readTime.value, n))
            else
              r == Outcome(s, BackoffAfter(targetIds, token))
  {
    var core := TargetChangeCore(less, s, NoChange, targetIds, cause, readTime, token);
    if !(|targetIds| == 0 && readTime.Some? && s.current) {
      assert core == Outcome(s, []);
      assert core.effects + BackoffAfter(targetIds, token) == BackoffAfter(targetIds, token);
    }
  }

  /** CURRENT only marks the target current. */
  lemma CurrentRule(less: (Doc, Doc) -> bool, s: Session, targetIds: seq<int>, cause: Option<Cause>,
                    readTime: Option<Timestamp>, token: Option<Token>)
    requires IsDocOrder(less) && Inv(less, s)
    ensures OnData(less, s, TargetChange(Current, targetIds, cause, readTime, token))
            == Outcome(s.(current := true), BackoffAfter(targetIds, token))
  {
    assert [] + BackoffAfter(targetIds, token) == BackoffAfter(targetIds, token);
  }

  /** ADD must name the watch target first; anything else closes the
      stream with an error. */
  lemma AddRule(less: (Doc, Doc) -> bool, s: Session, targetIds: seq<int>, cause: Option<Cause>,
                readTime: Option<Timestamp>, token: Option<Token>)
    requires IsDocOrder(less) && Inv(less, s)
    ensures var r := OnData(less, s, TargetChange(Add, targetIds, cause, readTime, token));
            if |targetIds| > 0 && targetIds[0] == WATCH_TARGET_ID then
              r == Outcome(s, BackoffAfter(targetIds, token))
            else
              && r.state == s.(stream := None, isActive := false)
              && (s.isActive <==> Error(UnexpectedTargetId) in r.effects)
  {
    var r := OnData(less, s, TargetChange(Add, targetIds, cause, readTime, token));
    if |targetIds| > 0 && targetIds[0] == WATCH_TARGET_ID {
      assert [] + BackoffAfter(targetIds, token) == BackoffAfter(targetIds, token);
    } else {
      var o := CloseStream(s, UnexpectedTargetId);
      assert r.effects == o.effects + BackoffAfter(targetIds, token);
      if s.isActive {
        assert r.effects[|o.effects| - 1] == Error(UnexpectedTargetId);
      } else {
        assert ErrorCount(o.effects) == 0;
        ErrorCountAppend(o.effects, BackoffAfter(targetIds, token));
      }
    }
  }

  /** REMOVE closes the stream, reporting the server's cause or, without
      one, INTERNAL with the message "internal error". */
  lemma RemoveRule(less: (Doc, Doc) -> bool, s: Session, targetIds: seq<int>, cause: Option<Cause>,
                   readTime: Option<Timestamp>, token: Option<Token>)
    requires IsDocOrder(less) && Inv(less, s) && s.isActive
    ensures var r := OnData(less, s, TargetChange(Remove, targetIds, cause, readTime, token));
            && r.state == s.(stream := None, isActive := false)
            && (cause.Some? ==> Error(TargetRemoved(cause.value.code, cause.value.message)) in r.effects)
            && (cause.None? ==> Error(TargetRemoved(INTERNAL, "internal error")) in r.effects)
  {
    var c := if cause.Some? then cause.value else Cause(INTERNAL, "internal error");
    var o := CloseStream(s, TargetRemoved(c.code, c.message));
    assert o.effects[|o.effects| - 1] == Error(TargetRemoved(c.code, c.message));
  }

  /** RESET forgets the resume token and the consistency flag and marks
      every known document REMOVED, leaving the index as it is until the
      next snapshot. */
  lemma ResetRule(less: (Doc, Doc) -> bool, s: Session, targetIds: seq<int>, cause: Option<Cause>,
                  readTime: Option<Timestamp>, token: Option<Token>)
    requires IsDocOrder(less) && Inv(less, s)
    ensures var r := OnData(less, s, TargetChange(Reset, targetIds, cause, readTime, token));
            && r.state.index == s.index && r.state.resumeToken.None? && !r.state.current
            && (forall n :: Lookup(r.state.cm, n) == (if n in s.index.docs then Some(RemovedMarker) else None))
            && r.effects == BackoffAfter(targetIds, token)
  {
    assert [] + BackoffAfter(targetIds, token) == BackoffAfter(targetIds, token);
  }

  /** A snapshot taken right after a reset, with nothing sent again, holds
      no documents: every document of the old one is removed. */
  lemma ResetEmptiesSnapshot(less: (Doc, Doc) -> bool, s: Session, readTime: Timestamp)
    requires IsDocOrder(less) && Inv(less, s)
    ensures ComputeSnapshot(less, s.index, ResetDocs(less, s).cm, readTime).index.tree == []
    ensures CurrentSize(s.index.docs, ResetDocs(less, s).cm) == 0
  {
    var cm := ResetDocs(less, s).cm;
    var snap := ComputeSnapshot(less, s.index, cm, readTime);
    forall n
      ensures n !in snap.index.docs
    {
      assert Get(snap.index.docs, n) == NextDoc(s.index.docs, cm, readTime, n);
    }
    assert snap.index.docs.Keys == {};
  }

  /** A filter whose count disagrees with the size the next snapshot would
      have resets the documents and restarts the stream; a matching count
      changes nothing. */
  lemma FilterRule(less: (Doc, Doc) -> bool, s: Session, count: int)
    requires IsDocOrder(less) && Inv(less, s)
    ensures KeyedByName(s.index.docs)
    ensures var r := OnData(less, s, Filter(count));
            if count == CurrentSize(s.index.docs, s.cm) then r == Outcome(s, [])
            else
              && r.state == s.(cm := r.state.cm, resumeToken := None, current := false, stream := None)
              && (forall n :: Lookup(r.state.cm, n) == (if n in s.index.docs then Some(RemovedMarker) else None))
              && r.effects == (if s.stream.Some? then [EndStream(s.stream.value)] else []) + [InitStream]
  {
    LinkedCovers(s.index.tree, s.index.docs);
  }

  /** A transient error on the current stream keeps the listener active:
      the accumulated changes are dropped, a new stream is started, and its
      listen request resumes from the resume token held before the error. */
  lemma TransientErrorResumes(less: (Doc, Doc) -> bool, s: Session, id: nat, err: WatchError)
    requires IsDocOrder(less) && Inv(less, s)
    requires s.isActive && s.stream == Some(id) && !IsPermanentWatchError(ErrorCode(err))
    ensures var r := Step(less, s, StreamFailed(id, err));
            && r.state == s.(stream := None, cm := [])
            && ErrorCount(r.effects) == 0 && r.effects[|r.effects| - 1] == InitStream
            && Step(less, r.state, BackoffElapsed).effects == [Listen(s.resumeToken)]
  {
    var r := Step(less, s, StreamFailed(id, err));
    var backoff := if ErrorCode(err) == Some(RESOURCE_EXHAUSTED) then [ResetBackoffToMax] else [];
    ErrorCountAppend(backoff, [InitStream]);
  }

  /** A permanent error on the current stream deactivates the listener and
      reports the error; the stream is already gone, so nothing is ended. */
  lemma PermanentErrorCloses(less: (Doc, Doc) -> bool, s: Session, id: nat, err: WatchError)
    requires IsDocOrder(less) && Inv(less, s)
    requires s.stream == Some(id) && IsPermanentWatchError(ErrorCode(err))
    ensures Step(less, s, StreamFailed(id, err))
            == Outcome(s.(stream := None, isActive := false), if s.isActive then [Error(err)] else [])
  {
    assert [] + [Error(err)] == [Error(err)];
  }

  /** Errors and ends of a stream that is no longer the current one are
      ignored. */
  lemma StaleStreamIgnored(less: (Doc, Doc) -> bool, s: Session, id: nat, err: WatchError)
    requires IsDocOrder(less) && Inv(less, s) && s.stream != Some(id)
    ensures Step(less, s, StreamFailed(id, err)) == Outcome(s, [])
    ensures Step(less, s, StreamEnded(id)) == Outcome(s, [])
  {
  }
}

=== FILE: wrappers.dfy ===
/** Failure-carrying return values: the model's stand-in for thrown errors,
    rejected promises and `undefined` lookups. */
module Wrappers {

  datatype Option<+T> = None | Some(value: T)

  datatype Result<+T, +E> = Success(value: T) | Failure(error: E) {
    predicate IsFailure() {
      Failure?
    }

    function PropagateFailure<U>(): Result<U, E>
      requires Failure?
    {
      Failure(error)
    }

    function Extract(): T
      requires Success?
    {
      value
    }
  }
}
